=== FILE: README.md ===
# codelyzer lint rules, modelled in Dafny

This project models the core of a set of codelyzer rules. codelyzer is a
tslint plugin that lints Angular components. It covers the rules'
decisions: what each rule reports, where, and with which fix. The model
does not cover the TypeScript and Angular parsing that feeds those
decisions.

| file | module | models |
|---|---|---|
| `strings.dfy` | `Strings` | JavaScript's `\s`, ASCII lower-casing, prefixes, suffixes, joining |
| `readable_list.dfy` | `ReadableList` | `getReadableList`, the `"a", "b" or "c"` text used in messages |
| `class_suffix.dfy` | `ClassSuffix` | `directive-class-suffix` and `component-class-suffix` |
| `member_prefix.dfy` | `MemberPrefix`, `NoOutputOnPrefix`, `NoInputPrefix`, `NoOutputPrefix` | `no-output-on-prefix`, `no-input-prefix`, `no-output-prefix` |
| `relative_url.dfy` | `RelativeUrlPrefix` | `relative-url-prefix` |
| `regex.dfy` | `Regex` | the fragment of ECMAScript regular expressions the prefix rules use, and when `RegExp.test` succeeds |
| `global_scan.dfy` | `GlobalScan` | the search a global (`g`) regular expression performs with `exec`/`match` |
| `template_no_this.dfy` | `TemplateNoThis` | `template-no-this`: the `this.` pattern, failures, fixes, already-linted spans |
| `template_no_call.dfy` | `TemplateNoCallExpression` | `template-no-call-expression` over Angular binding expressions |
| `prefer_property_binding.dfy` | `PreferPropertyBinding` | `template-prefer-property-binding`: counting interpolations and the `[name]="expr"` rewrite |
| `css_match.dfy` | `CssMatch` | the template tree, the selector accessors, the dynamic-binding filter and selector matching |
| `unused_css.dfy` | `UnusedCss` | `no-unused-css`: selector normalisation, the verdict per selector, failures and the encapsulation gate |

The regular expressions the rules use are written out by hand. For
`template-no-this` and `template-prefer-property-binding`, lemmas tie
each hand-written matcher to a declarative statement of what its
expression matches, including look-behind, lazy and greedy groups, and
the leftmost-first choice. For the other rules, the statement is the
expression itself, written as a tree in `regex.dfy` where `RegExp.test`
is defined, and a lemma shows the hand-written test agrees with it for
every input:
- the three member-name prefix rules, where `no-input-prefix` builds one
  expression per configured prefix;
- `relative-url-prefix` (`PATTERN`);
- `no-unused-css`: the `/deep/`, `:host` and `::` patterns and the
  `className`/`ngClass` test of the class strategy.

The
Angular and TypeScript ASTs become small datatypes holding only the
fields the rules read. Offsets handed out by the host program become
plain parameters, for example the absolute position of a template span.

## Model

| member | source | states |
|---|---|---|
| ReadableList.GetReadableList | src/util/getReadableList.ts:1-10 | a non-empty list's text starts with the first item quoted and ends with the last item quoted; an empty list ends with the connector followed by `"undefined"` |
| ReadableList.GetReadableListIsListing | src/util/getReadableList.ts:4-9 | for every non-empty list the slice/join/pop construction equals an independent item-by-item listing: one item quoted alone, two joined by the connector, otherwise the first item, `, ` and the rest |
| ReadableList.ReadableListStep | src/util/getReadableList.ts:6-9 | past two items the text is the first quoted item, `, `, then the text for the remaining items |
| ReadableList.TwoItems | src/util/getReadableList.ts:6-9 | two items are separated by the connector alone, with no comma |
| ReadableList.ThreeItems | src/util/getReadableList.ts:6-9 | three items give `"a", "b" or "c"` |
| ReadableList.QuotesPerItem | src/util/getReadableList.ts:4-9 | when no item and not the connector holds a `"`, the text holds exactly two quotes per item, so each item is quoted exactly once |
| ClassSuffix.Validate | src/directiveClassSuffixRule.ts:40-42 | a class name passes exactly when it ends with at least one of the suffixes |
| ClassSuffix.DirectiveSuffixes | src/directiveClassSuffixRule.ts:56-63 | the configured suffixes in order, or `Directive` alone when none are configured, with `Validator` appended exactly when some implemented interface name ends with `Validator` |
| ClassSuffix.DirectiveFailure | src/directiveClassSuffixRule.ts:65-67 | a directive is reported exactly when its name ends with none of the effective suffixes; the message lists all of them joined with `or` |
| ClassSuffix.DirectiveVisit | src/directiveClassSuffixRule.ts:52-70 | an anonymous directive class, whose missing name the rule dereferences unchecked, is the crash outcome and only it is; a named class passes exactly when its name ends with one of the effective suffixes, and is otherwise reported with their readable list |
| ClassSuffix.ComponentSuffixes | src/componentClassSuffixRule.ts:48 | the configured suffixes, or `Component` when the list is empty |
| ClassSuffix.ComponentFailures | src/componentClassSuffixRule.ts:42-57 | an anonymous class gets no failure; a named class gets exactly one exactly when its name ends with no suffix, and the failure names the suffix list |
| ClassSuffix.DirectiveDefault | src/directiveClassSuffixRule.ts:56 | with no options and no interfaces, a directive passes exactly when its name ends with `Directive` |
| ClassSuffix.DirectiveCustomReplacesDefault | src/directiveClassSuffixRule.ts:56 | configured suffixes replace the default: `TestDirective` fails under `["Page"]` with the message list `"Page"` |
| ClassSuffix.DirectiveValidatorInterface | src/directiveClassSuffixRule.ts:58-63 | implementing `Validator` or `AsyncValidator` lets `TestValidator` pass; without such an interface it fails against `"Directive"` |
| ClassSuffix.ComponentDefault | src/componentClassSuffixRule.ts:48-52 | with an empty list, a component passes exactly when its name ends with `Component` |
| ClassSuffix.ComponentCustomList | src/componentClassSuffixRule.ts:48-52 | `TestPage` passes `["Page", "View"]` and fails `["Component", "View"]` with `"Component" or "View"` |
| MemberPrefix.Report | src/noInputPrefixRule.ts:62-76 | one failure per flagged member, in declaration order, carrying the given message; every flagged member from the start index on is reported and nothing else |
| MemberPrefix.ReportExactlyFlagged | src/noOutputOnPrefixRule.ts:33-47 | member `i` is reported exactly when its name is flagged, and no member is reported twice |
| NoOutputOnPrefix.OutputFailures | src/noOutputOnPrefixRule.ts:38-47 | the reported outputs are exactly those whose names are `on` followed by the end of the name or a character outside `a`-`z` |
| NoOutputOnPrefix.OnPrefixIsPrefixedBy | src/noOutputOnPrefixRule.ts:42 | the rule's test, a non-empty name matching `^on((?![a-z])\|(?=$))`, is the shared prefix shape for the prefix `on` |
| NoOutputOnPrefix.OnPrefixIsRegex | src/noOutputOnPrefixRule.ts:42 | a name is flagged exactly when it is non-empty and `/^on((?![a-z])\|(?=$))/` matches it under the `RegExp.test` semantics |
| NoOutputOnPrefix.LookaheadPrefix | src/noOutputOnPrefixRule.ts:42 | a literal behind `^` and followed by `(?![a-z])\|(?=$)` matches exactly the names having that literal as the shared prefix shape |
| NoOutputOnPrefix.OnPrefixExamples | src/noOutputOnPrefixRule.ts:42 | `on`, `onChange` and `on_change` are flagged; `oneProp`, `change`, `selectionChanged`, the empty name and `On` are not |
| NoInputPrefix.FailureMessage | src/noInputPrefixRule.ts:50-52 | the message is the item-by-item listing of every configured prefix joined with `or`, from the first to the last, not only the one that matched |
| NoInputPrefix.InputFailures | src/noInputPrefixRule.ts:38-76 | with no prefix configured nothing is reported; otherwise exactly the blacklisted inputs are reported, in order, each with the full message |
| NoInputPrefix.BlacklistedIsPrefixedBy | src/noInputPrefixRule.ts:69 | `x === name \|\| /^x[^a-z]/.test(name)` for some prefix `x` is the shared prefix shape for `x` |
| NoInputPrefix.InputPatternTest | src/noInputPrefixRule.ts:69 | `^x[^a-z]` matches a name exactly when the name starts with `x` and the next character exists and is outside `a`-`z` |
| NoInputPrefix.BlacklistedIsRegex | src/noInputPrefixRule.ts:69 | a name is blacklisted exactly when some prefix `x` equals it or `^x[^a-z]` matches it under the `RegExp.test` semantics |
| NoInputPrefix.InputPrefixExamples | src/noInputPrefixRule.ts:69 | with `is`, `can` and `should` configured, the names `is`, `isEnabled` and `can_edit` are blacklisted |
| NoInputPrefix.InputPrefixAllowedExamples | src/noInputPrefixRule.ts:69 | with the same prefixes, `issue` and `enabled` are not blacklisted |
| NoInputPrefix.OneFailurePerInput | src/noInputPrefixRule.ts:67-76 | for every input: some failure names it exactly when the rule is enabled and the name is blacklisted, and no two failures name it |
| NoInputPrefix.OneFailurePerInputExample | src/noInputPrefixRule.ts:69-75 | `isCan` under the prefixes `is`, `is`, `isC` gets exactly one failure |
| NoOutputPrefix.OutputFailures | src/noOutputPrefixRule.ts:47-81 | disabled unless exactly one non-blank pattern is configured; when enabled, exactly the outputs matching the pattern are reported, each with the pattern as message |
| NoOutputPrefix.SplitOnJoin | src/noOutputPrefixRule.ts:74 | splitting a pattern at `\|` and re-joining gives back the pattern, so no alternative is lost |
| NoOutputPrefix.MatchesPatternIsRegex | src/noOutputPrefixRule.ts:74-75 | `NoOutputPrefix.MatchesPattern` models the test at these lines; for every name and pattern, it holds exactly when `^${pattern}([^a-z]\|$)`, with the pattern's `^`, enclosing group and `\|` read as JavaScript reads them, matches the name under the `RegExp.test` semantics |
| NoOutputPrefix.GroupAlternatives | src/noOutputPrefixRule.ts:74 | `^(a\|b)` is a single enclosing group standing for exactly the two alternatives `a` and `b` |
| NoOutputPrefix.TopLevelAlternatives | src/noOutputPrefixRule.ts:74 | `a\|b` without parentheses is not a group: its alternatives are `a` and `b` split at the top level |
| NoOutputPrefix.UngroupedExamples | src/noOutputPrefixRule.ts:74 | under `on\|yes`, `onion` and `xyes` are reported, as only the first alternative is anchored and only the last carries `([^a-z]\|$)`; `yesterday` is not; `onion` does not match `^(on\|yes)` |
| NoOutputPrefix.OutputPatternExamples | src/noOutputPrefixRule.ts:74-77 | `onChange` matches `^on`; `okTest` and `shouldTest` match `^(ok\|should)` |
| NoOutputPrefix.OutputPatternPassExamples | src/noOutputPrefixRule.ts:74-77 | `oTest` and `shoulChange` do not match `^(ok\|should)` |
| NoOutputPrefix.LowerCaseContinuationPasses | src/noOutputPrefixRule.ts:74 | a lower-case letter after the prefix keeps the name: `do_it` matches `^do`, `doit` does not |
| NoOutputPrefix.EnabledExamples | src/noOutputPrefixRule.ts:47-56 | one pattern enables the rule; no pattern, a blank pattern or two patterns disable it |
| RelativeUrlPrefix.NotDotSlashBarMatches | src/relativeUrlPrefixRule.ts:9 | the class `[^\.\/\|\.\.\/]` matches exactly one character, which is none of `.`, `/` and `\|` |
| RelativeUrlPrefix.RelativeUrlIsRegex | src/relativeUrlPrefixRule.ts:9 | `RelativeUrlPrefix.IsRelativeUrl` models the test; for every URL, the rule's test holds exactly when `PATTERN.test(url)` succeeds under the regular-expression semantics |
| RelativeUrlPrefix.RejectedElementsExact | src/relativeUrlPrefixRule.ts:47-55 | every reported span belongs to a string element that fails the pattern, and every such element is reported |
| RelativeUrlPrefix.RejectedElementsOne | src/relativeUrlPrefixRule.ts:50-54 | one element gives its span exactly when it is a string failing the pattern, and nothing otherwise |
| RelativeUrlPrefix.RejectedElementsAppend | src/relativeUrlPrefixRule.ts:50-54 | the spans of two runs of elements are those of the first run followed by those of the second, so there is one failure per rejected element, in array order |
| RelativeUrlPrefix.StyleUrlFailures | src/relativeUrlPrefixRule.ts:47-55 | a missing or non-array `styleUrls` gives nothing; an array gives its rejected string elements, one span each in array order (see `RejectedElementsAppend`) |
| RelativeUrlPrefix.TemplateUrlFailures | src/relativeUrlPrefixRule.ts:57-61 | at most one failure, present exactly when `templateUrl` is a string literal failing the pattern, placed on that literal |
| RelativeUrlPrefix.ComponentFailures | src/relativeUrlPrefixRule.ts:38-61 | a span is reported exactly when it is a rejected string element of a `styleUrls` array or a rejected string `templateUrl`; the `templateUrl` failure comes last |
| RelativeUrlPrefix.UrlExamples | src/relativeUrlPrefixRule.ts:9 | `./test.css` passes; `test.css`, `.//test.css`, `../test.css`, `./../test.css`, `.././test.css`, `./` and `./\|x` fail |
| RelativeUrlPrefix.StyleUrlsIndependent | src/relativeUrlPrefixRule.ts:50-54 | each element is checked on its own: only the failing middle element of three is reported |
| RelativeUrlPrefix.NonStringIgnored | src/relativeUrlPrefixRule.ts:48-58 | non-string elements, a non-array `styleUrls` and a non-string `templateUrl` are ignored |
| GlobalScan.ScanComplete | src/templateNoThisRule.ts:103 | when matches never nest, the global search starts a match at every position where the pattern matches and at no other |
| GlobalScan.ScanSound | src/templateNoThisRule.ts:103-105 | every match the search records has the length the pattern gives at its position |
| GlobalScan.Search | src/templateNoThisRule.ts:103-121 | the loop that resumes at the end of each match computes the recursive search |
| GlobalScan.ScanWellPlaced | src/templateNoThisRule.ts:103 | the recorded matches are ordered, disjoint and inside the text |
| GlobalScan.WholeMatch | src/templatePreferPropertyBindingRule.ts:71 | a match covering the whole text is the only match |
| GlobalScan.TwoMatches | src/templatePreferPropertyBindingRule.ts:71 | a match at 0 followed directly by another match gives at least two matches |
| TemplateNoThis.DotBeforeIsLookBehind | src/templateNoThisRule.ts:19 | the executable check, "the nearest non-blank character before is `.`", is the look-behind `(?<!\.\s*)` failing |
| TemplateNoThis.ThisAtOccurs | src/templateNoThisRule.ts:19 | the character-by-character `this` test is an occurrence of the word `this` |
| TemplateNoThis.MatchLengthIsMatch | src/templateNoThisRule.ts:19 | `TemplateNoThis.MatchLength` models the pattern at one position; the computed match length at a position is non-zero exactly when `(?<!\.\s*)(this\s*[\?\!]?\.)` matches there, and it is that match's length |
| TemplateNoThis.NoMatchInsideMatch | src/templateNoThisRule.ts:19 | no match starts strictly inside another match |
| TemplateNoThis.MatchesSoundAndComplete | src/templateNoThisRule.ts:103-105 | every match the rule's loop yields is a match of the pattern, and every position where the pattern matches yields one |
| TemplateNoThis.FindMatches | src/templateNoThisRule.ts:103-121 | the `exec` loop finds exactly the global matches |
| TemplateNoThis.NodeFailures | src/templateNoThisRule.ts:103-121 | one failure per match, at the node's start offset plus the match index, with the match's length, and a fix deleting the same characters at the absolute position |
| TemplateNoThis.Validate | src/templateNoThisRule.ts:84-101 | a node whose span was linted before changes nothing; otherwise its span is recorded and its failures appended |
| TemplateNoThis.ValidateAllExtends | src/templateNoThisRule.ts:89-101 | validating only extends the failures and the linted spans, and afterwards every visited node's span counts as linted |
| TemplateNoThis.RelintChangesNothing | src/templateNoThisRule.ts:89-94 | nodes whose spans were all linted before leave the state unchanged |
| TemplateNoThis.ValidateAllAppend | src/templateNoThisRule.ts:56-101 | validating two node lists one after the other is validating their concatenation |
| TemplateNoThis.RevisitReportsNothing | src/templateNoThisRule.ts:89-94 | visiting the same nodes a second time reports nothing new |
| TemplateNoThis.ReplaceBetween | src/templateNoThisRule.ts:27-29 | within bounds the result is the text before `start`, the replacement and the text from `end`; its length follows `slice`'s clamping |
| TemplateNoThis.ApplyDeletionsKeepsGaps | src/templateNoThisRule.ts:107 | applying well-placed deletions from right to left leaves exactly the text between the matches |
| TemplateNoThis.KeptLength | src/templateNoThisRule.ts:107 | the kept text is the original minus exactly the matched characters |
| TemplateNoThis.FixRemovesMatches | src/templateNoThisRule.ts:103-121 | the rule's matches are well placed, so applying all fixes to a node removes exactly the reported characters |
| TemplateNoThis.SafeAndNonNullLength | src/templateNoThisRule.ts:19 | `this?.` and `this!.` not preceded by a dot match with six characters |
| TemplateNoThis.PropertyNamedThis | src/templateNoThisRule.ts:19 | `this` after a `.` and white space is never matched |
| TemplateNoThis.IndexedAccessNotMatched | src/templateNoThisRule.ts:19 | `this[` is never matched |
| TemplateNoThis.PlainMatch | src/templateNoThisRule.ts:19 | `this.` not preceded by a dot is a five-character match |
| TemplateNoThis.ExampleInterpolation | test/templateNoThisRule.spec.ts:19 | `{{ this.foo }}` has one match at 3 of length 5, and the fix gives `{{ foo }}` |
| TemplateNoThis.ExamplePropertyChain | test/templateNoThisRule.spec.ts:79-96 | in `{{ this.foo. this.    baz }}` only the first `this.` is matched, and the fix gives `{{ foo. this.    baz }}` |
| TemplateNoThis.ExampleKeepsWhitespace | test/templateNoThisRule.spec.ts:111-132 | `{{ this.  foo$ \| async }}` loses only `this.`, keeping the blanks after it |
| TemplateNoThis.ExampleIndexedAccess | src/templateNoThisRule.ts:19 | `{{ this['foo'] }}` has no match |
| TemplateNoCallExpression.Failures | src/templateNoCallExpressionRule.ts:45-53 | a reported call's own span comes first; an expression that is not a reported call contributes only its sub-expressions' failures |
| TemplateNoCallExpression.FailuresAreReportedSubterms | src/templateNoCallExpressionRule.ts:85-96 | the spans reported for an expression are, in pre-order, exactly the spans of its sub-expressions that are calls other than the `$any` cast on the implicit receiver |
| TemplateNoCallExpression.NoFailuresWithoutCalls | src/templateNoCallExpressionRule.ts:85-96 | an expression produces no failure exactly when none of its sub-expressions is a reported call |
| TemplateNoCallExpression.SafeCallLikeCall | src/templateNoCallExpressionRule.ts:45-53 | a null-safe call `a?.f()` is treated exactly like `a.f()` |
| TemplateNoCallExpression.AnyCastExempt | src/templateNoCallExpressionRule.ts:11-14 | `$any(x)` on the implicit receiver is not reported itself, and its argument is still checked |
| TemplateNoCallExpression.AnyOnPropertyReported | src/templateNoCallExpressionRule.ts:13-14 | `obj.$any()` is reported: the receiver is not the implicit one |
| TemplateNoCallExpression.NestedCallsReported | src/templateNoCallExpressionRule.ts:45-48 | `a().b()` reports both calls, the outer one first |
| TemplateNoCallExpression.SafeChainAnyReported | test/templateNoCallExpressionRule.spec.ts:30 | `obj!.x?.y!.z?.$any()` is reported once, over the whole call |
| TemplateNoCallExpression.CallInMapReported | src/templateNoCallExpressionRule.ts:45-53 | `{active: isActive()}` reports the call inside the object literal |
| TemplateNoCallExpression.KeyedWriteReported | src/templateNoCallExpressionRule.ts:45-53 | `a[k()] = v()` reports the key's call and the value's call, in that order |
| PreferPropertyBinding.InnerSound | src/templatePreferPropertyBindingRule.ts:12 | what the matcher finds for `\s*(.*?)\s*` followed by the closing delimiter is a match of that body |
| PreferPropertyBinding.InnerLeast | src/templatePreferPropertyBindingRule.ts:12 | whenever the body matches, the matcher finds a match, and its closing delimiter is the earliest any match can use, as the lazy group demands |
| PreferPropertyBinding.InnerTrimmed | src/templatePreferPropertyBindingRule.ts:12 | the captured expression has no white space at either end |
| PreferPropertyBinding.InnerAt | src/templatePreferPropertyBindingRule.ts:12 | a body laid out as blanks, a one-line expression and blanks before the delimiter is matched with exactly those bounds |
| PreferPropertyBinding.InterpolationLengthIsShortest | src/templatePreferPropertyBindingRule.ts:12-13 | when `{{ … }}` matches at a position, the computed length is non-zero and no longer than any match there |
| PreferPropertyBinding.InterpolationLengthSound | src/templatePreferPropertyBindingRule.ts:12-13 | a non-zero computed length is a genuine match of the interpolation pattern |
| PreferPropertyBinding.InterpolationsSound | src/templatePreferPropertyBindingRule.ts:71 | every interpolation the global match counts is a genuine match at its position |
| PreferPropertyBinding.SingleInterpolationCount | src/templatePreferPropertyBindingRule.ts:71 | a value that is exactly one `{{ expr }}` counts one interpolation |
| PreferPropertyBinding.AdjacentInterpolationsCount | src/templatePreferPropertyBindingRule.ts:71 | two interpolations side by side count at least two |
| PreferPropertyBinding.FindNameIsFirst | src/templatePreferPropertyBindingRule.ts:14 | when a name can run from `i` to a position `k` on the same line where `="{{ … }}"` follows, the search for `(.*)="…"` starts no later than `i`, and when it starts at `i` its name reaches at least `k`, as the greedy group demands |
| PreferPropertyBinding.FindAssignmentSound | src/templatePreferPropertyBindingRule.ts:14 | what the search returns is a match of the assignment pattern |
| PreferPropertyBinding.FindAssignmentIsFirst | src/templatePreferPropertyBindingRule.ts:14-18 | the search makes the regular expression's choice: leftmost start, then longest name, then earliest closing `}}"` |
| PreferPropertyBinding.ReplaceMatch | src/templatePreferPropertyBindingRule.ts:15-18 | replacing a match by `[$1]="$2"` shortens the text by exactly the dropped delimiters and blanks |
| PreferPropertyBinding.RewriteUnchanged | src/templatePreferPropertyBindingRule.ts:18 | text in which the pattern does not match is returned unchanged |
| PreferPropertyBinding.RewriteChanges | src/templatePreferPropertyBindingRule.ts:18 | text in which the pattern matches comes out strictly shorter |
| PreferPropertyBinding.RewriteShape | src/templatePreferPropertyBindingRule.ts:14-18 | `PreferPropertyBinding.Rewrite` models the `replace`; `name="{{ expr }}"` becomes `[name]="expr"` for every one-line name and trimmed expression |
| PreferPropertyBinding.PropertyFailure | src/templatePreferPropertyBindingRule.ts:51-76 | a property is reported exactly when its value is an interpolation with a non-empty source holding at most one `{{ … }}`; the failure spans the property, and the fix replaces the property's absolute extent with the rewritten text |
| PreferPropertyBinding.PropertyFailures | src/templatePreferPropertyBindingRule.ts:46-49 | every reported failure comes from a visited property, and every property that warrants one is reported |
| PreferPropertyBinding.PropertyFailuresOne | src/templatePreferPropertyBindingRule.ts:46-49 | one property gives exactly its own failure, if it has one |
| PreferPropertyBinding.PropertyFailuresAppend | src/templatePreferPropertyBindingRule.ts:46-49 | visiting two runs of properties reports the first run's failures, then the second's: one failure per reported property, in visiting order |
| PreferPropertyBinding.PlainBindingNotReported | src/templatePreferPropertyBindingRule.ts:67 | a value that is not an interpolation is never reported |
| PreferPropertyBinding.SingleInterpolationReported | src/templatePreferPropertyBindingRule.ts:71-75 | a single interpolation is reported, whatever blanks surround its expression |
| PreferPropertyBinding.TwoInterpolationsNotReported | test/templatePreferPropertyBindingRule.spec.ts:189 | `{{basePath}}{{endpoint}}` holds two interpolations and is not reported |
| PreferPropertyBinding.RewriteSrc | test/templatePreferPropertyBindingRule.spec.ts:17 | `src="{{            url}}"` becomes `[src]="url"` |
| PreferPropertyBinding.RewriteAttrFor | test/templatePreferPropertyBindingRule.spec.ts:36 | `attr.for="{{inputId            }}"` becomes `[attr.for]="inputId"` |
| PreferPropertyBinding.RewriteStaticValue | test/templatePreferPropertyBindingRule.spec.ts:56 | a quoted literal expression keeps its quotes: `[value]="'defaultValue'"` |
| PreferPropertyBinding.RewriteStyleUnit | test/templatePreferPropertyBindingRule.spec.ts:83 | `style.font-size.em="{{ fontSize }}"` becomes `[style.font-size.em]="fontSize"` |
| CssMatch.AttrValue | src/noUnusedCssRule.ts:27-31 | a value exists exactly when some attribute has that exact name, and it is the value of the first such attribute |
| CssMatch.ClassAttrValue | src/noUnusedCssRule.ts:36 | a value exists exactly when some attribute's lower-cased name is `class`, and it is the value of the first such attribute, as `find` returns |
| CssMatch.ClassBindingNames | src/noUnusedCssRule.ts:37-40 | exactly the names of the `[class.x]` inputs |
| CssMatch.WordsAreMaximalRuns | src/noUnusedCssRule.ts:42 | the words taken from a `class` value are exactly its maximal stretches without white space |
| CssMatch.ClassList | src/noUnusedCssRule.ts:35-43 | every word of the static `class` value and every `[class.x]` name is in the class list, and nothing else is |
| CssMatch.ClassListNameIsRegex | src/noUnusedCssRule.ts:60 | an input name is `className` or `ngClass` exactly when `/^(className\|ngClass)$/` accepts it |
| CssMatch.CompoundKinds | src/noUnusedCssRule.ts:68-69 | a compound holds a class, id or attribute selector exactly when one of its simple selectors is of that kind |
| CssMatch.SelectorKinds | src/noUnusedCssRule.ts:68-69 | `hasSelector` per strategy: a selector holds a kind exactly when some simple selector of some step is of that kind |
| CssMatch.SelectorKindsAppend | src/noUnusedCssRule.ts:68-69 | the kinds of two parts put together are, kind by kind, those of either part |
| CssMatch.AncestorMatchesSome | src/noUnusedCssRule.ts:47-49 | a descendant combinator is satisfied by any ancestor, however far up |
| CssMatch.UsedIffSomeVisitMatches | src/noUnusedCssRule.ts:93-108 | `CssMatch.Used` models the walk; the rule's walk finds a match exactly when some element of the tree, with its ancestors, matches the selector |
| CssMatch.ShouldVisitIffNoneDynamic | src/noUnusedCssRule.ts:114-121 | `CssMatch.ShouldVisit` models the filter; the filter lets a selector through exactly when no element of the tree binds dynamically a kind of simple selector it uses |
| UnusedCss.PseudoPatternMatches | src/noUnusedCssRule.ts:23 | `/::/` matches exactly the two-character stretches that are a `::` marker |
| UnusedCss.CutPseudoIsSplit | src/noUnusedCssRule.ts:132 | the first piece of `split(/::/g)`: the cut ends at the first match of `::`, or at the end when there is none, and no match begins inside it |
| UnusedCss.DeepIsRegex | src/noUnusedCssRule.ts:21 | a part ends the scan exactly when `DEEP_SELECTOR_PATTERN.test` succeeds on it; the tree leaves out the leading `(.*)`, which an unanchored test lets match nothing |
| UnusedCss.HostIsRegex | src/noUnusedCssRule.ts:22 | a part is dropped as a host selector exactly when `HOST_SELECTOR_PATTERN.test` succeeds on it |
| UnusedCss.CutPseudoIdempotent | src/noUnusedCssRule.ts:132 | cutting a part at its first `::` twice cuts nothing more |
| UnusedCss.NormalizeEmptyIff | src/noUnusedCssRule.ts:131-147 | `UnusedCss.Normalize` models the loop building `parts`; the normalised text is empty exactly when every part is a `:host`-like part that does not end the scan |
| UnusedCss.NormalizeStopsAtDeep | src/noUnusedCssRule.ts:133-138 | parts after a `/deep/` or `>>>` part do not change the text |
| UnusedCss.NormalizeIgnoresPseudo | src/noUnusedCssRule.ts:132 | cutting every part at `::` first changes nothing |
| UnusedCss.SelectorUsedIff | src/noUnusedCssRule.ts:126-176 | `UnusedCss.SelectorUsed` models `visitCssSelector`; with a template, a selector counts as used exactly when nothing is left after normalisation, or some element binds one of its kinds dynamically, or some element matches it |
| UnusedCss.RuleFailure | src/noUnusedCssRule.ts:183-195 | a rule is reported exactly when none of its selectors is used; the failure covers `end - start + 1` characters from `start`, and the fix deletes from `start - 1` one character more |
| UnusedCss.RuleFailures | src/noUnusedCssRule.ts:178-195 | no failure exactly when every rule is used; every failure belongs to a rule, and every unused rule is reported |
| UnusedCss.RuleFailuresOne | src/noUnusedCssRule.ts:178-195 | one rule gives exactly its own failure, if it is unused |
| UnusedCss.RuleFailuresAppend | src/noUnusedCssRule.ts:178-195 | the failures of two runs of rules are the first run's, then the second's: one failure per unused rule, in style order |
| UnusedCss.StyleFailures | src/noUnusedCssRule.ts:232-251 | with encapsulation off (`….None` or a non-property-access value) nothing is reported; otherwise the rules' failures are |
| UnusedCss.NoTemplateNoFailures | src/noUnusedCssRule.ts:127 | without a template every selector counts as used, so nothing is reported |
| UnusedCss.EncapsulationExamples | src/noUnusedCssRule.ts:234-236 | an absent value, `Emulated` and `Native` keep the failures; `None` and other expressions drop them |
| UnusedCss.PseudoElementExample | test/noUnusedCssRule.spec.ts:983 | `div section::after` is looked for as `div section` |
| UnusedCss.HostExamples | src/noUnusedCssRule.ts:140-144 | `:host` and `:host-context(h1)` alone leave nothing; `:host h1` leaves `h1` |
| UnusedCss.DeepExamples | src/noUnusedCssRule.ts:133-138 | `div >>> h1` and `div /deep/ h1` are looked for up to and including the piercing part |
| UnusedCss.ClassBindingExamples | src/noUnusedCssRule.ts:35-43 | `[class.bar]` gives the class `bar`; `[class.head]` does not give `header` |
| UnusedCss.DynamicKindExamples | src/noUnusedCssRule.ts:55-65 | an `[attr.id]` input makes both id and attribute selectors skip the element, but not class selectors |
| UnusedCss.DescendantExample | src/noUnusedCssRule.ts:161-175 | in the tree `div > section > span > h1`, the selector `div h1` is used: a descendant step reaches past the intermediate elements |
| UnusedCss.DescendantMissExample | test/noUnusedCssRule.spec.ts:21-33 | in the same tree `div h2` is not used |

## Left out

- Parsing TypeScript, Angular templates, CSS and binding expressions is left out. Each rule receives the parsed pieces it reads as datatypes.
- The css-selector-tokenizer is the `tokenize` parameter of `UnusedCss.SelectorUsed`. Its output is a list of compound selectors joined by descendant or child combinators. Matching a tokenized selector against an element follows cssauron's meaning of those selectors. The source parses the normalised text twice: css-selector-tokenizer for `hasSelector` (`src/noUnusedCssRule.ts:150-155`) and cssauron for the match (line 165). The single `tokenize` parameter assumes the two parsers agree on the selector.
- Sibling combinators, pseudo-classes and attribute operators other than presence and `=` are not modelled. The rule's tests do not rely on them.
- `getSourcePosition`, which turns a template offset into a file offset, is a parameter. It is the `absoluteStart` field of the template rules' nodes and properties.
- Source maps and offsets of styles compiled from SASS are not modelled.
- Nested `@media` rules are left out. Style rules are given as a flat list.
- Embedded templates (`<ng-template>`, `*ngIf` wrappers) are not walked. The template visitor that descends into them is not part of this model.
- The template AST that `no-unused-css` keeps between components is not modelled. Each style sees the template of its own component.
- `TemplateNoCallExpression.Failures`: `FunctionCall` nodes are walked but never reported, as the rule overrides only `visitMethodCall` and `visitSafeMethodCall`. Whether `this['framework']()` parses to such a node depends on the Angular parser version, which is not modelled.
- The exemption for output handlers in `template-no-call-expression` is not modelled. The rule's description promises it, but the code disables it (the template visitor controller is commented out at `src/templateNoCallExpressionRule.ts:32`). Calls in event bindings are therefore reported, as the code does.
- The `console.log` call in `validateMethodCall` is left out. It is output with no effect on the failures.
- Strings are sequences of characters. JavaScript's UTF-16 code units, and the offsets that count them, are taken to be one character each.
- The interpolation delimiters are fixed to `{{` and `}}`, the defaults of Angular's configuration.
- Two rules build regular expressions from user options: `no-input-prefix` and `no-output-prefix`. `no-output-on-prefix` takes no options (`options: null` at `src/noOutputOnPrefixRule.ts:14`) and uses the fixed expression at line 42.
- `NoInputPrefix.InputFailures`, `NoInputPrefix.IsBlacklisted`: each prefix is read literally. Regular-expression syntax inside a prefix is not modelled.
- `NoOutputPrefix.OutputFailures`, `NoOutputPrefix.MatchesPattern`: a pattern is read as an optional `^` and alternatives separated by `|`. The alternatives may be wrapped in one pair of parentheses enclosing the whole rest of the pattern, with no parentheses inside. JavaScript's precedence is followed: without that group, only the first alternative is anchored and only the last carries `([^a-z]|$)`. Any other regular-expression syntax, including parentheses anywhere else, is read as literal characters.
- `ClassSuffix.DirectiveVisit`: an anonymous directive class is the `Crash` outcome. At `src/directiveClassSuffixRule.ts:53-54` the source reads `name.text` from a missing name, which throws a `TypeError`. What the host program does with that exception is not modelled.
- `CssMatch.Tag`: only ASCII capitals are lower-cased. JavaScript's `toLowerCase` at `src/noUnusedCssRule.ts:51` folds every Unicode capital, so a tag such as `Äb` is `äb` in the source and `Äb` here, and type selectors with non-ASCII capitals may be judged differently. The comparison of attribute names with `class` at line 36 gives the same result either way.
- `ClassSuffix.DirectiveSuffixes`: each directive is checked against a fresh list. At `src/directiveClassSuffixRule.ts:56-62` the source pushes `Validator` onto the configured options array itself, so a later directive in the same file may see `Validator` listed more than once. That sharing between directives is not modelled.
- `ReadableList.GetReadableList`: with an empty list the text is the connector followed by `"undefined"`, as `pop()` on an empty array gives `undefined`. No caller passes an empty list: every suffix list has a default, and `no-input-prefix` needs at least one prefix.
- Failure message templates (`sprintf` with the style-guide link) are left out. A failure carries only the part of the message that depends on the input, such as the readable suffix list or the pattern.

=== FILE: class_suffix.dfy ===
/**
 * The directive-class-suffix and component-class-suffix rules: the class
 * name of a decorated class must end with one of the accepted suffixes.
 * A failure carries the readable list of the accepted suffixes, which is
 * what the rule's message names.
 */
module ClassSuffix {
  import opened Strings
  import opened ReadableList

  /** The class-name check both rules share (`Rule.validate`). */
  function Validate(className: String, suffixes: seq<String>): (ok: bool)
    ensures ok <==> exists i :: 0 <= i < |suffixes| && EndsWith(className, suffixes[i])
  {
    if |suffixes| == 0 then false
    else EndsWith(className, suffixes[0]) || Validate(className, suffixes[1..])
  }

  const DirectiveSuffix: String := "Directive"
  const ComponentSuffix: String := "Component"
  const ValidatorSuffix: String := "Validator"

  /** An implemented interface whose name ends with "Validator". */
  predicate HasValidatorInterface(interfaceNames: seq<String>) {
    exists i :: 0 <= i < |interfaceNames| && EndsWith(interfaceNames[i], ValidatorSuffix)
  }

  /**
   * The suffixes a directive may end with: the configured ones, or
   * "Directive" when none are configured, and "Validator" as well when the
   * class implements a validator interface.
   */
  function DirectiveSuffixes(options: seq<String>, interfaceNames: seq<String>): (r: seq<String>)
    ensures |r| == (if |options| > 0 then |options| else 1) + (if HasValidatorInterface(interfaceNames) then 1 else 0)
    ensures |options| > 0 ==> r[..|options|] == options
    ensures |options| == 0 ==> r[0] == DirectiveSuffix
    ensures HasValidatorInterface(interfaceNames) ==> r[|r| - 1] == ValidatorSuffix
  {
    var base := if |options| > 0 then options else [DirectiveSuffix];
    if HasValidatorInterface(interfaceNames) then base + [ValidatorSuffix] else base
  }

  /**
   * The failure reported for a directive class, if any: at most one per
   * class, naming the effective suffix list.
   */
  function DirectiveFailure(className: String, options: seq<String>, interfaceNames: seq<String>): (r: Option<String>)
    ensures r.Some? <==> !Validate(className, DirectiveSuffixes(options, interfaceNames))
    ensures r.Some? ==> r.value == GetReadableList(DirectiveSuffixes(options, interfaceNames), "or")
  {
    var suffixes := DirectiveSuffixes(options, interfaceNames);
    if Validate(className, suffixes) then None else Some(GetReadableList(suffixes, "or"))
  }

  /**
   * What visiting one directive class comes to: the rule reads the class
   * name without a check, so an anonymous class aborts the lint run, and a
   * named class either passes or is reported with the given message.
   */
  datatype DirectiveOutcome = Crash | Pass | Report(message: String)

  /**
   * The directive visit as a whole, with the class name absent for an
   * anonymous class: the missing name is the error the source does not
   * guard against, and otherwise the visit agrees with `DirectiveFailure`.
   */
  function DirectiveVisit(className: Option<String>, options: seq<String>, interfaceNames: seq<String>): (r: DirectiveOutcome)
    ensures r.Crash? <==> className.None?
    ensures className.Some? ==>
      (r.Pass? <==> Validate(className.value, DirectiveSuffixes(options, interfaceNames)))
    ensures r.Report? ==> r.message == GetReadableList(DirectiveSuffixes(options, interfaceNames), "or")
  {
    match className
    case None => Crash
    case Some(name) =>
      match DirectiveFailure(name, options, interfaceNames)
      case None => Pass
      case Some(message) => Report(message)
  }

  /** The suffixes a component may end with: the configured ones or "Component". */
  function ComponentSuffixes(options: seq<String>): (r: seq<String>)
    ensures |r| > 0
    ensures |options| > 0 ==> r == options
    ensures |options| == 0 ==> r == [ComponentSuffix]
  {
    if |options| > 0 then options else [ComponentSuffix]
  }

  /**
   * The failures reported for a component class: none for an anonymous
   * class, otherwise at most one, naming the suffix list.
   */
  function ComponentFailures(className: Option<String>, options: seq<String>): (r: seq<String>)
    ensures |r| <= 1
    ensures |r| == 1 <==> className.Some? && !Validate(className.value, ComponentSuffixes(options))
    ensures |r| == 1 ==> r[0] == GetReadableList(ComponentSuffixes(options), "or")
  {
    match className
    case None => []
    case Some(name) =>
      var suffixes := ComponentSuffixes(options);
      if Validate(name, suffixes) then [] else [GetReadableList(suffixes, "or")]
  }

  /** With no options, a directive named "...Directive" passes and others fail. */
  lemma DirectiveDefault(className: String)
    ensures DirectiveFailure(className, [], []).None? <==> EndsWith(className, "Directive")
  {
  }

  /** Configured suffixes replace the default: `TestDirective` fails under `["Page"]`. */
  lemma DirectiveCustomReplacesDefault()
    ensures DirectiveFailure("TestDirective", ["Page"], []) == Some("\"Page\"")
  {
    assert DirectiveSuffixes(["Page"], []) == ["Page"];
    assert !EndsWith("TestDirective", "Page");
    assert !Validate("TestDirective", ["Page"]);
    assert GetReadableList(["Page"], "or") == Quote("Page") == "\"Page\"";
  }

  /** A validator interface admits the "Validator" suffix next to the default. */
  lemma DirectiveValidatorInterface()
    ensures DirectiveFailure("TestValidator", [], ["Validator"]).None?
    ensures DirectiveFailure("TestValidator", [], []) == Some("\"Directive\"")
    ensures DirectiveFailure("TestValidator", ["Page"], ["AsyncValidator"]).None?
  {
    assert EndsWith(["Validator"][0], ValidatorSuffix);
    assert HasValidatorInterface(["Validator"]);
    assert EndsWith(["AsyncValidator"][0], ValidatorSuffix);
    assert HasValidatorInterface(["AsyncValidator"]);
    assert DirectiveSuffixes([], []) == ["Directive"];
    assert !EndsWith("TestValidator", "Directive");
    assert !Validate("TestValidator", ["Directive"]);
    assert GetReadableList(["Directive"], "or") == Quote("Directive") == "\"Directive\"";
    assert EndsWith("TestValidator", "Validator");
    assert Validate("TestValidator", DirectiveSuffixes([], ["Validator"]));
    assert Validate("TestValidator", DirectiveSuffixes(["Page"], ["AsyncValidator"]));
  }

  /** An empty option list defaults to "Component". */
  lemma ComponentDefault(className: String)
    ensures ComponentFailures(Some(className), []) == [] <==> EndsWith(className, "Component")
  {
  }

  /** A custom list replaces the default: `TestPage` passes `Page`/`View`, fails `Component`/`View`. */
  lemma ComponentCustomList()
    ensures ComponentFailures(Some("TestPage"), ["Page", "View"]) == []
    ensures ComponentFailures(Some("TestPage"), ["Component", "View"])
         == ["\"Component\" or \"View\""]
  {
    assert EndsWith("TestPage", "Page");
    assert !EndsWith("TestPage", "Component");
    assert !EndsWith("TestPage", "View");
    assert !Validate("TestPage", ["Component", "View"]);
    TwoItems("Component", "View", "or");
    assert "\"" + "Component" + "\" " + "or" + " \"" + "View" + "\"" == "\"Component\" or \"View\"";
  }
}

=== FILE: css_match.dfy ===
/**
 * Matching a tokenized CSS selector against a component's template, as the
 * unused-CSS rule does: element accessors (tag, id, attributes, classes), the
 * descendant and child combinators (section 8 of W3C Selectors Level 3), the
 * walk over the template with each element's chain of ancestors, and the
 * filter that gives up on selectors whose kind is bound dynamically.
 */
module CssMatch {
  import opened Strings
  import Regex

  // ---------------------------------------------------------------------
  // The template.
  // ---------------------------------------------------------------------

  /** How a bound input is applied: `[prop]`, `[attr.x]`, `[class.x]`, `[style.x]`, `[@x]`. */
  datatype BindingKind = PropertyBinding | AttributeBinding | ClassBinding | StyleBinding | AnimationBinding

  /** A static attribute `name="value"`. */
  datatype Attr = Attr(name: String, value: String)

  /** A bound input; for `[class.bar]` the kind is `ClassBinding` and the name is `bar`. */
  datatype Input = Input(kind: BindingKind, name: String)

  /** A parsed template node: an element, or anything else (text, comments, bound text). */
  datatype Node =
    | Element(name: String, attrs: seq<Attr>, inputs: seq<Input>, children: seq<Node>)
    | Text

  function ChildrenOf(n: Node): (r: seq<Node>)
    ensures forall i :: 0 <= i < |r| ==> r[i] < n
  {
    if n.Element? then n.children else []
  }

  /** The value of the first attribute named exactly `name`. */
  function AttrValue(attrs: seq<Attr>, name: String): (r: Option<String>)
    ensures r.Some? <==> exists i :: 0 <= i < |attrs| && attrs[i].name == name
    ensures r.Some? ==> exists i :: 0 <= i < |attrs| && attrs[i].name == name && attrs[i].value == r.value
                                    && forall j :: 0 <= j < i ==> attrs[j].name != name
  {
    if |attrs| == 0 then None
    else if attrs[0].name == name then Some(attrs[0].value)
    else
      var r := AttrValue(attrs[1..], name);
      assert forall i :: 1 <= i < |attrs| ==> attrs[1..][i - 1] == attrs[i];
      r
  }

  /** The value of the first attribute whose lower-cased name is `class`. */
  function ClassAttrValue(attrs: seq<Attr>): (r: Option<String>)
    ensures r.Some? <==> exists i :: 0 <= i < |attrs| && ToLower(attrs[i].name) == "class"
    ensures r.Some? ==> exists i :: 0 <= i < |attrs| && ToLower(attrs[i].name) == "class" && attrs[i].value == r.value
                                    && forall j :: 0 <= j < i ==> ToLower(attrs[j].name) != "class"
  {
    if |attrs| == 0 then None
    else if ToLower(attrs[0].name) == "class" then Some(attrs[0].value)
    else
      var r := ClassAttrValue(attrs[1..]);
      assert forall i :: 1 <= i < |attrs| ==> attrs[1..][i - 1] == attrs[i];
      r
  }

  /** The names of the `[class.x]` bindings, in order. */
  function ClassBindingNames(inputs: seq<Input>): (r: seq<String>)
    ensures forall x :: x in r <==> exists i :: 0 <= i < |inputs| && inputs[i].kind == ClassBinding && inputs[i].name == x
  {
    if |inputs| == 0 then []
    else
      var rest := ClassBindingNames(inputs[1..]);
      assert forall i :: 1 <= i < |inputs| ==> inputs[1..][i - 1] == inputs[i];
      if inputs[0].kind == ClassBinding then [inputs[0].name] + rest else rest
  }

  /** The end of the word starting at `a`: the first white space at or after `a`. */
  function WordEnd(s: String, a: nat): (b: nat)
    requires a <= |s|
    ensures a <= b <= |s|
    ensures forall m :: a <= m < b ==> !IsWhitespace(s[m])
    ensures b == |s| || IsWhitespace(s[b])
    decreases |s| - a
  {
    if a == |s| || IsWhitespace(s[a]) then a else WordEnd(s, a + 1)
  }

  /** The white-space separated words of a class attribute. */
  function Words(s: String): (r: seq<String>)
    ensures forall k :: 0 <= k < |r| ==> |r[k]| > 0 && forall m :: 0 <= m < |r[k]| ==> !IsWhitespace(r[k][m])
    decreases |s|
  {
    var a := SkipWhitespace(s, 0);
    if a == |s| then []
    else
      var b := WordEnd(s, a);
      [s[a..b]] + Words(s[b..])
  }

  /** `s[a..b]` is a word of `s`: a maximal stretch of characters that are not white space. */
  predicate IsWordAt(s: String, a: nat, b: nat) {
    a < b <= |s| && (a == 0 || IsWhitespace(s[a - 1])) && (b == |s| || IsWhitespace(s[b]))
    && forall m :: a <= m < b ==> !IsWhitespace(s[m])
  }

  /** A word past index `b` is a word of the text from `b` on. */
  lemma WordShift(s: String, b: nat, c: nat, d: nat)
    requires b < c && IsWordAt(s, c, d)
    ensures IsWordAt(s[b..], c - b, d - b) && s[b..][c - b..d - b] == s[c..d]
  {
    var t := s[b..];
    assert t[c - b - 1] == s[c - 1];
    if d < |s| {
      assert t[d - b] == s[d];
    }
    forall m | c - b <= m < d - b
      ensures !IsWhitespace(t[m])
    {
      assert t[m] == s[b + m];
    }
  }

  /** A word of the text from `b` on that does not start at `b` is a word of the whole text. */
  lemma WordUnshift(s: String, b: nat, c: nat, d: nat)
    requires b <= |s| && 0 < c && IsWordAt(s[b..], c, d)
    ensures IsWordAt(s, b + c, b + d) && s[b + c..b + d] == s[b..][c..d]
  {
    var t := s[b..];
    assert t[c - 1] == s[b + c - 1];
    if d < |t| {
      assert t[d] == s[b + d];
    }
    forall m | b + c <= m < b + d
      ensures !IsWhitespace(s[m])
    {
      assert s[m] == t[m - b];
    }
  }

  /** A word starting where the scan starts ends where the scan's word ends. */
  lemma WordEndIsEnd(s: String, a: nat, d: nat)
    requires IsWordAt(s, a, d)
    ensures WordEnd(s, a) == d
  {
  }

  /** A word that does not start where the scan starts lies past the scan's first word. */
  lemma LaterWordAfterFirst(s: String, c: nat, d: nat)
    requires IsWordAt(s, c, d) && c != SkipWhitespace(s, 0)
    ensures SkipWhitespace(s, 0) < |s| && WordEnd(s, SkipWhitespace(s, 0)) < c
  {
    assert !IsWhitespace(s[c]);
  }

  /** A text that is not all white space: its first word, then the words of the rest. */
  lemma FirstWord(s: String)
    requires SkipWhitespace(s, 0) < |s|
    ensures Words(s) == [s[SkipWhitespace(s, 0)..WordEnd(s, SkipWhitespace(s, 0))]]
                        + Words(s[WordEnd(s, SkipWhitespace(s, 0))..])
  {
  }

  /** The word where the scan starts is the first of `Words`. */
  lemma FirstWordInWords(s: String, d: nat)
    requires IsWordAt(s, SkipWhitespace(s, 0), d)
    ensures |Words(s)| > 0 && Words(s)[0] == s[SkipWhitespace(s, 0)..d]
  {
    WordEndIsEnd(s, SkipWhitespace(s, 0), d);
    FirstWord(s);
  }

  /** A word of the rest, after the first word, is among `Words` of the whole. */
  lemma RestWordInWords(s: String, w: String)
    requires SkipWhitespace(s, 0) < |s|
    requires w in Words(s[WordEnd(s, SkipWhitespace(s, 0))..])
    ensures w in Words(s)
  {
    FirstWord(s);
  }

  /** Every word of `s` is among its `Words`. */
  lemma {:induction false} WordInWords(s: String, c: nat, d: nat)
    requires IsWordAt(s, c, d)
    ensures s[c..d] in Words(s)
    decreases |s|
  {
    var a := SkipWhitespace(s, 0);
    if c == a {
      FirstWordInWords(s, d);
    } else {
      LaterWordAfterFirst(s, c, d);
      var b := WordEnd(s, a);
      WordShift(s, b, c, d);
      WordInWords(s[b..], c - b, d - b);
      RestWordInWords(s, s[c..d]);
    }
  }

  /** Everything among `Words` is a word of `s`. */
  lemma {:induction false} WordsAreWords(s: String, k: nat)
    requires k < |Words(s)|
    ensures exists c: nat, d: nat :: IsWordAt(s, c, d) && Words(s)[k] == s[c..d]
    decreases |s|
  {
    var a := SkipWhitespace(s, 0);
    var b := WordEnd(s, a);
    assert Words(s) == [s[a..b]] + Words(s[b..]);
    if k == 0 {
      assert IsWordAt(s, a, b);
    } else {
      var t := s[b..];
      WordsAreWords(t, k - 1);
      var c: nat, d: nat :| IsWordAt(t, c, d) && Words(t)[k - 1] == t[c..d];
      assert c > 0 by {
        assert t[0] == s[b];
      }
      WordUnshift(s, b, c, d);
    }
  }

  /**
   * `Words` splits a class attribute into exactly its words: the maximal
   * stretches without white space.
   */
  lemma WordsAreMaximalRuns(s: String)
    ensures forall w :: w in Words(s) <==> exists c: nat, d: nat :: IsWordAt(s, c, d) && w == s[c..d]
  {
    forall w | w in Words(s)
      ensures exists c: nat, d: nat :: IsWordAt(s, c, d) && w == s[c..d]
    {
      var k :| 0 <= k < |Words(s)| && Words(s)[k] == w;
      WordsAreWords(s, k);
    }
    forall c: nat, d: nat | IsWordAt(s, c, d)
      ensures s[c..d] in Words(s)
    {
      WordInWords(s, c, d);
    }
  }

  /** The element's class list: its static `class` words, then its `[class.x]` names. */
  function ClassList(n: Node): (r: seq<String>)
    requires n.Element?
    ensures forall i :: 0 <= i < |n.inputs| && n.inputs[i].kind == ClassBinding ==> n.inputs[i].name in r
    ensures ClassAttrValue(n.attrs).Some? ==> forall w :: w in Words(ClassAttrValue(n.attrs).value) ==> w in r
    ensures forall x :: x in r ==>
              (ClassAttrValue(n.attrs).Some? && x in Words(ClassAttrValue(n.attrs).value))
              || exists i :: 0 <= i < |n.inputs| && n.inputs[i].kind == ClassBinding && n.inputs[i].name == x
  {
    var statics := match ClassAttrValue(n.attrs) case Some(v) => Words(v) case None => [];
    statics + ClassBindingNames(n.inputs)
  }

  /** The tag compared against type selectors: the element's name in lower case. */
  function Tag(n: Node): (r: String)
    requires n.Element?
    ensures |r| == |n.name|
  {
    ToLower(n.name)
  }

  // ---------------------------------------------------------------------
  // Tokenized selectors.
  // ---------------------------------------------------------------------

  /** One simple selector of a compound: `h1`, `*`, `.bar`, `#main`, `[title]`, `[type="text"]`. */
  datatype Simple =
    | TypeSelector(tag: String)
    | Universal
    | ClassSelector(className: String)
    | IdSelector(id: String)
    | AttrPresent(attr: String)
    | AttrEquals(attr: String, expected: String)

  /** How a compound relates to the one before it; the first step's combinator is not used. */
  datatype Combinator = Descendant | Child

  datatype Step = Step(combinator: Combinator, compound: seq<Simple>)

  /** A complex selector, left to right. */
  type Selector = seq<Step>

  predicate SimpleMatches(s: Simple, n: Node)
    requires n.Element?
  {
    match s
    case TypeSelector(tag) => Tag(n) == tag
    case Universal => true
    case ClassSelector(c) => c in ClassList(n)
    case IdSelector(id) => AttrValue(n.attrs, "id") == Some(id)
    case AttrPresent(a) => AttrValue(n.attrs, a).Some?
    case AttrEquals(a, v) => AttrValue(n.attrs, a) == Some(v)
  }

  predicate CompoundMatches(c: seq<Simple>, n: Node)
    requires n.Element?
  {
    forall i :: 0 <= i < |c| ==> SimpleMatches(c[i], n)
  }

  /**
   * The selector matches `n`, whose ancestors from the root down are `path`:
   * the last compound matches `n` and the rest matches its parent (child
   * combinator) or one of its ancestors (descendant combinator).
   */
  predicate MatchesAt(sel: Selector, n: Node, path: seq<Node>)
    decreases |sel|, |path|, 1
  {
    |sel| > 0 && n.Element? && CompoundMatches(sel[|sel| - 1].compound, n) &&
    (|sel| == 1 ||
     match sel[|sel| - 1].combinator
     case Child => |path| > 0 && MatchesAt(sel[..|sel| - 1], path[|path| - 1], path[..|path| - 1])
     case Descendant => AncestorMatches(sel[..|sel| - 1], path))
  }

  /** Some node of `path` matches `sel`, with the nodes before it as its ancestors. */
  predicate AncestorMatches(sel: Selector, path: seq<Node>)
    decreases |sel|, |path|, 0
  {
    |path| > 0 && (MatchesAt(sel, path[|path| - 1], path[..|path| - 1]) || AncestorMatches(sel, path[..|path| - 1]))
  }

  /** Descendant matching looks at every ancestor, however far up. */
  lemma {:induction false} AncestorMatchesSome(sel: Selector, path: seq<Node>)
    ensures AncestorMatches(sel, path) <==> exists j :: 0 <= j < |path| && MatchesAt(sel, path[j], path[..j])
    decreases |path|
  {
    if |path| > 0 {
      var n := |path| - 1;
      var init := path[..n];
      AncestorMatchesSome(sel, init);
      if AncestorMatches(sel, path) && !MatchesAt(sel, path[n], path[..n]) {
        assert AncestorMatches(sel, init);
        var j :| 0 <= j < n && MatchesAt(sel, init[j], init[..j]);
        assert init[j] == path[j] && init[..j] == path[..j];
      }
      if exists j :: 0 <= j < |path| && MatchesAt(sel, path[j], path[..j]) {
        var j :| 0 <= j < |path| && MatchesAt(sel, path[j], path[..j]);
        if j < n {
          assert init[j] == path[j] && init[..j] == path[..j];
          assert AncestorMatches(sel, init);
        }
      }
    }
  }

  // ---------------------------------------------------------------------
  // The walk: every element, with its ancestors.
  // ---------------------------------------------------------------------

  /** An element met by the walk, with its ancestors from the root down. */
  datatype Visit = Visit(node: Node, path: seq<Node>)

  /** The reference order of the walk: each element before its children, children left to right. */
  function Visits(n: Node, path: seq<Node>): (r: seq<Visit>)
    ensures forall k :: 0 <= k < |r| ==> r[k].node.Element?
    decreases n, |ChildrenOf(n)| + 1
  {
    if n.Text? then [] else [Visit(n, path)] + VisitsAll(n.children, path + [n], n)
  }

  function VisitsAll(ns: seq<Node>, path: seq<Node>, ghost parent: Node): (r: seq<Visit>)
    requires forall i :: 0 <= i < |ns| ==> ns[i] < parent
    ensures forall k :: 0 <= k < |r| ==> r[k].node.Element?
    decreases parent, |ns|
  {
    if |ns| == 0 then [] else Visits(ns[0], path) + VisitsAll(ns[1..], path, parent)
  }

  /** Some visit in `vs` matches the selector. */
  predicate AnyMatches(sel: Selector, vs: seq<Visit>)
    ensures AnyMatches(sel, vs) <==> exists k :: 0 <= k < |vs| && MatchesAt(sel, vs[k].node, vs[k].path)
  {
    if |vs| == 0 then false
    else
      assert forall k :: 1 <= k < |vs| ==> vs[1..][k - 1] == vs[k];
      MatchesAt(sel, vs[0].node, vs[0].path) || AnyMatches(sel, vs[1..])
  }

  lemma AnyMatchesAppend(sel: Selector, a: seq<Visit>, b: seq<Visit>)
    ensures AnyMatches(sel, a + b) <==> AnyMatches(sel, a) || AnyMatches(sel, b)
  {
    assert forall k :: 0 <= k < |a| ==> (a + b)[k] == a[k];
    assert forall k :: 0 <= k < |b| ==> (a + b)[|a| + k] == b[k];
  }

  /**
   * The walk the rule performs: the selector is tried on each element, whose
   * children are then visited with the element appended to their ancestors.
   */
  predicate Used(sel: Selector, n: Node, path: seq<Node>)
    decreases n, |ChildrenOf(n)| + 1
  {
    n.Element? && (MatchesAt(sel, n, path) || UsedAll(sel, n.children, path + [n], n))
  }

  predicate UsedAll(sel: Selector, ns: seq<Node>, path: seq<Node>, ghost parent: Node)
    requires forall i :: 0 <= i < |ns| ==> ns[i] < parent
    decreases parent, |ns|
  {
    |ns| > 0 && (Used(sel, ns[0], path) || UsedAll(sel, ns[1..], path, parent))
  }

  /** The walk finds a match exactly when some element, with its ancestors, matches. */
  lemma {:induction false} UsedIffSomeVisitMatches(sel: Selector, n: Node, path: seq<Node>)
    ensures Used(sel, n, path) <==> AnyMatches(sel, Visits(n, path))
    decreases n, |ChildrenOf(n)| + 1
  {
    if n.Element? {
      UsedAllIffSomeVisitMatches(sel, n.children, path + [n], n);
      AnyMatchesAppend(sel, [Visit(n, path)], VisitsAll(n.children, path + [n], n));
    }
  }

  lemma {:induction false} UsedAllIffSomeVisitMatches(sel: Selector, ns: seq<Node>, path: seq<Node>, parent: Node)
    requires forall i :: 0 <= i < |ns| ==> ns[i] < parent
    ensures UsedAll(sel, ns, path, parent) <==> AnyMatches(sel, VisitsAll(ns, path, parent))
    decreases parent, |ns|
  {
    if |ns| > 0 {
      UsedIffSomeVisitMatches(sel, ns[0], path);
      UsedAllIffSomeVisitMatches(sel, ns[1..], path, parent);
      AnyMatchesAppend(sel, Visits(ns[0], path), VisitsAll(ns[1..], path, parent));
    }
  }

  // ---------------------------------------------------------------------
  // The dynamic-binding filter.
  // ---------------------------------------------------------------------

  /** Which kinds of simple selector a selector holds. */
  datatype Kinds = Kinds(byAttribute: bool, byClass: bool, byId: bool)

  predicate IsAttributeSelector(s: Simple) {
    s.AttrPresent? || s.AttrEquals?
  }

  /** Kinds held by either side. */
  function Union(a: Kinds, b: Kinds): Kinds {
    Kinds(a.byAttribute || b.byAttribute, a.byClass || b.byClass, a.byId || b.byId)
  }

  const NoKinds := Kinds(false, false, false)

  /** The kinds a compound holds, simple selector by simple selector. */
  function CompoundKinds(c: seq<Simple>): (k: Kinds)
    ensures k.byClass <==> exists j :: 0 <= j < |c| && c[j].ClassSelector?
    ensures k.byId <==> exists j :: 0 <= j < |c| && c[j].IdSelector?
    ensures k.byAttribute <==> exists j :: 0 <= j < |c| && IsAttributeSelector(c[j])
  {
    if |c| == 0 then NoKinds
    else
      var rest := CompoundKinds(c[1..]);
      assert forall j :: 1 <= j < |c| ==> c[1..][j - 1] == c[j];
      Union(Kinds(IsAttributeSelector(c[0]), c[0].ClassSelector?, c[0].IdSelector?), rest)
  }

  /**
   * `hasSelector` for each strategy: the walk descends through the
   * selector nodes and asks whether any simple selector is of that kind.
   */
  function SelectorKinds(sel: Selector): (k: Kinds)
    ensures k.byClass <==> exists i, j :: 0 <= i < |sel| && 0 <= j < |sel[i].compound| && sel[i].compound[j].ClassSelector?
    ensures k.byId <==> exists i, j :: 0 <= i < |sel| && 0 <= j < |sel[i].compound| && sel[i].compound[j].IdSelector?
    ensures k.byAttribute <==> exists i, j :: 0 <= i < |sel| && 0 <= j < |sel[i].compound| && IsAttributeSelector(sel[i].compound[j])
  {
    if |sel| == 0 then NoKinds
    else
      var rest := SelectorKinds(sel[1..]);
      assert forall i :: 1 <= i < |sel| ==> sel[1..][i - 1] == sel[i];
      Union(CompoundKinds(sel[0].compound), rest)
  }

  /** The kinds of a selector put together from two parts are those of either part. */
  lemma {:induction false} SelectorKindsAppend(a: Selector, b: Selector)
    ensures SelectorKinds(a + b) == Union(SelectorKinds(a), SelectorKinds(b))
    decreases |a|
  {
    if |a| == 0 {
      assert a + b == b;
    } else {
      assert (a + b)[0] == a[0];
      assert (a + b)[1..] == a[1..] + b;
      SelectorKindsAppend(a[1..], b);
    }
  }

  /** An attribute is bound with `[attr.x]`. */
  predicate DynamicAttribute(n: Node)
    requires n.Element?
  {
    exists i :: 0 <= i < |n.inputs| && n.inputs[i].kind == AttributeBinding
  }

  /** The class list is bound as a whole, with `[className]` or `[ngClass]`. */
  predicate DynamicClass(n: Node)
    requires n.Element?
  {
    exists i :: 0 <= i < |n.inputs| && (n.inputs[i].name == "className" || n.inputs[i].name == "ngClass")
  }

  /** The pattern `/^(className|ngClass)$/` the class strategy tests input names with. */
  const ClassListPattern: Regex.Re :=
    Regex.Cat(Regex.Start, Regex.Cat(Regex.Alt(Regex.Literal("className"), Regex.Literal("ngClass")), Regex.End))

  /** A literal followed by `$` matches from 0 to `j` exactly when the whole text is the literal. */
  lemma WholeLiteral(w: String, name: String, j: nat)
    requires j <= |name|
    ensures Regex.Matches(Regex.Cat(Regex.Literal(w), Regex.End), name, 0, j) <==> j == |name| && name == w
  {
    Regex.LiteralThen(w, Regex.End, name, 0, j);
    if name == w {
      assert name[0..|w|] == name;
    }
  }

  /** The names `DynamicClass` looks for are exactly the ones the pattern accepts. */
  lemma ClassListNameIsRegex(name: String)
    ensures (name == "className" || name == "ngClass") <==> Regex.Test(ClassListPattern, name)
  {
    var a, b := Regex.Literal("className"), Regex.Literal("ngClass");
    var rest := Regex.Cat(Regex.Alt(a, b), Regex.End);
    Regex.Anchored(rest, name);
    forall j: nat | j <= |name|
      ensures Regex.Matches(rest, name, 0, j) <==> j == |name| && (name == "className" || name == "ngClass")
    {
      Regex.CatAlt(a, b, Regex.End, name, 0, j);
      WholeLiteral("className", name, j);
      WholeLiteral("ngClass", name, j);
    }
    if name == "className" || name == "ngClass" {
      assert Regex.Matches(rest, name, 0, |name|);
    }
    if Regex.Test(ClassListPattern, name) {
      var j: nat :| j <= |name| && Regex.Matches(rest, name, 0, j);
    }
  }

  /** Some input is named `id`, whatever its kind. */
  predicate DynamicId(n: Node)
    requires n.Element?
  {
    exists i :: 0 <= i < |n.inputs| && n.inputs[i].name == "id"
  }

  /** The element binds dynamically something of a kind the selector uses. */
  predicate Dynamic(n: Node, k: Kinds)
    requires n.Element?
  {
    (k.byAttribute && DynamicAttribute(n)) || (k.byClass && DynamicClass(n)) || (k.byId && DynamicId(n))
  }

  /** The filter's walk: no element in the tree binds a kind the selector uses. */
  predicate ShouldVisit(n: Node, k: Kinds)
    decreases n, |ChildrenOf(n)| + 1
  {
    n.Text? || (!Dynamic(n, k) && ShouldVisitAll(n.children, k, n))
  }

  predicate ShouldVisitAll(ns: seq<Node>, k: Kinds, ghost parent: Node)
    requires forall i :: 0 <= i < |ns| ==> ns[i] < parent
    decreases parent, |ns|
  {
    |ns| == 0 || (ShouldVisit(ns[0], k) && ShouldVisitAll(ns[1..], k, parent))
  }

  /** No visit in `vs` binds a kind of `k` dynamically. */
  predicate NoneDynamic(vs: seq<Visit>, k: Kinds)
    requires forall j :: 0 <= j < |vs| ==> vs[j].node.Element?
    ensures NoneDynamic(vs, k) <==> forall j :: 0 <= j < |vs| ==> !Dynamic(vs[j].node, k)
  {
    if |vs| == 0 then true
    else
      assert forall j :: 1 <= j < |vs| ==> vs[1..][j - 1] == vs[j];
      !Dynamic(vs[0].node, k) && NoneDynamic(vs[1..], k)
  }

  lemma NoneDynamicAppend(a: seq<Visit>, b: seq<Visit>, k: Kinds)
    requires forall j :: 0 <= j < |a| ==> a[j].node.Element?
    requires forall j :: 0 <= j < |b| ==> b[j].node.Element?
    ensures NoneDynamic(a + b, k) <==> NoneDynamic(a, k) && NoneDynamic(b, k)
  {
    assert forall j :: 0 <= j < |a| ==> (a + b)[j] == a[j];
    assert forall j :: 0 <= j < |b| ==> (a + b)[|a| + j] == b[j];
  }

  /** The filter lets a selector through exactly when no element of the tree binds one of its kinds. */
  lemma {:induction false} ShouldVisitIffNoneDynamic(n: Node, k: Kinds, path: seq<Node>)
    ensures ShouldVisit(n, k) <==> NoneDynamic(Visits(n, path), k)
    decreases n, |ChildrenOf(n)| + 1
  {
    if n.Element? {
      ShouldVisitAllIffNoneDynamic(n.children, k, path + [n], n);
      NoneDynamicAppend([Visit(n, path)], VisitsAll(n.children, path + [n], n), k);
    }
  }

  lemma {:induction false} ShouldVisitAllIffNoneDynamic(ns: seq<Node>, k: Kinds, path: seq<Node>, parent: Node)
    requires forall i :: 0 <= i < |ns| ==> ns[i] < parent
    ensures ShouldVisitAll(ns, k, parent) <==> NoneDynamic(VisitsAll(ns, path, parent), k)
    decreases parent, |ns|
  {
    if |ns| > 0 {
      ShouldVisitIffNoneDynamic(ns[0], k, path);
      ShouldVisitAllIffNoneDynamic(ns[1..], k, path, parent);
      NoneDynamicAppend(Visits(ns[0], path), VisitsAll(ns[1..], path, parent), k);
    }
  }
}

=== FILE: global_scan.dfy ===
/**
 * The global search a `g` regular expression performs with `exec` or
 * `match`: the search resumes where the previous match ended, so matches
 * never overlap. The pattern itself is abstracted to a table holding, for
 * every position, the length of the match found there (0 for none).
 */
module GlobalScan {

  datatype Match = Match(index: nat, length: nat)

  /** No match runs past the end of the text. */
  predicate Fits(ls: seq<nat>) {
    forall i :: 0 <= i < |ls| ==> i + ls[i] <= |ls|
  }

  /** No match starts strictly inside another. */
  predicate NoNesting(ls: seq<nat>) {
    forall a, p :: 0 <= a < p < |ls| && p < a + ls[a] ==> ls[p] == 0
  }

  /**
   * The global search from `from`: a match found at a position is recorded
   * and the search resumes at its end; otherwise it moves one position on.
   */
  function ScanLengths(ls: seq<nat>, from: nat): seq<Match>
    requires Fits(ls) && from <= |ls|
    decreases |ls| - from
  {
    if from == |ls| then []
    else if ls[from] > 0 then [Match(from, ls[from])] + ScanLengths(ls, from + ls[from])
    else ScanLengths(ls, from + 1)
  }

  /** Some match in `ms` starts at `p`. */
  predicate StartsAt(ms: seq<Match>, p: nat)
    decreases |ms|
  {
    |ms| > 0 && (ms[0].index == p || StartsAt(ms[1..], p))
  }

  /** Every match position at or after `from` is found by the search, and only those. */
  lemma {:induction false} ScanComplete(ls: seq<nat>, from: nat, p: nat)
    requires Fits(ls) && NoNesting(ls) && from <= |ls|
    ensures StartsAt(ScanLengths(ls, from), p) <==> from <= p < |ls| && ls[p] > 0
    decreases |ls| - from
  {
    if from < |ls| {
      var n := ls[from];
      if n > 0 {
        ScanComplete(ls, from + n, p);
        var rest := ScanLengths(ls, from + n);
        assert ([Match(from, n)] + rest)[1..] == rest;
      } else {
        ScanComplete(ls, from + 1, p);
      }
    }
  }

  /** Positions where nothing matches are passed over. */
  lemma {:induction false} ScanSkipsMisses(ls: seq<nat>, from: nat, to: nat)
    requires Fits(ls) && from <= to <= |ls|
    requires forall i :: from <= i < to ==> ls[i] == 0
    ensures ScanLengths(ls, from) == ScanLengths(ls, to)
    decreases |ls| - from
  {
    if from < to {
      ScanSkipsMisses(ls, from + 1, to);
    }
  }

  /** Every recorded match has the length found at its position. */
  lemma {:induction false} ScanSound(ls: seq<nat>, from: nat)
    requires Fits(ls) && from <= |ls|
    ensures forall k :: 0 <= k < |ScanLengths(ls, from)| ==>
              var m := ScanLengths(ls, from)[k];
              from <= m.index < |ls| && m.length == ls[m.index] && m.length > 0
    decreases |ls| - from
  {
    if from < |ls| {
      var n := ls[from];
      if n > 0 {
        ScanSound(ls, from + n);
        var rest := ScanLengths(ls, from + n);
        assert forall k :: 1 <= k < |rest| + 1 ==> ([Match(from, n)] + rest)[k] == rest[k - 1];
      } else {
        ScanSound(ls, from + 1);
      }
    }
  }

  /**
   * The `exec` loop over a table of match lengths: each iteration records
   * the match at `i` and resumes at its end, or moves one position on.
   */
  method Search(ls: seq<nat>) returns (r: seq<Match>)
    requires Fits(ls)
    ensures r == ScanLengths(ls, 0)
  {
    r := [];
    var i := 0;
    while i < |ls|
      invariant i <= |ls|
      invariant r + ScanLengths(ls, i) == ScanLengths(ls, 0)
      decreases |ls| - i
    {
      var n := ls[i];
      FoundSoFar(ls, r, i);
      if n > 0 {
        r := r + [Match(i, n)];
        i := i + n;
      } else {
        i := i + 1;
      }
    }
  }

  /** The loop step of `Search`: what is found so far plus the rest of the search is the whole search. */
  lemma FoundSoFar(ls: seq<nat>, r: seq<Match>, i: nat)
    requires Fits(ls) && i < |ls|
    requires r + ScanLengths(ls, i) == ScanLengths(ls, 0)
    ensures ls[i] > 0 ==> (r + [Match(i, ls[i])]) + ScanLengths(ls, i + ls[i]) == ScanLengths(ls, 0)
    ensures ls[i] == 0 ==> r + ScanLengths(ls, i + 1) == ScanLengths(ls, 0)
  {
    var n := ls[i];
    if n > 0 {
      assert ScanLengths(ls, i) == [Match(i, n)] + ScanLengths(ls, i + n);
      assert (r + [Match(i, n)]) + ScanLengths(ls, i + n) == r + ([Match(i, n)] + ScanLengths(ls, i + n));
    }
  }

  /** Ordered, disjoint matches inside a text of length `len`, the first starting at or after `from`. */
  predicate WellPlaced(ms: seq<Match>, from: nat, len: nat)
    decreases |ms|
  {
    if |ms| == 0 then from <= len
    else from <= ms[0].index && WellPlaced(ms[1..], ms[0].index + ms[0].length, len)
  }

  lemma {:induction false} WellPlacedBounds(ms: seq<Match>, from: nat, len: nat)
    requires WellPlaced(ms, from, len)
    ensures from <= len
    ensures |ms| > 0 ==> from <= ms[|ms| - 1].index && ms[|ms| - 1].index + ms[|ms| - 1].length <= len
    decreases |ms|
  {
    if |ms| > 0 {
      WellPlacedBounds(ms[1..], ms[0].index + ms[0].length, len);
      if |ms| > 1 {
        assert ms[1..][|ms| - 2] == ms[|ms| - 1];
      }
    }
  }

  /** The search's matches are well placed in the scanned text. */
  lemma {:induction false} ScanWellPlaced(ls: seq<nat>, from: nat)
    requires Fits(ls) && from <= |ls|
    ensures WellPlaced(ScanLengths(ls, from), from, |ls|)
    decreases |ls| - from
  {
    if from < |ls| {
      var n := ls[from];
      if n > 0 {
        ScanWellPlaced(ls, from + n);
        assert ScanLengths(ls, from)[1..] == ScanLengths(ls, from + n);
      } else {
        ScanWellPlaced(ls, from + 1);
      }
    }
  }

  /** A match covering the whole text is the only one found. */
  lemma WholeMatch(ls: seq<nat>)
    requires Fits(ls) && |ls| > 0 && ls[0] == |ls|
    ensures ScanLengths(ls, 0) == [Match(0, |ls|)]
  {
    assert ScanLengths(ls, 0) == [Match(0, |ls|)] + ScanLengths(ls, |ls|);
  }

  /** A match at 0 of length `n` followed by a match at `n` gives at least two matches. */
  lemma TwoMatches(ls: seq<nat>, n: nat)
    requires Fits(ls) && 0 < n < |ls| && ls[0] == n && ls[n] > 0
    ensures |ScanLengths(ls, 0)| >= 2
  {
    assert ScanLengths(ls, 0) == [Match(0, n)] + ScanLengths(ls, n);
    assert ScanLengths(ls, n) == [Match(n, ls[n])] + ScanLengths(ls, n + ls[n]);
  }
}

=== FILE: member_prefix.dfy ===
/**
 * What the three member-name prefix rules share: the regular-expression
 * shape `^prefix([^a-z]|$)` over a literal prefix, and reporting one
 * failure per flagged member of a class, in declaration order.
 */
module MemberPrefix {
  import opened Strings

  /**
   * `name` begins with `prefix`, and the prefix is either the whole name or
   * followed by a character outside `a`-`z`.
   */
  predicate PrefixedBy(name: String, prefix: String) {
    StartsWith(name, prefix) && (|name| == |prefix| || !IsLowerAscii(name[|prefix|]))
  }

  /** A failure names the flagged member by its position in the class. */
  datatype Failure = Failure(member: nat, message: String)

  /**
   * One failure, carrying `message`, for each member from index `from` on
   * whose name is flagged, in declaration order.
   */
  function Report(names: seq<String>, flagged: String -> bool, message: String, from: nat): (r: seq<Failure>)
    requires from <= |names|
    ensures forall k :: 0 <= k < |r| ==> from <= r[k].member < |names| && flagged(names[r[k].member])
    ensures forall k :: 0 <= k < |r| ==> r[k].message == message
    ensures forall k, l :: 0 <= k < l < |r| ==> r[k].member < r[l].member
    ensures forall i :: from <= i < |names| && flagged(names[i]) ==> Failure(i, message) in r
    decreases |names| - from
  {
    if from == |names| then []
    else
      var rest := Report(names, flagged, message, from + 1);
      if flagged(names[from]) then [Failure(from, message)] + rest else rest
  }

  /** A member is reported exactly when its name is flagged, and at most once. */
  lemma ReportExactlyFlagged(names: seq<String>, flagged: String -> bool, message: String, i: nat)
    requires i < |names|
    ensures Failure(i, message) in Report(names, flagged, message, 0) <==> flagged(names[i])
    ensures forall k, l :: 0 <= k < l < |Report(names, flagged, message, 0)| ==>
              Report(names, flagged, message, 0)[k].member != Report(names, flagged, message, 0)[l].member
  {
  }
}

/** The no-output-on-prefix rule: outputs must not be named `on...`. */
module NoOutputOnPrefix {
  import opened Strings
  import opened Regex
  import opened MemberPrefix

  /**
   * The test `/^on((?![a-z])|(?=$))/` on a non-empty name: `on` followed by
   * the end of the name or by a character outside `a`-`z`.
   */
  predicate HasOnPrefix(name: String) {
    |name| > 0 && |name| >= 2 && name[0] == 'o' && name[1] == 'n' && (|name| == 2 || !IsLowerAscii(name[2]))
  }

  function OutputFailures(outputNames: seq<String>): (r: seq<Failure>)
    ensures forall k :: 0 <= k < |r| ==> r[k].member < |outputNames| && PrefixedBy(outputNames[r[k].member], "on")
    ensures forall i :: 0 <= i < |outputNames| && PrefixedBy(outputNames[i], "on") ==> Failure(i, "on") in r
  {
    OnPrefixIsPrefixedBy();
    Report(outputNames, HasOnPrefix, "on", 0)
  }

  /** The rule's test is the shared prefix shape for the literal prefix `on`. */
  lemma OnPrefixIsPrefixedBy()
    ensures forall name :: HasOnPrefix(name) <==> PrefixedBy(name, "on")
  {
    forall name: String
      ensures HasOnPrefix(name) <==> PrefixedBy(name, "on")
    {
      if StartsWith(name, "on") {
        assert name[0] == name[..2][0];
      }
      if |name| >= 2 && name[0] == 'o' && name[1] == 'n' {
        assert name[..2] == "on";
      }
    }
  }

  /** `((?![a-z])|(?=$))`: the next character is not in `a`-`z`, or there is none. */
  const Boundary: Re := Alt(Ahead(true, Range(false, 'a', 'z')), Ahead(false, End))

  /** The rule's regular expression `/^on((?![a-z])|(?=$))/`. */
  const OnPattern: Re := Cat(Start, Cat(Literal("on"), Boundary))

  lemma BoundaryMatches(s: String, p: nat, q: nat)
    requires p <= q <= |s|
    ensures Matches(Boundary, s, p, q) <==> p == q && (p == |s| || !IsLowerAscii(s[p]))
  {
    if p < |s| && IsLowerAscii(s[p]) {
      assert Matches(Range(false, 'a', 'z'), s, p, p + 1);
    }
    if p == |s| {
      assert Matches(End, s, p, p);
    }
  }

  /** A literal behind `^` and followed by the look-aheads is the shared prefix shape. */
  lemma LookaheadPrefix(w: String, s: String)
    ensures Test(Cat(Start, Cat(Literal(w), Boundary)), s) <==> PrefixedBy(s, w)
  {
    Anchored(Cat(Literal(w), Boundary), s);
    if exists j: nat :: j <= |s| && Matches(Cat(Literal(w), Boundary), s, 0, j) {
      var j: nat :| j <= |s| && Matches(Cat(Literal(w), Boundary), s, 0, j);
      LiteralThen(w, Boundary, s, 0, j);
      BoundaryMatches(s, |w|, j);
    }
    if PrefixedBy(s, w) {
      BoundaryMatches(s, |w|, |w|);
      LiteralThen(w, Boundary, s, 0, |w|);
      assert Matches(Cat(Literal(w), Boundary), s, 0, |w|);
    }
  }

  /**
   * The rule's test, `!memberName || !/^on((?![a-z])|(?=$))/.test(memberName)`
   * failing, is `HasOnPrefix`.
   */
  lemma OnPrefixIsRegex(name: String)
    ensures HasOnPrefix(name) <==> |name| > 0 && Test(OnPattern, name)
  {
    LookaheadPrefix("on", name);
    OnPrefixIsPrefixedBy();
  }

  /** The cases the rule's tests pin down. */
  lemma OnPrefixExamples()
    ensures HasOnPrefix("on") && HasOnPrefix("onChange") && HasOnPrefix("on_change")
    ensures !HasOnPrefix("oneProp") && !HasOnPrefix("change") && !HasOnPrefix("selectionChanged")
    ensures !HasOnPrefix("") && !HasOnPrefix("On")
  {
  }
}

/** The no-input-prefix rule: inputs must not start with a configured prefix. */
module NoInputPrefix {
  import opened Strings
  import opened Regex
  import opened ReadableList
  import opened MemberPrefix

  /** At least one prefix must be configured for the rule to run. */
  predicate IsEnabled(ruleArguments: seq<String>) {
    |ruleArguments| >= 1
  }

  /**
   * `x === name || /^x[^a-z]/.test(name)` for some configured prefix `x`,
   * each prefix taken literally.
   */
  predicate IsBlacklisted(name: String, prefixes: seq<String>) {
    exists j :: 0 <= j < |prefixes| &&
      (prefixes[j] == name || (StartsWith(name, prefixes[j]) && |name| > |prefixes[j]| && !IsLowerAscii(name[|prefixes[j]|])))
  }

  /** The message payload lists every configured prefix, not only the matching one. */
  function FailureMessage(prefixes: seq<String>): (r: String)
    requires |prefixes| > 0
    ensures StartsWith(r, Quote(prefixes[0])) && EndsWith(r, Quote(prefixes[|prefixes| - 1]))
    ensures r == Listing(prefixes, "or")
  {
    GetReadableListIsListing(prefixes, "or");
    GetReadableList(prefixes, "or")
  }

  function InputFailures(inputNames: seq<String>, ruleArguments: seq<String>): (r: seq<Failure>)
    ensures !IsEnabled(ruleArguments) ==> r == []
    ensures forall k :: 0 <= k < |r| ==>
              r[k].member < |inputNames| && IsBlacklisted(inputNames[r[k].member], ruleArguments)
              && r[k].message == FailureMessage(ruleArguments)
    ensures IsEnabled(ruleArguments) ==>
              forall i :: 0 <= i < |inputNames| && IsBlacklisted(inputNames[i], ruleArguments) ==>
                Failure(i, FailureMessage(ruleArguments)) in r
    ensures forall k, l :: 0 <= k < l < |r| ==> r[k].member < r[l].member
  {
    if !IsEnabled(ruleArguments) then []
    else Report(inputNames, name => IsBlacklisted(name, ruleArguments), FailureMessage(ruleArguments), 0)
  }

  /** Being blacklisted by some prefix is the shared prefix shape for that prefix. */
  lemma BlacklistedIsPrefixedBy(name: String, prefixes: seq<String>)
    ensures IsBlacklisted(name, prefixes) <==> exists j :: 0 <= j < |prefixes| && PrefixedBy(name, prefixes[j])
  {
    if IsBlacklisted(name, prefixes) {
      var j :| 0 <= j < |prefixes| &&
        (prefixes[j] == name || (StartsWith(name, prefixes[j]) && |name| > |prefixes[j]| && !IsLowerAscii(name[|prefixes[j]|])));
      assert PrefixedBy(name, prefixes[j]);
    }
    if exists j :: 0 <= j < |prefixes| && PrefixedBy(name, prefixes[j]) {
      var j :| 0 <= j < |prefixes| && PrefixedBy(name, prefixes[j]);
      if |name| == |prefixes[j]| {
        assert name == name[..|prefixes[j]|] == prefixes[j];
      }
    }
  }

  /** The rule's regular expression `^x[^a-z]` for the prefix `x`. */
  function InputPattern(x: String): Re {
    Cat(Start, Cat(Literal(x), Range(true, 'a', 'z')))
  }

  lemma InputPatternTest(x: String, name: String)
    ensures Test(InputPattern(x), name) <==>
              StartsWith(name, x) && |name| > |x| && !IsLowerAscii(name[|x|])
  {
    Anchored(Cat(Literal(x), Range(true, 'a', 'z')), name);
    if exists j: nat :: j <= |name| && Matches(Cat(Literal(x), Range(true, 'a', 'z')), name, 0, j) {
      var j: nat :| j <= |name| && Matches(Cat(Literal(x), Range(true, 'a', 'z')), name, 0, j);
      LiteralThen(x, Range(true, 'a', 'z'), name, 0, j);
    }
    if StartsWith(name, x) && |name| > |x| && !IsLowerAscii(name[|x|]) {
      LiteralThen(x, Range(true, 'a', 'z'), name, 0, |x| + 1);
      assert Matches(Cat(Literal(x), Range(true, 'a', 'z')), name, 0, |x| + 1);
    }
  }

  /**
   * `IsBlacklisted` is the rule's test: some prefix `x` equals the name or
   * `^x[^a-z]` matches it.
   */
  lemma BlacklistedIsRegex(name: String, prefixes: seq<String>)
    ensures IsBlacklisted(name, prefixes) <==>
              exists j :: 0 <= j < |prefixes| && (prefixes[j] == name || Test(InputPattern(prefixes[j]), name))
  {
    forall j | 0 <= j < |prefixes|
      ensures Test(InputPattern(prefixes[j]), name) <==>
                StartsWith(name, prefixes[j]) && |name| > |prefixes[j]| && !IsLowerAscii(name[|prefixes[j]|])
    {
      InputPatternTest(prefixes[j], name);
    }
  }

  /** Examples with the prefixes `is`, `can` and `should`. */
  lemma InputPrefixExamples()
    ensures IsBlacklisted("is", ["is", "can", "should"])
    ensures IsBlacklisted("isEnabled", ["is", "can", "should"])
    ensures IsBlacklisted("can_edit", ["is", "can", "should"])
  {
    BlacklistedIsPrefixedBy("is", ["is", "can", "should"]);
    assert PrefixedBy("is", ["is", "can", "should"][0]);
    BlacklistedIsPrefixedBy("isEnabled", ["is", "can", "should"]);
    assert PrefixedBy("isEnabled", ["is", "can", "should"][0]);
    BlacklistedIsPrefixedBy("can_edit", ["is", "can", "should"]);
    assert PrefixedBy("can_edit", ["is", "can", "should"][1]);
  }

  /** A blacklisted word that is only the start of a longer word does not count: `issue` passes. */
  lemma InputPrefixAllowedExamples()
    ensures !IsBlacklisted("issue", ["is", "can", "should"])
    ensures !IsBlacklisted("enabled", ["is", "can", "should"])
  {
    BlacklistedIsPrefixedBy("issue", ["is", "can", "should"]);
    assert !PrefixedBy("issue", "can") && !PrefixedBy("issue", "should");
    BlacklistedIsPrefixedBy("enabled", ["is", "can", "should"]);
    assert !PrefixedBy("enabled", "is") && !PrefixedBy("enabled", "can") && !PrefixedBy("enabled", "should");
  }

  /**
   * An input gets a failure exactly when the rule is enabled and its name is
   * blacklisted, and never more than one, however many prefixes match.
   */
  lemma OneFailurePerInput(inputNames: seq<String>, ruleArguments: seq<String>, i: nat)
    requires i < |inputNames|
    ensures (exists k :: 0 <= k < |InputFailures(inputNames, ruleArguments)|
                           && InputFailures(inputNames, ruleArguments)[k].member == i)
            <==> IsEnabled(ruleArguments) && IsBlacklisted(inputNames[i], ruleArguments)
    ensures forall k, l ::
              (0 <= k < |InputFailures(inputNames, ruleArguments)| && 0 <= l < |InputFailures(inputNames, ruleArguments)|
               && InputFailures(inputNames, ruleArguments)[k].member == i
               && InputFailures(inputNames, ruleArguments)[l].member == i) ==> k == l
  {
    var r := InputFailures(inputNames, ruleArguments);
    if IsEnabled(ruleArguments) && IsBlacklisted(inputNames[i], ruleArguments) {
      var f := Failure(i, FailureMessage(ruleArguments));
      assert f in r;
      var k :| 0 <= k < |r| && r[k] == f;
      assert r[k].member == i;
    }
  }

  /** Two prefixes matching `isCan`, one of them twice over, still give one failure. */
  lemma OneFailurePerInputExample()
    ensures InputFailures(["isCan"], ["is", "is", "isC"]) == [Failure(0, FailureMessage(["is", "is", "isC"]))]
  {
    assert PrefixedBy("isCan", "is");
    BlacklistedIsPrefixedBy("isCan", ["is", "is", "isC"]);
  }
}

/** The no-output-prefix rule: outputs must not match a configured prefix pattern. */
module NoOutputPrefix {
  import opened Strings
  import opened Regex
  import opened MemberPrefix

  /** Exactly one argument that is not blank. */
  predicate IsEnabled(ruleArguments: seq<String>) {
    |ruleArguments| == 1 && !IsBlank(ruleArguments[0])
  }

  /** The pieces of `s` between occurrences of `sep`. */
  function SplitOn(s: String, sep: char): (r: seq<String>)
    ensures |r| > 0
    ensures forall k :: 0 <= k < |r| ==> sep !in r[k]
    decreases |s|
  {
    if sep !in s then [s]
    else
      var i := FirstIndex(s, sep);
      [s[..i]] + SplitOn(s[i + 1..], sep)
  }

  function FirstIndex(s: String, c: char): (i: nat)
    requires c in s
    ensures i < |s| && s[i] == c && c !in s[..i]
  {
    if s[0] == c then 0 else 1 + FirstIndex(s[1..], c)
  }

  /** Splitting and re-joining with the separator gives back the text. */
  lemma {:induction false} SplitOnJoin(s: String, sep: char)
    ensures Join(SplitOn(s, sep), [sep]) == s
    decreases |s|
  {
    if sep in s {
      var i := FirstIndex(s, sep);
      SplitOnJoin(s[i + 1..], sep);
      var rest := SplitOn(s[i + 1..], sep);
      assert SplitOn(s, sep) == [s[..i]] + rest;
      assert ([s[..i]] + rest)[1..] == rest;
      assert s == s[..i] + [sep] + s[i + 1..];
    }
  }

  /** The pattern starts with its own `^`, which repeats the rule's anchor. */
  predicate HasCaret(pattern: String) {
    |pattern| > 0 && pattern[0] == '^'
  }

  function Unanchored(pattern: String): String {
    if HasCaret(pattern) then pattern[1..] else pattern
  }

  /** `(…)` around the whole text, with no other parenthesis inside. */
  predicate IsGroup(body: String) {
    && |body| >= 2 && body[0] == '(' && body[|body| - 1] == ')'
    && '(' !in body[1..|body| - 1] && ')' !in body[1..|body| - 1]
  }

  /**
   * The literal pieces `|` separates in a pattern such as `^on`, `on|yes` or
   * `^(ok|should)`: inside the group when the pattern is one parenthesised
   * group, and at the top level otherwise.
   */
  function Alternatives(pattern: String): (r: seq<String>)
    ensures |r| > 0
  {
    var body := Unanchored(pattern);
    if IsGroup(body) then SplitOn(body[1..|body| - 1], '|') else SplitOn(body, '|')
  }

  /** `w` occurs somewhere in `s`. */
  predicate Contains(s: String, w: String) {
    exists p: nat :: p <= |s| && OccursAt(s, p, w)
  }

  /** `w` occurs in `s` followed by the end of `s` or by a character outside `a`-`z`. */
  predicate OccursBeforeBoundary(s: String, w: String) {
    exists p: nat :: p <= |s| && OccursAt(s, p, w) && (p + |w| == |s| || !IsLowerAscii(s[p + |w|]))
  }

  /**
   * `new RegExp(`^${pattern}([^a-z]|$)`).test(name)`. Alternation binds
   * loosest: inside a group every alternative is anchored and followed by
   * the tail, while in `a|b|c` only `a` is anchored, only `c` is followed by
   * the tail, and `b` may occur anywhere.
   */
  predicate MatchesPattern(name: String, pattern: String) {
    var alts := Alternatives(pattern);
    if IsGroup(Unanchored(pattern)) || |alts| == 1 then
      exists j :: 0 <= j < |alts| && PrefixedBy(name, alts[j])
    else
      || StartsWith(name, alts[0])
      || (exists k :: 0 < k < |alts| - 1 && Contains(name, alts[k]))
      || OccursBeforeBoundary(name, alts[|alts| - 1])
  }

  function OutputFailures(outputNames: seq<String>, ruleArguments: seq<String>): (r: seq<Failure>)
    ensures !IsEnabled(ruleArguments) ==> r == []
    ensures forall k :: 0 <= k < |r| ==>
              r[k].member < |outputNames| && MatchesPattern(outputNames[r[k].member], ruleArguments[0])
              && r[k].message == ruleArguments[0]
    ensures IsEnabled(ruleArguments) ==>
              forall i :: 0 <= i < |outputNames| && MatchesPattern(outputNames[i], ruleArguments[0]) ==>
                Failure(i, ruleArguments[0]) in r
  {
    if !IsEnabled(ruleArguments) then []
    else Report(outputNames, name => MatchesPattern(name, ruleArguments[0]), ruleArguments[0], 0)
  }

  /** `([^a-z]|$)`, the tail the rule appends to the pattern. */
  const Tail: Re := Alt(Range(true, 'a', 'z'), End)

  /** The rule's `^`, doubled when the pattern brings its own. */
  function Anchor(caret: bool, r: Re): Re {
    Cat(Start, if caret then Cat(Start, r) else r)
  }

  /** `(a|b|…)`: one of the literals. */
  function Choice(ws: seq<String>): Re
    requires |ws| > 0
    decreases |ws|
  {
    if |ws| == 1 then Literal(ws[0]) else Alt(Literal(ws[0]), Choice(ws[1..]))
  }

  /** Branch `k` of `^b0|b1|…|bn([^a-z]|$)`: `^` belongs to the first, the tail to the last. */
  function Branch(caret: bool, bs: seq<String>, k: nat): Re
    requires k < |bs|
  {
    var core := if k == |bs| - 1 then Cat(Literal(bs[k]), Tail) else Literal(bs[k]);
    if k == 0 then Anchor(caret, core) else core
  }

  function Branches(caret: bool, bs: seq<String>, from: nat): Re
    requires from < |bs|
    decreases |bs| - from
  {
    if from == |bs| - 1 then Branch(caret, bs, from)
    else Alt(Branch(caret, bs, from), Branches(caret, bs, from + 1))
  }

  /**
   * The expression `new RegExp(`^${pattern}([^a-z]|$)`)` stands for, when the
   * pattern's only special characters are a leading `^`, one enclosing group
   * and `|`.
   */
  function Compile(pattern: String): Re {
    var alts := Alternatives(pattern);
    if IsGroup(Unanchored(pattern)) then Anchor(HasCaret(pattern), Cat(Choice(alts), Tail))
    else Branches(HasCaret(pattern), alts, 0)
  }

  lemma TailMatches(s: String, p: nat, q: nat)
    requires p <= q <= |s|
    ensures Matches(Tail, s, p, q) <==> (q == p + 1 && !IsLowerAscii(s[p])) || (p == |s| && q == |s|)
  {
  }

  /** A literal then the tail, from `i` to `j`. */
  lemma LiteralTailAt(w: String, s: String, i: nat, j: nat)
    requires i <= j <= |s|
    ensures Matches(Cat(Literal(w), Tail), s, i, j) <==>
              OccursAt(s, i, w) && ((j == i + |w| + 1 && !IsLowerAscii(s[i + |w|])) || (i + |w| == |s| && j == |s|))
  {
    LiteralThen(w, Tail, s, i, j);
    if i + |w| <= j {
      TailMatches(s, i + |w|, j);
    }
  }

  /** A literal then the tail, somewhere from `i` on: the literal at `i` before a boundary. */
  lemma LiteralTail(w: String, s: String, i: nat)
    requires i <= |s|
    ensures (exists j: nat :: i <= j <= |s| && Matches(Cat(Literal(w), Tail), s, i, j)) <==>
              OccursAt(s, i, w) && (i + |w| == |s| || !IsLowerAscii(s[i + |w|]))
  {
    if exists j: nat :: i <= j <= |s| && Matches(Cat(Literal(w), Tail), s, i, j) {
      var j: nat :| i <= j <= |s| && Matches(Cat(Literal(w), Tail), s, i, j);
      LiteralTailAt(w, s, i, j);
    }
    if OccursAt(s, i, w) && (i + |w| == |s| || !IsLowerAscii(s[i + |w|])) {
      var j := if i + |w| == |s| then |s| else i + |w| + 1;
      LiteralTailAt(w, s, i, j);
    }
  }

  lemma AnchorTest(caret: bool, r: Re, s: String)
    ensures Test(Anchor(caret, r), s) <==> exists j: nat :: j <= |s| && Matches(r, s, 0, j)
  {
    if !caret {
      assert Anchor(caret, r) == Cat(Start, r);
      Anchored(r, s);
    } else {
      assert Anchor(caret, r) == Cat(Start, Cat(Start, r));
      Anchored(Cat(Start, r), s);
      if exists j: nat :: j <= |s| && Matches(Cat(Start, r), s, 0, j) {
        var j: nat :| j <= |s| && Matches(Cat(Start, r), s, 0, j);
        StartTwice(r, s, j);
      }
      if exists j: nat :: j <= |s| && Matches(r, s, 0, j) {
        var j: nat :| j <= |s| && Matches(r, s, 0, j);
        StartTwice(r, s, j);
      }
    }
  }

  /** An anchored literal with the tail: the shared prefix shape. */
  lemma TestPrefixed(caret: bool, w: String, s: String)
    ensures Test(Anchor(caret, Cat(Literal(w), Tail)), s) <==> PrefixedBy(s, w)
  {
    AnchorTest(caret, Cat(Literal(w), Tail), s);
    LiteralTail(w, s, 0);
  }

  /** An anchored literal without the tail: the name starts with it. */
  lemma TestStarts(caret: bool, w: String, s: String)
    ensures Test(Anchor(caret, Literal(w)), s) <==> StartsWith(s, w)
  {
    AnchorTest(caret, Literal(w), s);
    if StartsWith(s, w) {
      LiteralMatches(w, s, 0, |w|);
    }
    if exists j: nat :: j <= |s| && Matches(Literal(w), s, 0, j) {
      var j: nat :| j <= |s| && Matches(Literal(w), s, 0, j);
      LiteralMatches(w, s, 0, j);
    }
  }

  /** An unanchored literal with the tail: it occurs before a boundary. */
  lemma TestBounded(w: String, s: String)
    ensures Test(Cat(Literal(w), Tail), s) <==> OccursBeforeBoundary(s, w)
  {
    if Test(Cat(Literal(w), Tail), s) {
      var i: nat, j: nat :| i <= j <= |s| && Matches(Cat(Literal(w), Tail), s, i, j);
      LiteralTailAt(w, s, i, j);
      assert i <= |s| && OccursAt(s, i, w) && (i + |w| == |s| || !IsLowerAscii(s[i + |w|]));
    }
    if OccursBeforeBoundary(s, w) {
      var p: nat :| p <= |s| && OccursAt(s, p, w) && (p + |w| == |s| || !IsLowerAscii(s[p + |w|]));
      LiteralTail(w, s, p);
      var j: nat :| p <= j <= |s| && Matches(Cat(Literal(w), Tail), s, p, j);
    }
  }

  /** A match of `(a|b|…)` with the tail is a match of one alternative with the tail. */
  lemma {:induction false} ChoiceTailElim(ws: seq<String>, s: String, j: nat) returns (k: nat)
    requires |ws| > 0 && j <= |s| && Matches(Cat(Choice(ws), Tail), s, 0, j)
    ensures k < |ws| && Matches(Cat(Literal(ws[k]), Tail), s, 0, j)
    decreases |ws|
  {
    if |ws| == 1 {
      k := 0;
    } else {
      assert Choice(ws) == Alt(Literal(ws[0]), Choice(ws[1..]));
      CatAltElim(Literal(ws[0]), Choice(ws[1..]), Tail, s, 0, j);
      if Matches(Cat(Literal(ws[0]), Tail), s, 0, j) {
        k := 0;
      } else {
        var k' := ChoiceTailElim(ws[1..], s, j);
        k := k' + 1;
        assert ws[1..][k'] == ws[k];
      }
    }
  }

  /** A match of one alternative with the tail is a match of `(a|b|…)` with the tail. */
  lemma {:induction false} ChoiceTailIntro(ws: seq<String>, s: String, j: nat, k: nat)
    requires k < |ws| && j <= |s| && Matches(Cat(Literal(ws[k]), Tail), s, 0, j)
    ensures Matches(Cat(Choice(ws), Tail), s, 0, j)
    decreases |ws|
  {
    if |ws| > 1 {
      assert Choice(ws) == Alt(Literal(ws[0]), Choice(ws[1..]));
      if k > 0 {
        assert ws[1..][k - 1] == ws[k];
        ChoiceTailIntro(ws[1..], s, j, k - 1);
      }
      CatAltIntro(Literal(ws[0]), Choice(ws[1..]), Tail, s, 0, j);
    }
  }

  lemma GroupMatchIsPrefix(ws: seq<String>, s: String, j: nat)
    requires |ws| > 0 && j <= |s| && Matches(Cat(Choice(ws), Tail), s, 0, j)
    ensures exists k :: 0 <= k < |ws| && PrefixedBy(s, ws[k])
  {
    var k := ChoiceTailElim(ws, s, j);
    LiteralTailAt(ws[k], s, 0, j);
    assert PrefixedBy(s, ws[k]);
  }

  lemma PrefixIsGroupMatch(ws: seq<String>, s: String, k: nat)
    requires k < |ws| && PrefixedBy(s, ws[k])
    ensures exists j: nat :: j <= |s| && Matches(Cat(Choice(ws), Tail), s, 0, j)
  {
    LiteralTail(ws[k], s, 0);
    var j: nat :| 0 <= j <= |s| && Matches(Cat(Literal(ws[k]), Tail), s, 0, j);
    ChoiceTailIntro(ws, s, j, k);
  }

  /** `^(a|b|…)([^a-z]|$)`: some alternative is a prefix before a boundary. */
  lemma TestGroup(caret: bool, ws: seq<String>, s: String)
    requires |ws| > 0
    ensures Test(Anchor(caret, Cat(Choice(ws), Tail)), s) <==> exists k :: 0 <= k < |ws| && PrefixedBy(s, ws[k])
  {
    AnchorTest(caret, Cat(Choice(ws), Tail), s);
    if exists j: nat :: j <= |s| && Matches(Cat(Choice(ws), Tail), s, 0, j) {
      var j: nat :| j <= |s| && Matches(Cat(Choice(ws), Tail), s, 0, j);
      GroupMatchIsPrefix(ws, s, j);
    }
    if exists k :: 0 <= k < |ws| && PrefixedBy(s, ws[k]) {
      var k :| 0 <= k < |ws| && PrefixedBy(s, ws[k]);
      PrefixIsGroupMatch(ws, s, k);
    }
  }

  lemma {:induction false} TestBranches(caret: bool, bs: seq<String>, from: nat, s: String)
    requires from < |bs|
    ensures Test(Branches(caret, bs, from), s) <==> exists k :: from <= k < |bs| && Test(Branch(caret, bs, k), s)
    decreases |bs| - from
  {
    if from < |bs| - 1 {
      TestAlt(Branch(caret, bs, from), Branches(caret, bs, from + 1), s);
      TestBranches(caret, bs, from + 1, s);
    }
  }

  /**
   * The rule's string test is the regular expression it builds: for every
   * pattern and every name, `MatchesPattern` holds exactly when
   * `^${pattern}([^a-z]|$)` matches somewhere in the name.
   */
  lemma MatchesPatternIsRegex(name: String, pattern: String)
    ensures MatchesPattern(name, pattern) <==> Test(Compile(pattern), name)
  {
    var alts := Alternatives(pattern);
    var caret := HasCaret(pattern);
    if IsGroup(Unanchored(pattern)) {
      TestGroup(caret, alts, name);
    } else {
      TestBranches(caret, alts, 0, name);
      if |alts| == 1 {
        TestPrefixed(caret, alts[0], name);
      } else {
        var last := |alts| - 1;
        TestStarts(caret, alts[0], name);
        TestBounded(alts[last], name);
        forall k | 0 < k < last
          ensures Test(Branch(caret, alts, k), name) <==> Contains(name, alts[k])
        {
          TestLiteral(alts[k], name);
        }
        assert Test(Branch(caret, alts, 0), name) <==> StartsWith(name, alts[0]);
        assert Test(Branch(caret, alts, last), name) <==> OccursBeforeBoundary(name, alts[last]);
      }
    }
  }

  lemma AlternativesExamples()
    ensures Alternatives("^on") == ["on"]
  {
    assert "^on"[1..] == "on";
    assert '|' !in "on";
  }

  /** Text with exactly one separator splits into the two pieces around it. */
  lemma SplitTwo(a: String, b: String, sep: char)
    requires sep !in a && sep !in b
    ensures SplitOn(a + [sep] + b, sep) == [a, b]
  {
    var s := a + [sep] + b;
    assert s[|a|] == sep;
    var i := FirstIndex(s, sep);
    assert s[..|a|] == a;
    assert i == |a|;
    assert s[..i] == a && s[i + 1..] == b;
  }

  /** A parenthesised group of two alternatives is split into them. */
  lemma GroupAlternatives(pattern: String, a: String, b: String)
    requires '|' !in a && '(' !in a && ')' !in a
    requires '|' !in b && '(' !in b && ')' !in b
    requires pattern == "^(" + a + "|" + b + ")"
    ensures IsGroup(Unanchored(pattern))
    ensures Alternatives(pattern) == [a, b]
  {
    var body := pattern[1..];
    assert body == "(" + a + "|" + b + ")";
    var inner := body[1..|body| - 1];
    assert inner == a + "|" + b;
    assert '(' !in inner && ')' !in inner by {
      forall m | 0 <= m < |inner|
        ensures inner[m] != '(' && inner[m] != ')'
      {
        if m < |a| {
          assert inner[m] == a[m];
        } else if m > |a| {
          assert inner[m] == b[m - |a| - 1];
        }
      }
    }
    SplitTwo(a, b, '|');
  }

  lemma GroupAlternativesExample()
    ensures IsGroup(Unanchored("^(ok|should)"))
    ensures Alternatives("^(ok|should)") == ["ok", "should"]
  {
    GroupAlternatives("^(ok|should)", "ok", "should");
  }

  /** Two top-level alternatives with no group are the two branches. */
  lemma TopLevelAlternatives(pattern: String, a: String, b: String)
    requires |a| > 0 && a[0] != '^' && a[0] != '('
    requires '|' !in a && '|' !in b
    requires pattern == a + "|" + b
    ensures !IsGroup(Unanchored(pattern))
    ensures Alternatives(pattern) == [a, b]
  {
    assert pattern[0] == a[0];
    SplitTwo(a, b, '|');
  }

  /** The cases the rule's tests pin down. */
  lemma OutputPatternExamples()
    ensures MatchesPattern("onChange", "^on")
    ensures MatchesPattern("okTest", "^(ok|should)") && MatchesPattern("shouldTest", "^(ok|should)")
  {
    AlternativesExamples();
    GroupAlternativesExample();
    assert PrefixedBy("onChange", Alternatives("^on")[0]);
    assert PrefixedBy("okTest", Alternatives("^(ok|should)")[0]);
    assert PrefixedBy("shouldTest", Alternatives("^(ok|should)")[1]);
  }

  /** A name starting with neither alternative passes. */
  lemma OutputPatternPassExamples()
    ensures !MatchesPattern("oTest", "^(ok|should)") && !MatchesPattern("shoulChange", "^(ok|should)")
  {
    GroupAlternativesExample();
    assert !PrefixedBy("oTest", "ok") && !PrefixedBy("oTest", "should");
    assert !PrefixedBy("shoulChange", "ok") && !PrefixedBy("shoulChange", "should");
  }

  /** A lower-case letter after the prefix keeps the name: `doit` passes `^do`, `do_it` fails. */
  lemma LowerCaseContinuationPasses()
    ensures MatchesPattern("do_it", "^do") && !MatchesPattern("doit", "^do")
  {
    assert "^do"[1..] == "do";
    assert '|' !in "do";
    assert Alternatives("^do") == ["do"];
    assert PrefixedBy("do_it", Alternatives("^do")[0]);
    assert !PrefixedBy("doit", "do");
  }

  /**
   * Without a group only the first alternative is anchored and only the
   * last is followed by the tail: under `on|yes` the names `onion` and
   * `xyes` are reported and `yesterday` is not, while `^(on|yes)` lets
   * `onion` pass.
   */
  lemma UngroupedExamples(pattern: String, grouped: String)
    requires pattern == "on|yes" && grouped == "^(on|yes)"
    ensures MatchesPattern("onion", pattern) && MatchesPattern("xyes", pattern)
    ensures !MatchesPattern("yesterday", pattern)
    ensures !MatchesPattern("onion", grouped)
  {
    UngroupedReported(pattern);
    UngroupedPasses(pattern);
    GroupedPasses(grouped);
  }

  lemma UngroupedReported(pattern: String)
    requires pattern == "on|yes"
    ensures MatchesPattern("onion", pattern) && MatchesPattern("xyes", pattern)
  {
    TopLevelAlternatives(pattern, "on", "yes");
    assert "onion"[..2] == "on";
    assert OccursAt("xyes", 1, "yes");
  }

  lemma UngroupedPasses(pattern: String)
    requires pattern == "on|yes"
    ensures !MatchesPattern("yesterday", pattern)
  {
    TopLevelAlternatives(pattern, "on", "yes");
    var y := "yesterday";
    assert y[..2][0] == 'y';
    assert !OccursBeforeBoundary(y, "yes") by {
      forall p: nat | OccursAt(y, p, "yes")
        ensures p + 3 < |y| && IsLowerAscii(y[p + 3])
      {
        assert y[p] == y[p..p + 3][0];
      }
    }
  }

  lemma GroupedPasses(grouped: String)
    requires grouped == "^(on|yes)"
    ensures !MatchesPattern("onion", grouped)
  {
    GroupAlternatives(grouped, "on", "yes");
    assert !PrefixedBy("onion", "on");
    assert "onion"[..3][0] == 'o';
  }

  /** The rule runs only with exactly one non-blank pattern. */
  lemma EnabledExamples()
    ensures IsEnabled(["^on"]) && !IsEnabled([]) && !IsEnabled(["  "]) && !IsEnabled(["^on", "^do"])
  {
    assert !IsWhitespace("^on"[0]);
  }
}

=== FILE: prefer_property_binding.dfy ===
/**
 * The template-prefer-property-binding rule: a bound property whose value
 * is a single interpolation, `name="{{ expr }}"`, is reported over the
 * property's source span, with a fix that rewrites it to `[name]="expr"`.
 * A value holding two or more interpolations is left alone.
 *
 * The rule's two regular expressions are written out by hand:
 *   `{{\s*(.*?)\s*}}`            (global, counted with `match`), and
 *   `(.*)="{{\s*(.*?)\s*}}"`     (first match, used by `replace`).
 */
module PreferPropertyBinding {
  import opened Strings
  import opened GlobalScan

  const InterpolationOpen: String := "{{"
  const InterpolationClose: String := "}}"
  /** The opening of an interpolated attribute value in the assignment pattern. */
  const AssignmentOpen: String := "=\"{{"
  /** The closing of an interpolated attribute value in the assignment pattern. */
  const QuotedClose: String := "}}\""

  // ---------------------------------------------------------------------
  // The body `\s*(.*?)\s*` followed by a closing delimiter.
  // ---------------------------------------------------------------------

  /** Where the captured expression starts and ends, and where the closing delimiter starts. */
  datatype Inner = Inner(exprStart: nat, exprEnd: nat, closeAt: nat)

  /**
   * The body matches `s` from `from` with leading white space up to `a`,
   * the captured `(.*?)` (no line terminator) from `a` to `p`, trailing
   * white space from `p` to `c`, and `close` at `c`.
   */
  ghost predicate IsInner(s: String, from: nat, a: nat, p: nat, c: nat, close: String) {
    && from <= a <= p <= c
    && OccursAt(s, c, close)
    && (forall m :: from <= m < a ==> IsWhitespace(s[m]))
    && (forall m :: a <= m < p ==> !IsLineTerminator(s[m]))
    && (forall m :: p <= m < c ==> IsWhitespace(s[m]))
  }

  /** After the lazy group stops at `q`, the greedy `\s*` leads to `close`. */
  predicate CloseAfter(s: String, q: nat, close: String)
    requires q <= |s|
  {
    OccursAt(s, SkipWhitespace(s, q), close)
  }

  /** For every stopping point of the lazy group, whether `close` follows. */
  function Closes(s: String, close: String): (t: seq<bool>)
    ensures |t| == |s| + 1
    ensures forall q :: 0 <= q <= |s| ==> t[q] == CloseAfter(s, q, close)
  {
    seq(|s| + 1, q requires 0 <= q <= |s| => CloseAfter(s, q, close))
  }

  /** The first `true` in `t[q..limit]`, both ends included. */
  function FirstTrue(t: seq<bool>, q: nat, limit: nat): (r: Option<nat>)
    requires q <= limit < |t|
    ensures r.Some? ==> q <= r.value <= limit && t[r.value]
    ensures forall j :: q <= j <= limit && (r.None? || j < r.value) ==> !t[j]
    decreases limit - q
  {
    if t[q] then Some(q)
    else if q == limit then None
    else FirstTrue(t, q + 1, limit)
  }

  /** The last `true` in `t[i..k]`, both ends included. */
  function LastTrue(t: seq<bool>, i: nat, k: nat): (r: Option<nat>)
    requires i <= k < |t|
    ensures r.Some? ==> i <= r.value <= k && t[r.value]
    ensures forall j :: i <= j <= k && (r.None? || r.value < j) ==> !t[j]
    decreases k - i
  {
    if t[k] then Some(k)
    else if k == i then None
    else LastTrue(t, i, k - 1)
  }

  /**
   * The body as the backtracking matcher finds it: the leading `\s*` takes
   * all the white space, the lazy group grows one character at a time and
   * cannot cross a line terminator.
   */
  function MatchInner(s: String, from: nat, close: String): (r: Option<Inner>)
    requires from <= |s|
    ensures r.Some? ==> from <= r.value.exprStart <= r.value.exprEnd <= r.value.closeAt
                        && r.value.closeAt + |close| <= |s|
  {
    var a := SkipWhitespace(s, from);
    var limit := NextLineTerminator(s, a);
    match FirstTrue(Closes(s, close), a, limit)
    case None => None
    case Some(p) => Some(Inner(a, p, SkipWhitespace(s, p)))
  }

  /** White space up to a non-white character is skipped exactly to it. */
  lemma {:induction false} SkipWhitespaceTo(s: String, j: nat, k: nat)
    requires j <= k < |s| && !IsWhitespace(s[k])
    requires forall m :: j <= m < k ==> IsWhitespace(s[m])
    ensures SkipWhitespace(s, j) == k
    decreases k - j
  {
    if j < k {
      SkipWhitespaceTo(s, j + 1, k);
    }
  }

  lemma SkipWhitespaceLeast(s: String, j: nat, m: nat)
    requires j <= m <= |s| && (m == |s| || !IsWhitespace(s[m]))
    ensures SkipWhitespace(s, j) <= m
  {
  }

  /** What the matcher finds is a match of the body. */
  lemma InnerSound(s: String, from: nat, close: String)
    requires from <= |s|
    ensures MatchInner(s, from, close).Some? ==>
              var m := MatchInner(s, from, close).value;
              IsInner(s, from, m.exprStart, m.exprEnd, m.closeAt, close)
  {
    if MatchInner(s, from, close).Some? {
      var m := MatchInner(s, from, close).value;
      assert Closes(s, close)[m.exprEnd];
    }
  }

  /**
   * Whenever the body matches at all, the matcher finds a match, and its
   * closing delimiter is the earliest one any match can use.
   */
  lemma InnerLeast(s: String, from: nat, a: nat, p: nat, c: nat, close: String)
    requires from <= |s| && |close| > 0 && !IsWhitespace(close[0])
    requires IsInner(s, from, a, p, c, close)
    ensures MatchInner(s, from, close).Some?
    ensures MatchInner(s, from, close).value.closeAt <= c
  {
    OccursAtFirst(s, c, close);
    var start := SkipWhitespace(s, from);
    var limit := NextLineTerminator(s, start);
    SkipWhitespaceLeast(s, from, c);
    var q := if p < start then start else p;
    assert q <= limit;
    SkipWhitespaceTo(s, q, c);
    assert Closes(s, close)[q];
    var r := FirstTrue(Closes(s, close), start, limit);
    assert r.Some? && r.value <= q;
    SkipWhitespaceLeast(s, r.value, c);
  }

  /** Stopping the lazy group before a white-space character leads to the same `close`. */
  lemma ClosesAcrossWhitespace(s: String, close: String, q: nat)
    requires q < |s|
    ensures IsWhitespace(s[q]) ==> Closes(s, close)[q] == Closes(s, close)[q + 1]
  {
  }

  /** The captured expression carries no white space at either end. */
  lemma InnerTrimmed(s: String, from: nat, close: String)
    requires from <= |s|
    ensures MatchInner(s, from, close).Some? ==>
              var m := MatchInner(s, from, close).value;
              m.exprStart == m.exprEnd
              || (!IsWhitespace(s[m.exprStart]) && !IsWhitespace(s[m.exprEnd - 1]))
  {
    if MatchInner(s, from, close).Some? {
      var m := MatchInner(s, from, close).value;
      if m.exprStart < m.exprEnd {
        var t := Closes(s, close);
        assert t[m.exprEnd] && !t[m.exprEnd - 1];
        ClosesAcrossWhitespace(s, close, m.exprEnd - 1);
      }
    }
  }

  /**
   * A body laid out as white space up to `x`, a single-line expression
   * `x..y` with no white space at its ends and no `close[0]` inside, white
   * space up to `c`, and `close`.
   */
  lemma InnerAt(s: String, from: nat, x: nat, y: nat, c: nat, close: String)
    requires from <= x < y <= c && OccursAt(s, c, close)
    requires |close| > 0 && !IsWhitespace(close[0])
    requires forall m :: from <= m < x ==> IsWhitespace(s[m])
    requires !IsWhitespace(s[x]) && !IsWhitespace(s[y - 1])
    requires forall m :: x <= m < y ==> !IsLineTerminator(s[m]) && s[m] != close[0]
    requires forall m :: y <= m < c ==> IsWhitespace(s[m])
    ensures MatchInner(s, from, close) == Some(Inner(x, y, c))
  {
    SkipWhitespaceTo(s, from, x);
    var limit := NextLineTerminator(s, x);
    assert y <= limit;
    OccursAtFirst(s, c, close);
    SkipWhitespaceTo(s, y, c);
    var t := Closes(s, close);
    assert t[y];
    forall j | x <= j < y
      ensures !t[j]
    {
      SkipWhitespaceLeast(s, j, y - 1);
      OccursAtFirst(s, SkipWhitespace(s, j), close);
    }
    var r := FirstTrue(t, x, limit);
    assert r.Some? && r.value == y;
  }

  // ---------------------------------------------------------------------
  // Counting interpolations: `source.match(/{{\s*(.*?)\s*}}/g)`.
  // ---------------------------------------------------------------------

  /** The length of the interpolation matched at `i` (0 for none). */
  function InterpolationLength(s: String, i: nat): (n: nat)
    requires i <= |s|
    ensures n == 0 || (4 <= n && i + n <= |s|)
  {
    if !OccursAt(s, i, InterpolationOpen) then 0
    else match MatchInner(s, i + 2, InterpolationClose)
      case None => 0
      case Some(m) => m.closeAt + 2 - i
  }

  /** The pattern matches at `i` with length `n`: `{{`, a body, and `}}` at `i + n - 2`. */
  ghost predicate IsInterpolation(s: String, i: nat, n: nat) {
    && OccursAt(s, i, InterpolationOpen)
    && n >= 4
    && exists a: nat, p: nat {:trigger IsInner(s, i + 2, a, p, i + n - 2, InterpolationClose)} ::
         IsInner(s, i + 2, a, p, i + n - 2, InterpolationClose)
  }

  /** The match at `i` is the shortest interpolation starting there, as the lazy group demands. */
  lemma InterpolationLengthIsShortest(s: String, i: nat, n: nat)
    requires i <= |s| && IsInterpolation(s, i, n)
    ensures 0 < InterpolationLength(s, i) <= n
  {
    var a, p :| IsInner(s, i + 2, a, p, i + n - 2, InterpolationClose);
    InnerLeast(s, i + 2, a, p, i + n - 2, InterpolationClose);
  }

  /** A non-zero length is a genuine match of the pattern. */
  lemma InterpolationLengthSound(s: String, i: nat)
    requires i <= |s|
    ensures InterpolationLength(s, i) > 0 ==> IsInterpolation(s, i, InterpolationLength(s, i))
  {
    if InterpolationLength(s, i) > 0 {
      InnerSound(s, i + 2, InterpolationClose);
      var m := MatchInner(s, i + 2, InterpolationClose).value;
      assert IsInner(s, i + 2, m.exprStart, m.exprEnd, i + InterpolationLength(s, i) - 2, InterpolationClose);
    }
  }

  function InterpolationLengths(s: String): (ls: seq<nat>)
    ensures |ls| == |s| && Fits(ls)
    ensures forall i :: 0 <= i < |s| ==> ls[i] == InterpolationLength(s, i)
  {
    seq(|s|, i requires 0 <= i < |s| => InterpolationLength(s, i))
  }

  /** The interpolations the global match finds, left to right. */
  function Interpolations(s: String): seq<Match> {
    ScanLengths(InterpolationLengths(s), 0)
  }

  /** Every interpolation counted is a genuine, shortest match at its position. */
  lemma InterpolationsSound(s: String)
    ensures forall k :: 0 <= k < |Interpolations(s)| ==>
              IsInterpolation(s, Interpolations(s)[k].index, Interpolations(s)[k].length)
  {
    ScanSound(InterpolationLengths(s), 0);
    forall k | 0 <= k < |Interpolations(s)|
      ensures IsInterpolation(s, Interpolations(s)[k].index, Interpolations(s)[k].length)
    {
      InterpolationLengthSound(s, Interpolations(s)[k].index);
    }
  }

  /** An interpolation at `i` whose expression is `x..y` and whose `}}` starts at `c`. */
  lemma InterpolationAt(s: String, i: nat, x: nat, y: nat, c: nat)
    requires OccursAt(s, i, InterpolationOpen) && i + 2 <= x < y <= c && OccursAt(s, c, InterpolationClose)
    requires forall m :: i + 2 <= m < x ==> IsWhitespace(s[m])
    requires !IsWhitespace(s[x]) && !IsWhitespace(s[y - 1])
    requires forall m :: x <= m < y ==> !IsLineTerminator(s[m]) && s[m] != '}'
    requires forall m :: y <= m < c ==> IsWhitespace(s[m])
    ensures InterpolationLength(s, i) == c + 2 - i
  {
    InnerAt(s, i + 2, x, y, c, InterpolationClose);
  }

  /** A value that is exactly one interpolation, `{{ expr }}`, counts one. */
  lemma SingleInterpolationCount(w1: String, e: String, w2: String)
    requires IsBlank(w1) && IsBlank(w2)
    requires |e| > 0 && !IsWhitespace(e[0]) && !IsWhitespace(e[|e| - 1])
    requires forall m :: 0 <= m < |e| ==> !IsLineTerminator(e[m]) && e[m] != '}'
    ensures |Interpolations(InterpolationOpen + w1 + e + w2 + InterpolationClose)| == 1
  {
    var s := InterpolationOpen + w1 + e + w2 + InterpolationClose;
    var x := 2 + |w1|;
    var y := x + |e|;
    var c := y + |w2|;
    assert s[..2] == InterpolationOpen;
    assert s[c..] == InterpolationClose;
    assert forall m :: 2 <= m < x ==> s[m] == w1[m - 2];
    assert forall m :: x <= m < y ==> s[m] == e[m - x];
    assert forall m :: y <= m < c ==> s[m] == w2[m - y];
    InterpolationAt(s, 0, x, y, c);
    WholeMatch(InterpolationLengths(s));
  }

  /** Two interpolations side by side count at least two. */
  lemma AdjacentInterpolationsCount(s: String, n: nat)
    requires 0 < n < |s|
    requires InterpolationLength(s, 0) == n && InterpolationLength(s, n) > 0
    ensures |Interpolations(s)| >= 2
  {
    TwoMatches(InterpolationLengths(s), n);
  }

  // ---------------------------------------------------------------------
  // The rewrite: `text.replace(/(.*)="{{\s*(.*?)\s*}}"/, '[$1]="$2"')`.
  // ---------------------------------------------------------------------

  /** The part of the pattern after `(.*)` matches at `k`. */
  predicate AssignmentTail(s: String, k: nat)
    requires k <= |s|
  {
    OccursAt(s, k, AssignmentOpen) && MatchInner(s, k + 4, QuotedClose).Some?
  }

  /** For every end of the name `(.*)`, whether the rest of the pattern matches there. */
  function Tails(s: String): (t: seq<bool>)
    ensures |t| == |s| + 1
    ensures forall k :: 0 <= k <= |s| ==> t[k] == AssignmentTail(s, k)
  {
    seq(|s| + 1, k requires 0 <= k <= |s| => AssignmentTail(s, k))
  }

  /**
   * The pattern matches from `i`: the name `(.*)` from `i` to `k` (no line
   * terminator), `="{{` at `k`, and a body closed by `}}"`.
   */
  ghost predicate IsAssignment(s: String, i: nat, k: nat, a: nat, p: nat, c: nat) {
    && i <= k
    && OccursAt(s, k, AssignmentOpen)
    && (forall m :: i <= m < k ==> !IsLineTerminator(s[m]))
    && IsInner(s, k + 4, a, p, c, QuotedClose)
  }

  /** Where the match starts and where the name `(.*)` ends. */
  datatype Assignment = Assignment(start: nat, nameEnd: nat)

  /**
   * The first start at or after `from` from which the pattern matches, with
   * the greedy name: the last end on the start's line where the rest matches.
   */
  function FindName(s: String, tails: seq<bool>, from: nat): (r: Option<Assignment>)
    requires |tails| == |s| + 1 && from <= |s|
    ensures r.Some? ==> from <= r.value.start <= r.value.nameEnd <= |s| && tails[r.value.nameEnd]
                        && forall m :: r.value.start <= m < r.value.nameEnd ==> !IsLineTerminator(s[m])
    decreases |s| - from
  {
    match LastTrue(tails, from, NextLineTerminator(s, from))
    case Some(k) => Some(Assignment(from, k))
    case None => if from == |s| then None else FindName(s, tails, from + 1)
  }

  /** No start before the one found, and no longer name from it, leads to a match. */
  lemma {:induction false} FindNameIsFirst(s: String, tails: seq<bool>, from: nat, i: nat, k: nat)
    requires |tails| == |s| + 1 && from <= i <= k <= |s| && tails[k]
    requires forall m :: i <= m < k ==> !IsLineTerminator(s[m])
    ensures FindName(s, tails, from).Some?
    ensures FindName(s, tails, from).value.start <= i
    ensures FindName(s, tails, from).value.start == i ==> k <= FindName(s, tails, from).value.nameEnd
    decreases |s| - from
  {
    if from == i {
      assert k <= NextLineTerminator(s, i);
    } else if LastTrue(tails, from, NextLineTerminator(s, from)).None? {
      FindNameIsFirst(s, tails, from + 1, i, k);
    }
  }

  /** The first match of the pattern, as `replace` finds it. */
  function FindAssignment(s: String): (r: Option<Assignment>)
    ensures r.Some? ==> r.value.nameEnd <= |s| && AssignmentTail(s, r.value.nameEnd)
  {
    FindName(s, Tails(s), 0)
  }

  /** The body after the name of a match. */
  function AssignmentBody(s: String, x: Assignment): (m: Inner)
    requires x.nameEnd <= |s| && AssignmentTail(s, x.nameEnd)
    ensures x.nameEnd + 4 <= m.exprStart <= m.exprEnd <= m.closeAt && m.closeAt + 3 <= |s|
  {
    MatchInner(s, x.nameEnd + 4, QuotedClose).value
  }

  /** The rest of the pattern matches at `k` whenever some body does, and closes no later. */
  lemma TailFromAssignment(s: String, i: nat, k: nat, a: nat, p: nat, c: nat)
    requires IsAssignment(s, i, k, a, p, c)
    ensures k <= |s| && AssignmentTail(s, k)
    ensures MatchInner(s, k + 4, QuotedClose).value.closeAt <= c
  {
    InnerLeast(s, k + 4, a, p, c, QuotedClose);
  }

  /** What `FindAssignment` returns is a match of the pattern. */
  lemma FindAssignmentSound(s: String)
    ensures FindAssignment(s).Some? ==>
              var x := FindAssignment(s).value;
              var m := AssignmentBody(s, x);
              IsAssignment(s, x.start, x.nameEnd, m.exprStart, m.exprEnd, m.closeAt)
  {
    if FindAssignment(s).Some? {
      var x := FindAssignment(s).value;
      InnerSound(s, x.nameEnd + 4, QuotedClose);
    }
  }

  /**
   * `FindAssignment` makes the regular expression's choice among all
   * matches: the leftmost start, then the longest name, then the earliest
   * closing `}}"`.
   */
  lemma FindAssignmentIsFirst(s: String, i: nat, k: nat, a: nat, p: nat, c: nat)
    requires IsAssignment(s, i, k, a, p, c)
    ensures FindAssignment(s).Some?
    ensures FindAssignment(s).value.start <= i
    ensures FindAssignment(s).value.start == i ==> k <= FindAssignment(s).value.nameEnd
    ensures FindAssignment(s).value.start == i && FindAssignment(s).value.nameEnd == k ==>
              AssignmentBody(s, FindAssignment(s).value).closeAt <= c
  {
    TailFromAssignment(s, i, k, a, p, c);
    FindNameIsFirst(s, Tails(s), 0, i, k);
  }

  /** The text with the match `x`, whose body is `m`, replaced by `[name]="expr"`. */
  function ReplaceMatch(text: String, x: Assignment, m: Inner): (r: String)
    requires x.start <= x.nameEnd <= m.exprStart <= m.exprEnd <= m.closeAt && m.closeAt + 3 <= |text|
    ensures |r| == |text| - (m.closeAt + 3 - x.start) + (x.nameEnd - x.start) + (m.exprEnd - m.exprStart) + 5
  {
    text[..x.start] + "[" + text[x.start..x.nameEnd] + "]=\""
    + text[m.exprStart..m.exprEnd] + "\"" + text[m.closeAt + 3..]
  }

  /** The fix text for a property's source: the first match rewritten to `[name]="expr"`. */
  function Rewrite(text: String): String {
    match FindAssignment(text)
    case None => text
    case Some(x) => ReplaceMatch(text, x, AssignmentBody(text, x))
  }

  /** Text in which the pattern does not match is returned unchanged. */
  lemma RewriteUnchanged(text: String)
    requires forall i, k, a, p, c :: !IsAssignment(text, i, k, a, p, c)
    ensures Rewrite(text) == text
  {
    FindAssignmentSound(text);
  }

  /** Once the pattern matches, the text is rewritten and comes out shorter: `="{{` and `}}"` become `]="` and `"`. */
  lemma RewriteChanges(text: String, i: nat, k: nat, a: nat, p: nat, c: nat)
    requires IsAssignment(text, i, k, a, p, c)
    ensures |Rewrite(text)| < |text|
  {
    FindAssignmentIsFirst(text, i, k, a, p, c);
  }

  /** The characters of `name="{{` + `w1` + `e` + `w2` + `}}"`, region by region. */
  lemma AssignmentLayout(name: String, w1: String, e: String, w2: String)
    ensures var s := name + AssignmentOpen + w1 + e + w2 + QuotedClose;
            var k := |name|;
            var x := k + 4 + |w1|;
            var y := x + |e|;
            var c := y + |w2|;
            && |s| == c + 3
            && s[..k] == name
            && s[k..k + 4] == AssignmentOpen
            && (forall m :: k + 4 <= m < x ==> s[m] == w1[m - k - 4])
            && (forall m :: x <= m < y ==> s[m] == e[m - x])
            && (forall m :: y <= m < c ==> s[m] == w2[m - y])
            && s[c..] == QuotedClose
  {
  }

  /** No `="{{` starts after the name: the text after it holds no `{`. */
  lemma NoLaterTail(s: String, k: nat, t: nat)
    requires k < t <= |s| && OccursAt(s, k, AssignmentOpen)
    requires forall m :: k + 4 <= m < |s| ==> s[m] != '{'
    ensures !OccursAt(s, t, AssignmentOpen)
  {
    if t + 4 <= |s| {
      if t == k + 1 {
        assert s[t] == s[k..k + 4][1];
        assert s[t..t + 4][0] != AssignmentOpen[0];
      } else {
        assert s[t..t + 4][2] != AssignmentOpen[2];
      }
    }
  }

  /**
   * A text whose name `0..k` is on one line, with `="{{` at `k`, a body
   * `x..y` closed by `}}"` at `c`, and no `{` after the opening: the match
   * starts at 0 and the name ends at `k`.
   */
  lemma ShapeFound(s: String, k: nat, x: nat, y: nat, c: nat)
    requires OccursAt(s, k, AssignmentOpen) && k + 4 <= x < y <= c && OccursAt(s, c, QuotedClose)
    requires forall m :: 0 <= m < k ==> !IsLineTerminator(s[m])
    requires forall m :: k + 4 <= m < x ==> IsWhitespace(s[m])
    requires !IsWhitespace(s[x]) && !IsWhitespace(s[y - 1])
    requires forall m :: x <= m < y ==> !IsLineTerminator(s[m]) && s[m] != '}'
    requires forall m :: y <= m < c ==> IsWhitespace(s[m])
    requires forall m :: k + 4 <= m < |s| ==> s[m] != '{'
    ensures FindAssignment(s) == Some(Assignment(0, k))
    ensures AssignmentBody(s, Assignment(0, k)) == Inner(x, y, c)
  {
    InnerAt(s, k + 4, x, y, c, QuotedClose);
    assert Tails(s)[k];
    LastTailOnLine(s, k, NextLineTerminator(s, 0));
  }

  /** With no `{` after the opening at `k`, `k` is the last end of a name on the line. */
  lemma LastTailOnLine(s: String, k: nat, l: nat)
    requires k <= l <= |s| && OccursAt(s, k, AssignmentOpen) && Tails(s)[k]
    requires forall m :: k + 4 <= m < |s| ==> s[m] != '{'
    ensures LastTrue(Tails(s), 0, l) == Some(k)
  {
    var tails := Tails(s);
    forall t | k < t <= l
      ensures !tails[t]
    {
      NoLaterTail(s, k, t);
    }
  }

  /** The positions of `name="{{` + `w1` + `e` + `w2` + `}}"` meet the conditions of `ShapeFound`. */
  lemma ShapeLayout(s: String, name: String, w1: String, e: String, w2: String)
    requires s == name + AssignmentOpen + w1 + e + w2 + QuotedClose
    requires forall m :: 0 <= m < |name| ==> !IsLineTerminator(name[m])
    requires IsBlank(w1) && IsBlank(w2)
    requires |e| > 0 && !IsWhitespace(e[0]) && !IsWhitespace(e[|e| - 1])
    requires forall m :: 0 <= m < |e| ==> !IsLineTerminator(e[m]) && e[m] != '}' && e[m] != '{'
    ensures var k := |name|;
            var x := k + 4 + |w1|;
            var y := x + |e|;
            var c := y + |w2|;
            && OccursAt(s, k, AssignmentOpen) && OccursAt(s, c, QuotedClose) && |s| == c + 3
            && (forall m :: 0 <= m < k ==> !IsLineTerminator(s[m]))
            && (forall m :: k + 4 <= m < x ==> IsWhitespace(s[m]))
            && !IsWhitespace(s[x]) && !IsWhitespace(s[y - 1])
            && (forall m :: x <= m < y ==> !IsLineTerminator(s[m]) && s[m] != '}')
            && (forall m :: y <= m < c ==> IsWhitespace(s[m]))
            && (forall m :: k + 4 <= m < |s| ==> s[m] != '{')
            && s[0..k] == name && s[x..y] == e
  {
    AssignmentLayout(name, w1, e, w2);
    var c := |name| + 4 + |w1| + |e| + |w2|;
    assert s[c] == '}' && s[c + 1] == '}' && s[c + 2] == '"';
  }

  /**
   * `name="{{ expr }}"` is rewritten to `[name]="expr"`: white space around
   * the expression is dropped and the name is kept as written.
   */
  lemma RewriteShape(name: String, w1: String, e: String, w2: String)
    requires forall m :: 0 <= m < |name| ==> !IsLineTerminator(name[m])
    requires IsBlank(w1) && IsBlank(w2)
    requires |e| > 0 && !IsWhitespace(e[0]) && !IsWhitespace(e[|e| - 1])
    requires forall m :: 0 <= m < |e| ==> !IsLineTerminator(e[m]) && e[m] != '}' && e[m] != '{'
    ensures Rewrite(name + AssignmentOpen + w1 + e + w2 + QuotedClose) == "[" + name + "]=\"" + e + "\""
  {
    var s := name + AssignmentOpen + w1 + e + w2 + QuotedClose;
    var k := |name|;
    var x := k + 4 + |w1|;
    var y := x + |e|;
    var c := y + |w2|;
    ShapeLayout(s, name, w1, e, w2);
    RewriteAt(s, k, x, y, c, name, e);
  }

  /** The rewrite of a text laid out as in `ShapeFound`, from its positions alone. */
  lemma RewriteAt(s: String, k: nat, x: nat, y: nat, c: nat, name: String, e: String)
    requires OccursAt(s, k, AssignmentOpen) && k + 4 <= x < y <= c && OccursAt(s, c, QuotedClose) && |s| == c + 3
    requires forall m :: 0 <= m < k ==> !IsLineTerminator(s[m])
    requires forall m :: k + 4 <= m < x ==> IsWhitespace(s[m])
    requires !IsWhitespace(s[x]) && !IsWhitespace(s[y - 1])
    requires forall m :: x <= m < y ==> !IsLineTerminator(s[m]) && s[m] != '}'
    requires forall m :: y <= m < c ==> IsWhitespace(s[m])
    requires forall m :: k + 4 <= m < |s| ==> s[m] != '{'
    requires s[0..k] == name && s[x..y] == e
    ensures Rewrite(s) == "[" + name + "]=\"" + e + "\""
  {
    ShapeFound(s, k, x, y, c);
    RewriteWhole(s, k, Inner(x, y, c), name, e);
  }

  /** A match covering the whole text leaves only `[name]="expr"`. */
  lemma RewriteWhole(s: String, k: nat, m: Inner, name: String, e: String)
    requires k <= m.exprStart <= m.exprEnd <= m.closeAt && m.closeAt + 3 == |s|
    requires s[0..k] == name && s[m.exprStart..m.exprEnd] == e
    ensures ReplaceMatch(s, Assignment(0, k), m) == "[" + name + "]=\"" + e + "\""
  {
    assert s[..0] == [] && s[m.closeAt + 3..] == [];
  }

  // ---------------------------------------------------------------------
  // The rule: bound element properties whose value is one interpolation.
  // ---------------------------------------------------------------------

  /** What the template parser produced for a bound value: only interpolations matter. */
  datatype ValueAst = InterpolationAst | OtherAst

  /** A bound value: parsed with its source text (`ASTWithSource`) or some other node. */
  datatype BoundValue = WithSource(ast: ValueAst, source: String) | WithoutSource

  /**
   * A bound element property: its span inside the template, the span's text,
   * the span's start in the whole file (the template may be inline) and its value.
   */
  datatype BoundProperty = BoundProperty(start: nat, end: nat, absoluteStart: nat, text: String, value: BoundValue)

  /** A fix replacing `length` characters at `start` with `text`. */
  datatype Replacement = Replacement(start: nat, length: nat, text: String)

  /** A failure from `start` to `end` of the template, with its fix. */
  datatype Failure = Failure(start: nat, end: nat, fix: Replacement)

  /** The property is an interpolation with a non-empty source. */
  predicate IsInterpolated(prop: BoundProperty) {
    prop.value.WithSource? && prop.value.ast.InterpolationAst? && prop.value.source != ""
  }

  /**
   * The failure for one property: interpolations holding at most one
   * `{{ … }}` match are reported, and the fix rewrites the span's text.
   */
  function PropertyFailure(prop: BoundProperty): (r: Option<Failure>)
    ensures r.Some? <==> IsInterpolated(prop) && |Interpolations(prop.value.source)| <= 1
    ensures r.Some? ==> r.value.start == prop.start && r.value.end == prop.end
    ensures r.Some? ==> r.value.fix.start == prop.absoluteStart
    ensures r.Some? && prop.start <= prop.end ==> r.value.fix.start + r.value.fix.length == prop.absoluteStart + (prop.end - prop.start)
    ensures r.Some? ==> r.value.fix.text == Rewrite(prop.text)
  {
    if !IsInterpolated(prop) || |Interpolations(prop.value.source)| > 1 then None
    else
      var length := if prop.start <= prop.end then prop.end - prop.start else 0;
      Some(Failure(prop.start, prop.end, Replacement(prop.absoluteStart, length, Rewrite(prop.text))))
  }

  /** The failures of the visited properties, in visiting order. */
  function PropertyFailures(props: seq<BoundProperty>): (r: seq<Failure>)
    ensures |r| <= |props|
    ensures forall f :: f in r ==> exists i :: 0 <= i < |props| && PropertyFailure(props[i]) == Some(f)
    ensures forall i :: 0 <= i < |props| && PropertyFailure(props[i]).Some? ==> PropertyFailure(props[i]).value in r
  {
    if |props| == 0 then []
    else
      var rest := PropertyFailures(props[1..]);
      assert forall i :: 1 <= i < |props| ==> props[1..][i - 1] == props[i];
      match PropertyFailure(props[0])
      case Some(f) => [f] + rest
      case None => rest
  }

  /** A single property gives its own failure, if any. */
  lemma PropertyFailuresOne(prop: BoundProperty)
    ensures PropertyFailures([prop]) == if PropertyFailure(prop).Some? then [PropertyFailure(prop).value] else []
  {
  }

  /**
   * Visiting two runs of properties reports the failures of the first run,
   * then those of the second: with `PropertyFailuresOne`, one failure per
   * reported property, in visiting order.
   */
  lemma {:induction false} PropertyFailuresAppend(a: seq<BoundProperty>, b: seq<BoundProperty>)
    ensures PropertyFailures(a + b) == PropertyFailures(a) + PropertyFailures(b)
    decreases |a|
  {
    if |a| == 0 {
      assert a + b == b;
    } else {
      assert (a + b)[0] == a[0] && (a + b)[1..] == a[1..] + b;
      PropertyFailuresAppend(a[1..], b);
    }
  }

  /** Properties bound with `[name]="expr"` carry no interpolation and are never reported. */
  lemma PlainBindingNotReported(prop: BoundProperty)
    requires prop.value.WithSource? && prop.value.ast.OtherAst?
    ensures PropertyFailure(prop).None?
  {
  }

  /** A single interpolation is reported, whatever white space surrounds the expression. */
  lemma SingleInterpolationReported(prop: BoundProperty, w1: String, e: String, w2: String)
    requires prop.value == WithSource(InterpolationAst, InterpolationOpen + w1 + e + w2 + InterpolationClose)
    requires IsBlank(w1) && IsBlank(w2)
    requires |e| > 0 && !IsWhitespace(e[0]) && !IsWhitespace(e[|e| - 1])
    requires forall m :: 0 <= m < |e| ==> !IsLineTerminator(e[m]) && e[m] != '}'
    ensures PropertyFailure(prop).Some?
  {
    SingleInterpolationCount(w1, e, w2);
  }

  /** A word fit to stand alone between `{{` and `}}`: no white space, line break or `}`. */
  predicate IsPlainWord(e: String) {
    |e| > 0 && forall m :: 0 <= m < |e| ==> !IsWhitespace(e[m]) && e[m] != '}'
  }

  /** `{{e}}` at `i` for a plain word `e` is an interpolation of length `|e| + 4`. */
  lemma PlainInterpolationAt(s: String, i: nat, e: String)
    requires IsPlainWord(e) && i + |e| + 4 <= |s|
    requires s[i..i + 2] == InterpolationOpen && s[i + 2..i + 2 + |e|] == e
    requires s[i + 2 + |e|..i + 4 + |e|] == InterpolationClose
    ensures InterpolationLength(s, i) == |e| + 4
  {
    var y := i + 2 + |e|;
    assert forall m :: i + 2 <= m < y ==> s[m] == e[m - i - 2];
    forall m | i + 2 <= m < y
      ensures !IsLineTerminator(s[m])
    {
      LineTerminatorIsWhitespace(s[m]);
    }
    InterpolationAt(s, i, i + 2, y, y);
  }

  /** `{{a}}{{b}}` holds two interpolations. */
  lemma AdjacentPairCount(s: String, e1: String, e2: String)
    requires IsPlainWord(e1) && IsPlainWord(e2)
    requires s == InterpolationOpen + e1 + InterpolationClose + InterpolationOpen + e2 + InterpolationClose
    ensures |Interpolations(s)| >= 2
  {
    var n := |e1| + 4;
    assert s[..2] == InterpolationOpen && s[2..2 + |e1|] == e1 && s[2 + |e1|..n] == InterpolationClose;
    assert s[n..n + 2] == InterpolationOpen && s[n + 2..n + 2 + |e2|] == e2;
    assert s[n + 2 + |e2|..n + 4 + |e2|] == InterpolationClose;
    PlainInterpolationAt(s, 0, e1);
    PlainInterpolationAt(s, n, e2);
    AdjacentInterpolationsCount(s, n);
  }

  /** `{{basePath}}{{endpoint}}` holds two interpolations. */
  lemma TwoInterpolationsCount(source: String, e1: String, e2: String)
    requires e1 == "basePath" && e2 == "endpoint"
    requires source == "{{" + e1 + "}}{{" + e2 + "}}"
    ensures |Interpolations(source)| >= 2
  {
    AdjacentPairCount(source, e1, e2);
  }

  /** `src="{{basePath}}{{endpoint}}"`: two interpolations, so nothing is reported. */
  lemma TwoInterpolationsNotReported(prop: BoundProperty, e1: String, e2: String)
    requires e1 == "basePath" && e2 == "endpoint"
    requires prop.value == WithSource(InterpolationAst, "{{" + e1 + "}}{{" + e2 + "}}")
    ensures PropertyFailure(prop).None?
  {
    TwoInterpolationsCount(prop.value.source, e1, e2);
  }

  /** `src="{{            url}}"` becomes `[src]="url"`. */
  lemma RewriteSrc(name: String, pad: String, e: String)
    requires name == "src" && pad == "            " && e == "url"
    ensures Rewrite(name + AssignmentOpen + pad + e + "" + QuotedClose) == "[" + name + "]=\"" + e + "\""
  {
    RewriteShape(name, pad, e, "");
  }

  /** `attr.for="{{inputId            }}"` becomes `[attr.for]="inputId"`. */
  lemma RewriteAttrFor(name: String, pad: String, e: String)
    requires name == "attr.for" && pad == "            " && e == "inputId"
    ensures Rewrite(name + AssignmentOpen + "" + e + pad + QuotedClose) == "[" + name + "]=\"" + e + "\""
  {
    RewriteShape(name, "", e, pad);
  }

  /** A static value keeps its quotes: `value="{{ 'defaultValue' }}"` becomes `[value]="'defaultValue'"`. */
  lemma RewriteStaticValue(name: String, pad: String, e: String)
    requires name == "value" && pad == "            " && e == "'defaultValue'"
    ensures Rewrite(name + AssignmentOpen + pad + e + pad + QuotedClose) == "[" + name + "]=\"" + e + "\""
  {
    RewriteShape(name, pad, e, pad);
  }

  /** A style binding with a unit keeps its dotted name: `[style.font-size.em]="fontSize"`. */
  lemma RewriteStyleUnit(name: String, pad: String, e: String)
    requires name == "style.font-size.em" && pad == " " && e == "fontSize"
    ensures Rewrite(name + AssignmentOpen + pad + e + pad + QuotedClose) == "[" + name + "]=\"" + e + "\""
  {
    RewriteShape(name, pad, e, pad);
  }
}

=== FILE: readable_list.dfy ===
/**
 * The human-readable list used in failure messages: `"a", "b" or "c"`.
 */
module ReadableList {
  import opened Strings

  function Quote(s: String): String {
    "\"" + s + "\""
  }

  function QuoteAll(items: seq<String>): (r: seq<String>)
    ensures |r| == |items|
    ensures forall i :: 0 <= i < |items| ==> r[i] == Quote(items[i])
  {
    if |items| == 0 then [] else [Quote(items[0])] + QuoteAll(items[1..])
  }

  /** What the last item prints as when the list is empty: the text of `undefined`. */
  const Undefined: String := "undefined"

  /**
   * One item is returned quoted; otherwise all but the last item are quoted
   * and joined by ", ", and the quoted last item follows the connector. An
   * empty list has no last item, which prints as `undefined`.
   */
  function GetReadableList(items: seq<String>, connector: String): (r: String)
    ensures |items| > 0 ==> StartsWith(r, Quote(items[0]))
    ensures |items| > 0 ==> EndsWith(r, Quote(items[|items| - 1]))
    ensures |items| == 0 ==> EndsWith(r, connector + " " + Quote(Undefined))
  {
    if |items| == 1 then Quote(items[0])
    else if |items| == 0 then " " + connector + " " + Quote(Undefined)
    else CommaList(items, connector)
  }

  /** Two or more items: the quoted items but the last, comma-joined, then the connector and the last. */
  function CommaList(items: seq<String>, connector: String): (r: String)
    requires |items| >= 2
    ensures StartsWith(r, Quote(items[0]))
    ensures EndsWith(r, Quote(items[|items| - 1]))
  {
    var init := QuoteAll(items[..|items| - 1]);
    JoinStartsWithFirst(init, ", ");
    Join(init, ", ") + " " + connector + " " + Quote(items[|items| - 1])
  }

  lemma JoinStartsWithFirst(items: seq<String>, sep: String)
    requires |items| > 0
    ensures StartsWith(Join(items, sep), items[0])
  {
  }

  /**
   * An independent, item-by-item description of the same text: each item
   * but the last two is followed by ", ", and the last two are separated by
   * the connector.
   */
  function Listing(items: seq<String>, connector: String): String
    requires |items| > 0
  {
    if |items| == 1 then Quote(items[0])
    else if |items| == 2 then Quote(items[0]) + " " + connector + " " + Quote(items[1])
    else Quote(items[0]) + ", " + Listing(items[1..], connector)
  }

  /** The joined form the source builds agrees with the item-by-item listing. */
  lemma {:induction false} GetReadableListIsListing(items: seq<String>, connector: String)
    requires |items| > 0
    ensures GetReadableList(items, connector) == Listing(items, connector)
    decreases |items|
  {
    if |items| > 2 {
      GetReadableListIsListing(items[1..], connector);
      ListingStep(items, connector);
    } else if |items| == 2 {
      assert QuoteAll(items[..1]) == [Quote(items[0])];
    }
  }

  /** The inductive step: the listing of the tail extends to the whole list. */
  lemma ListingStep(items: seq<String>, connector: String)
    requires |items| > 2
    requires GetReadableList(items[1..], connector) == Listing(items[1..], connector)
    ensures GetReadableList(items, connector) == Listing(items, connector)
  {
    ReadableListStep(items, connector);
  }

  /** Past two items, the text is the first quoted item, a comma, and the text for the rest. */
  lemma ReadableListStep(items: seq<String>, connector: String)
    requires |items| > 2
    ensures GetReadableList(items, connector) == Quote(items[0]) + ", " + GetReadableList(items[1..], connector)
  {
    CommaListStep(items, connector);
  }

  lemma CommaListStep(items: seq<String>, connector: String)
    requires |items| > 2
    ensures CommaList(items, connector) == Quote(items[0]) + ", " + CommaList(items[1..], connector)
  {
    var n := |items|;
    var tail := items[1..];
    InitSplit(items);
    assert tail[|tail| - 1] == items[n - 1];
    var head := Quote(items[0]) + ", ";
    var joined := Join(QuoteAll(tail[..|tail| - 1]), ", ");
    var after := " " + connector + " " + Quote(items[n - 1]);
    assert CommaList(tail, connector) == joined + after;
    AppendAssoc(head, joined, after);
  }

  lemma AppendAssoc(a: String, b: String, c: String)
    ensures (a + b) + c == a + (b + c)
  {
  }

  /** Joining all but the last quoted item peels off the first item. */
  lemma InitSplit(items: seq<String>)
    requires |items| > 2
    ensures Join(QuoteAll(items[..|items| - 1]), ", ")
         == Quote(items[0]) + ", " + Join(QuoteAll(items[1..][..|items| - 2]), ", ")
  {
    var rest := items[1..][..|items| - 2];
    assert items[..|items| - 1] == [items[0]] + rest;
    QuoteAllCons(items[0], rest);
    JoinCons(Quote(items[0]), QuoteAll(rest), ", ");
  }

  lemma QuoteAllCons(x: String, rest: seq<String>)
    ensures QuoteAll([x] + rest) == [Quote(x)] + QuoteAll(rest)
  {
    assert ([x] + rest)[1..] == rest;
  }

  lemma JoinCons(x: String, rest: seq<String>, sep: String)
    requires |rest| > 0
    ensures Join([x] + rest, sep) == x + sep + Join(rest, sep)
  {
    assert ([x] + rest)[1..] == rest;
  }

  /** Two items are separated by the connector alone, without a comma. */
  lemma TwoItems(a: String, b: String, connector: String)
    ensures GetReadableList([a, b], connector) == "\"" + a + "\" " + connector + " \"" + b + "\""
  {
    assert QuoteAll([a, b][..1]) == [Quote(a)];
  }

  /** Three items: the first two are comma-separated, the last follows the connector. */
  lemma ThreeItems(a: String, b: String, c: String, connector: String)
    ensures GetReadableList([a, b, c], connector)
         == "\"" + a + "\", \"" + b + "\" " + connector + " \"" + c + "\""
  {
    GetReadableListIsListing([a, b, c], connector);
    assert [a, b, c][1..] == [b, c];
  }

  /** Counts the occurrences of `c` in `s`. */
  function CountChar(s: String, c: char): nat {
    if |s| == 0 then 0 else (if s[0] == c then 1 else 0) + CountChar(s[1..], c)
  }

  lemma CountCharAppend(a: String, b: String, c: char)
    ensures CountChar(a + b, c) == CountChar(a, c) + CountChar(b, c)
  {
    if |a| > 0 {
      assert (a + b)[1..] == a[1..] + b;
      CountCharAppend(a[1..], b, c);
    } else {
      assert a + b == b;
    }
  }

  /**
   * When neither the items nor the connector contain a double quote, the
   * text holds exactly two quotes per item: each item appears quoted once.
   */
  lemma {:induction false} QuotesPerItem(items: seq<String>, connector: String)
    requires |items| > 0
    requires forall i :: 0 <= i < |items| ==> CountChar(items[i], '"') == 0
    requires CountChar(connector, '"') == 0
    ensures CountChar(GetReadableList(items, connector), '"') == 2 * |items|
    decreases |items|
  {
    GetReadableListIsListing(items, connector);
    QuotesInListing(items, connector);
  }

  lemma {:induction false} QuotesInListing(items: seq<String>, connector: String)
    requires |items| > 0
    requires forall i :: 0 <= i < |items| ==> CountChar(items[i], '"') == 0
    requires CountChar(connector, '"') == 0
    ensures CountChar(Listing(items, connector), '"') == 2 * |items|
    decreases |items|
  {
    var q := '"';
    CountCharAppend("\"" + items[0], "\"", q);
    CountCharAppend("\"", items[0], q);
    assert CountChar(Quote(items[0]), q) == 2;
    if |items| == 2 {
      CountCharAppend("\"", items[1], q);
      CountCharAppend("\"" + items[1], "\"", q);
      assert CountChar(Quote(items[1]), q) == 2;
      var mid := " " + connector + " ";
      CountCharAppend(" ", connector, q);
      CountCharAppend(" " + connector, " ", q);
      assert CountChar(mid, q) == 0;
      CountCharAppend(Quote(items[0]), mid, q);
      CountCharAppend(Quote(items[0]) + mid, Quote(items[1]), q);
      assert Listing(items, connector) == (Quote(items[0]) + mid) + Quote(items[1]);
    } else if |items| > 2 {
      QuotesInListing(items[1..], connector);
      CountCharAppend(Quote(items[0]), ", ", q);
      CountCharAppend(Quote(items[0]) + ", ", Listing(items[1..], connector), q);
    }
  }
}

=== FILE: regex.dfy ===
/**
 * A fragment of ECMAScript regular expressions and what its patterns mean:
 * which stretches of a text a pattern matches, and when `RegExp.test`
 * succeeds. The rules' hand-written string tests are checked against the
 * patterns written in it.
 */
module Regex {
  import opened Strings

  datatype Re =
    | Empty                                    // the empty pattern
    | Char(c: char)                            // one literal character
    | Start                                    // `^`
    | End                                      // `$`
    | Range(negated: bool, lo: char, hi: char) // `[lo-hi]`, or `[^lo-hi]` when negated
    | Ahead(negated: bool, body: Re)           // `(?=body)`, or `(?!body)` when negated
    | Cat(left: Re, right: Re)                 // `left` followed by `right`
    | Alt(left: Re, right: Re)                 // `left|right`

  /** `re` matches the characters of `s` from index `i` up to index `j`. */
  predicate Matches(re: Re, s: String, i: nat, j: nat)
    requires i <= j <= |s|
    decreases re
  {
    match re
    case Empty => i == j
    case Char(c) => j == i + 1 && s[i] == c
    case Start => i == 0 && j == 0
    case End => i == |s| && j == |s|
    case Range(negated, lo, hi) => j == i + 1 && (lo <= s[i] <= hi) != negated
    case Ahead(negated, body) =>
      i == j && (exists k: nat :: i <= k <= |s| && Matches(body, s, i, k)) != negated
    case Cat(left, right) =>
      exists k: nat :: i <= k <= j && Matches(left, s, i, k) && Matches(right, s, k, j)
    case Alt(left, right) => Matches(left, s, i, j) || Matches(right, s, i, j)
  }

  /** `RegExp.prototype.test`: the pattern matches somewhere in `s`. */
  predicate Test(re: Re, s: String) {
    exists i: nat, j: nat :: i <= j <= |s| && Matches(re, s, i, j)
  }

  /** The pattern whose characters all stand for themselves. */
  function Literal(w: String): Re
    decreases |w|
  {
    if |w| == 0 then Empty else Cat(Char(w[0]), Literal(w[1..]))
  }

  /** A match of a concatenation splits where the left part ends. */
  lemma CatSplit(l: Re, r: Re, s: String, i: nat, j: nat) returns (k: nat)
    requires i <= j <= |s| && Matches(Cat(l, r), s, i, j)
    ensures i <= k <= j && Matches(l, s, i, k) && Matches(r, s, k, j)
  {
    k :| i <= k <= j && Matches(l, s, i, k) && Matches(r, s, k, j);
  }

  /** Adjacent matches of the two parts are a match of their concatenation. */
  lemma CatJoin(l: Re, r: Re, s: String, i: nat, k: nat, j: nat)
    requires i <= k <= j <= |s| && Matches(l, s, i, k) && Matches(r, s, k, j)
    ensures Matches(Cat(l, r), s, i, j)
  {
  }

  /** Where a successful test matches. */
  lemma TestWitness(re: Re, s: String) returns (i: nat, j: nat)
    requires Test(re, s)
    ensures i <= j <= |s| && Matches(re, s, i, j)
  {
    i, j :| i <= j <= |s| && Matches(re, s, i, j);
  }

  /** A literal matches exactly its own occurrences. */
  lemma {:induction false} LiteralMatches(w: String, s: String, i: nat, j: nat)
    requires i <= j <= |s|
    ensures Matches(Literal(w), s, i, j) <==> j == i + |w| && OccursAt(s, i, w)
    decreases |w|
  {
    if |w| > 0 {
      var first, rest := Char(w[0]), Literal(w[1..]);
      assert Literal(w) == Cat(first, rest);
      if Matches(Cat(first, rest), s, i, j) {
        var k := CatSplit(first, rest, s, i, j);
        LiteralMatches(w[1..], s, k, j);
        assert s[i..j] == [s[i]] + s[k..j];
      }
      if j == i + |w| && OccursAt(s, i, w) {
        assert s[i] == s[i..j][0] == w[0];
        assert s[i + 1..j] == s[i..j][1..];
        LiteralMatches(w[1..], s, i + 1, j);
        CatJoin(first, rest, s, i, i + 1, j);
      }
    }
  }

  /** A pattern behind `^` can only match from the start of the text. */
  lemma Anchored(r: Re, s: String)
    ensures Test(Cat(Start, r), s) <==> exists j: nat :: j <= |s| && Matches(r, s, 0, j)
  {
    if Test(Cat(Start, r), s) {
      var i, j := TestWitness(Cat(Start, r), s);
      var k := CatSplit(Start, r, s, i, j);
      assert Matches(r, s, 0, j);
    }
    if exists j: nat :: j <= |s| && Matches(r, s, 0, j) {
      var j: nat :| j <= |s| && Matches(r, s, 0, j);
      CatJoin(Start, r, s, 0, 0, j);
    }
  }

  /** A second `^` right after the first adds nothing. */
  lemma StartTwice(r: Re, s: String, j: nat)
    requires j <= |s|
    ensures Matches(Cat(Start, r), s, 0, j) <==> Matches(r, s, 0, j)
  {
    if Matches(Cat(Start, r), s, 0, j) {
      var k := CatSplit(Start, r, s, 0, j);
    }
    if Matches(r, s, 0, j) {
      CatJoin(Start, r, s, 0, 0, j);
    }
  }

  /** A match of either branch is a match of the alternation. */
  lemma AltIntro(a: Re, b: Re, s: String, i: nat, j: nat)
    requires i <= j <= |s| && (Matches(a, s, i, j) || Matches(b, s, i, j))
    ensures Matches(Alt(a, b), s, i, j)
  {
  }

  /** A match of an alternation is a match of one of its branches. */
  lemma AltElim(a: Re, b: Re, s: String, i: nat, j: nat)
    requires i <= j <= |s| && Matches(Alt(a, b), s, i, j)
    ensures Matches(a, s, i, j) || Matches(b, s, i, j)
  {
  }

  /** A match anywhere makes the test succeed. */
  lemma TestIntro(re: Re, s: String, i: nat, j: nat)
    requires i <= j <= |s| && Matches(re, s, i, j)
    ensures Test(re, s)
  {
  }

  /** An alternation succeeds exactly when one of its branches does. */
  lemma TestAlt(a: Re, b: Re, s: String)
    ensures Test(Alt(a, b), s) <==> Test(a, s) || Test(b, s)
  {
    if Test(a, s) || Test(b, s) {
      var i, j := TestWitness(if Test(a, s) then a else b, s);
      AltIntro(a, b, s, i, j);
      TestIntro(Alt(a, b), s, i, j);
    }
    if Test(Alt(a, b), s) {
      var i, j := TestWitness(Alt(a, b), s);
      AltElim(a, b, s, i, j);
      if Matches(a, s, i, j) {
        TestIntro(a, s, i, j);
      } else {
        TestIntro(b, s, i, j);
      }
    }
  }

  /** An unanchored literal succeeds exactly when it occurs in the text. */
  lemma TestLiteral(w: String, s: String)
    ensures Test(Literal(w), s) <==> exists p: nat :: OccursAt(s, p, w)
  {
    if Test(Literal(w), s) {
      var i, j := TestWitness(Literal(w), s);
      LiteralMatches(w, s, i, j);
    }
    if exists p: nat :: OccursAt(s, p, w) {
      var p: nat :| OccursAt(s, p, w);
      LiteralMatches(w, s, p, p + |w|);
    }
  }

  /** `^` followed by a literal succeeds exactly when the text starts with it. */
  lemma TestAnchoredLiteral(w: String, s: String)
    ensures Test(Cat(Start, Literal(w)), s) <==> StartsWith(s, w)
  {
    Anchored(Literal(w), s);
    if StartsWith(s, w) {
      LiteralMatches(w, s, 0, |w|);
    }
    if exists j: nat :: j <= |s| && Matches(Literal(w), s, 0, j) {
      var j: nat :| j <= |s| && Matches(Literal(w), s, 0, j);
      LiteralMatches(w, s, 0, j);
    }
  }

  /** A literal followed by more: the literal's occurrence, then the rest from its end. */
  lemma LiteralThen(w: String, r: Re, s: String, i: nat, j: nat)
    requires i <= j <= |s|
    ensures Matches(Cat(Literal(w), r), s, i, j) <==>
              OccursAt(s, i, w) && i + |w| <= j && Matches(r, s, i + |w|, j)
  {
    if Matches(Cat(Literal(w), r), s, i, j) {
      var k := CatSplit(Literal(w), r, s, i, j);
      LiteralMatches(w, s, i, k);
    }
    if OccursAt(s, i, w) && i + |w| <= j && Matches(r, s, i + |w|, j) {
      LiteralMatches(w, s, i, i + |w|);
      CatJoin(Literal(w), r, s, i, i + |w|, j);
    }
  }

  /** A match of `(a|b)r` is a match of `ar` or of `br`. */
  lemma CatAltElim(a: Re, b: Re, r: Re, s: String, i: nat, j: nat)
    requires i <= j <= |s| && Matches(Cat(Alt(a, b), r), s, i, j)
    ensures Matches(Cat(a, r), s, i, j) || Matches(Cat(b, r), s, i, j)
  {
    var k := CatSplit(Alt(a, b), r, s, i, j);
    AltElim(a, b, s, i, k);
    if Matches(a, s, i, k) {
      CatJoin(a, r, s, i, k, j);
    } else {
      CatJoin(b, r, s, i, k, j);
    }
  }

  /** A match of `ar` or of `br` is a match of `(a|b)r`. */
  lemma CatAltIntro(a: Re, b: Re, r: Re, s: String, i: nat, j: nat)
    requires i <= j <= |s| && (Matches(Cat(a, r), s, i, j) || Matches(Cat(b, r), s, i, j))
    ensures Matches(Cat(Alt(a, b), r), s, i, j)
  {
    var k := CatSplit(if Matches(Cat(a, r), s, i, j) then a else b, r, s, i, j);
    AltIntro(a, b, s, i, k);
    CatJoin(Alt(a, b), r, s, i, k, j);
  }

  /** Concatenation distributes over an alternation on its left. */
  lemma CatAlt(a: Re, b: Re, r: Re, s: String, i: nat, j: nat)
    requires i <= j <= |s|
    ensures Matches(Cat(Alt(a, b), r), s, i, j) <==> Matches(Cat(a, r), s, i, j) || Matches(Cat(b, r), s, i, j)
  {
    if Matches(Cat(Alt(a, b), r), s, i, j) {
      CatAltElim(a, b, r, s, i, j);
    }
    if Matches(Cat(a, r), s, i, j) || Matches(Cat(b, r), s, i, j) {
      CatAltIntro(a, b, r, s, i, j);
    }
  }
}

=== FILE: relative_url.dfy ===
/**
 * The relative-url-prefix rule: a component's `styleUrls` entries and its
 * `templateUrl` must start with `./`.
 */
module RelativeUrlPrefix {
  import opened Strings
  import opened Regex

  /** A position in the source file, used to name the node a failure points at. */
  datatype Span = Span(start: int, end: int)

  /** The initializer expressions the rule inspects in a decorator property. */
  datatype Expression =
    | StringLiteral(span: Span, text: String)
    | ArrayLiteral(span: Span, elements: seq<Expression>)
    | OtherExpression(span: Span)

  /**
   * `/^\.\/[^\.\/|\.\.\/]/`: `./` followed by a character that is none of
   * `.`, `/` and `|` (the bracket is a character class, not an alternation).
   */
  predicate IsRelativeUrl(url: String) {
    |url| >= 3 && url[0] == '.' && url[1] == '/' && url[2] != '.' && url[2] != '/' && url[2] != '|'
  }

  /**
   * The class `[^\.\/|\.\.\/]`, which excludes the three characters `.`,
   * `/` and `|`, written as `(?!\/)(?!\|)[^.]`.
   */
  const NotDotSlashBar: Re := Cat(Ahead(true, Char('/')), Cat(Ahead(true, Char('|')), Range(true, '.', '.')))

  /** The rule's `PATTERN` as a regular-expression tree. */
  const Pattern: Re := Cat(Start, Cat(Literal("./"), NotDotSlashBar))

  /** The class matches exactly one character other than `.`, `/` and `|`. */
  lemma NotDotSlashBarMatches(s: String, i: nat, j: nat)
    requires i <= j <= |s|
    ensures Matches(NotDotSlashBar, s, i, j) <==> j == i + 1 && s[i] != '.' && s[i] != '/' && s[i] != '|'
  {
    var notSlash, notBar, notDot := Ahead(true, Char('/')), Ahead(true, Char('|')), Range(true, '.', '.');
    if Matches(NotDotSlashBar, s, i, j) {
      var k := CatSplit(notSlash, Cat(notBar, notDot), s, i, j);
      var m := CatSplit(notBar, notDot, s, k, j);
      assert k == i && m == i;
      if i < |s| {
        assert !Matches(Char('/'), s, i, i + 1);
        assert !Matches(Char('|'), s, i, i + 1);
      }
    }
    if j == i + 1 && s[i] != '.' && s[i] != '/' && s[i] != '|' {
      forall k: nat | i <= k <= |s|
        ensures !Matches(Char('/'), s, i, k) && !Matches(Char('|'), s, i, k)
      {
      }
      CatJoin(notBar, notDot, s, i, i, j);
      CatJoin(notSlash, Cat(notBar, notDot), s, i, i, j);
    }
  }

  /** The hand-written test agrees with `PATTERN.test(url)` for every URL. */
  lemma RelativeUrlIsRegex(url: String)
    ensures IsRelativeUrl(url) <==> Test(Pattern, url)
  {
    var rest := Cat(Literal("./"), NotDotSlashBar);
    Anchored(rest, url);
    if IsRelativeUrl(url) {
      assert OccursAt(url, 0, "./") by {
        assert url[0..2] == [url[0], url[1]];
      }
      NotDotSlashBarMatches(url, 2, 3);
      LiteralThen("./", NotDotSlashBar, url, 0, 3);
    }
    if Test(Pattern, url) {
      var j: nat :| j <= |url| && Matches(rest, url, 0, j);
      LiteralThen("./", NotDotSlashBar, url, 0, j);
      NotDotSlashBarMatches(url, 2, j);
      assert url[0] == url[0..2][0] && url[1] == url[0..2][1];
    }
  }

  /** The string elements of a `styleUrls` array that are not relative URLs, in order. */
  function StyleUrlFailures(styleUrls: Option<Expression>): (r: seq<Span>)
    ensures styleUrls.None? || !styleUrls.value.ArrayLiteral? ==> r == []
    ensures styleUrls.Some? && styleUrls.value.ArrayLiteral? ==> r == RejectedElements(styleUrls.value.elements)
  {
    match styleUrls
    case Some(ArrayLiteral(_, elements)) => RejectedElements(elements)
    case _ => []
  }

  /** A string element that fails the pattern. */
  predicate Rejected(e: Expression) {
    e.StringLiteral? && !IsRelativeUrl(e.text)
  }

  /** One span per string element that fails the pattern; other elements are skipped. */
  function RejectedElements(elements: seq<Expression>): (r: seq<Span>)
    ensures |r| <= |elements|
  {
    if |elements| == 0 then []
    else (if Rejected(elements[0]) then [elements[0].span] else []) + RejectedElements(elements[1..])
  }

  /** A single element gives its span exactly when it is rejected. */
  lemma RejectedElementsOne(e: Expression)
    ensures RejectedElements([e]) == if Rejected(e) then [e.span] else []
  {
  }

  /**
   * The spans of two runs of elements are those of the first run followed by
   * those of the second: with `RejectedElementsOne`, one span per rejected
   * element, in the order of the array.
   */
  lemma {:induction false} RejectedElementsAppend(a: seq<Expression>, b: seq<Expression>)
    ensures RejectedElements(a + b) == RejectedElements(a) + RejectedElements(b)
    decreases |a|
  {
    if |a| == 0 {
      assert a + b == b;
    } else {
      var ab := a + b;
      assert ab[0] == a[0] && ab[1..] == a[1..] + b;
      var head: seq<Span> := if Rejected(a[0]) then [a[0].span] else [];
      assert RejectedElements(ab) == head + RejectedElements(a[1..] + b);
      RejectedElementsAppend(a[1..], b);
      assert RejectedElements(a) == head + RejectedElements(a[1..]);
    }
  }

  /** Every reported span belongs to a rejected element, and every rejected element is reported. */
  lemma {:induction false} RejectedElementsExact(elements: seq<Expression>)
    ensures forall k :: 0 <= k < |RejectedElements(elements)| ==>
              exists i :: 0 <= i < |elements| && Rejected(elements[i]) && elements[i].span == RejectedElements(elements)[k]
    ensures forall i :: 0 <= i < |elements| && Rejected(elements[i]) ==> elements[i].span in RejectedElements(elements)
  {
    if |elements| > 0 {
      var tail := elements[1..];
      RejectedElementsExact(tail);
      var r := RejectedElements(elements);
      var rest := RejectedElements(tail);
      var head: seq<Span> := if Rejected(elements[0]) then [elements[0].span] else [];
      assert r == head + rest;
      forall k | 0 <= k < |r|
        ensures exists i :: 0 <= i < |elements| && Rejected(elements[i]) && elements[i].span == r[k]
      {
        if k < |head| {
          assert Rejected(elements[0]) && elements[0].span == r[k];
        } else {
          assert r[k] == rest[k - |head|];
          var j :| 0 <= j < |tail| && Rejected(tail[j]) && tail[j].span == rest[k - |head|];
          assert elements[j + 1] == tail[j];
        }
      }
      forall i | 0 <= i < |elements| && Rejected(elements[i])
        ensures elements[i].span in r
      {
        if i > 0 {
          assert tail[i - 1] == elements[i];
        }
      }
      assert forall k :: 0 <= k < |r| ==>
               exists i :: 0 <= i < |elements| && Rejected(elements[i]) && elements[i].span == r[k];
    } else {
      assert RejectedElements(elements) == [];
    }
  }

  /** A string `templateUrl` that is not a relative URL. */
  function TemplateUrlFailures(templateUrl: Option<Expression>): (r: seq<Span>)
    ensures |r| <= 1
    ensures |r| == 1 <==> templateUrl.Some? && templateUrl.value.StringLiteral? && !IsRelativeUrl(templateUrl.value.text)
    ensures |r| == 1 ==> r[0] == templateUrl.value.span
  {
    match templateUrl
    case Some(StringLiteral(span, text)) => if IsRelativeUrl(text) then [] else [span]
    case _ => []
  }

  /** The failures for one component: the `styleUrls` ones, then the `templateUrl` one. */
  function ComponentFailures(styleUrls: Option<Expression>, templateUrl: Option<Expression>): (r: seq<Span>)
    ensures forall sp :: sp in r <==>
              (styleUrls.Some? && styleUrls.value.ArrayLiteral?
               && exists i :: 0 <= i < |styleUrls.value.elements|
                              && Rejected(styleUrls.value.elements[i]) && styleUrls.value.elements[i].span == sp)
              || (templateUrl.Some? && Rejected(templateUrl.value) && templateUrl.value.span == sp)
    ensures templateUrl.Some? && Rejected(templateUrl.value) ==> |r| > 0 && r[|r| - 1] == templateUrl.value.span
    ensures !(templateUrl.Some? && Rejected(templateUrl.value)) ==>
              |r| <= if styleUrls.Some? && styleUrls.value.ArrayLiteral? then |styleUrls.value.elements| else 0
  {
    var elements := if styleUrls.Some? && styleUrls.value.ArrayLiteral? then styleUrls.value.elements else [];
    RejectedElementsExact(elements);
    StyleUrlFailures(styleUrls) + TemplateUrlFailures(templateUrl)
  }

  /** The URLs the rule's tests accept and reject. */
  lemma UrlExamples()
    ensures IsRelativeUrl("./test.css") && IsRelativeUrl("./test.html")
    ensures !IsRelativeUrl("test.css") && !IsRelativeUrl(".//test.css") && !IsRelativeUrl("../test.css")
    ensures !IsRelativeUrl("./../test.css") && !IsRelativeUrl(".././test.css") && !IsRelativeUrl("./")
    ensures !IsRelativeUrl("./|x")
  {
  }

  /** Elements are checked one by one: only the rejected middle element is reported. */
  lemma StyleUrlsIndependent(a: Span, b: Span, c: Span)
    ensures StyleUrlFailures(Some(ArrayLiteral(Span(0, 0),
              [StringLiteral(a, "./test.css"), StringLiteral(b, "test1.css"), StringLiteral(c, "./test2.css")])))
         == [b]
  {
    var elements := [StringLiteral(a, "./test.css"), StringLiteral(b, "test1.css"), StringLiteral(c, "./test2.css")];
    assert elements[1..] == [StringLiteral(b, "test1.css"), StringLiteral(c, "./test2.css")];
    assert elements[1..][1..] == [StringLiteral(c, "./test2.css")];
    assert RejectedElements(elements[1..][1..]) == [];
    assert RejectedElements(elements[1..]) == [b];
    assert RejectedElements(elements) == [b];
  }

  /** Non-string elements and a non-array `styleUrls` are ignored. */
  lemma NonStringIgnored(a: Span, b: Span)
    ensures StyleUrlFailures(Some(ArrayLiteral(a, [OtherExpression(b)]))) == []
    ensures StyleUrlFailures(Some(StringLiteral(a, "test.css"))) == []
    ensures TemplateUrlFailures(Some(OtherExpression(a))) == []
  {
  }
}

=== FILE: strings.dfy ===
/**
 * Character classes and small string operations shared by the lint rules.
 * Strings are sequences of characters; the character classes follow the
 * ECMAScript definitions the rules' regular expressions rely on.
 */
module Strings {

  type String = seq<char>

  /** A value that may be absent, as `undefined` or a missing node is in the source. */
  datatype Option<T> = None | Some(value: T)

  /** The ECMAScript `\s` class: white space and line terminators. */
  predicate IsWhitespace(c: char) {
    || c == ' ' || c == '\t' || c == '\n' || c == '\r'
    || c == '\U{000B}' || c == '\U{000C}' || c == '\U{00A0}' || c == '\U{1680}'
    || ('\U{2000}' <= c <= '\U{200A}')
    || c == '\U{2028}' || c == '\U{2029}' || c == '\U{202F}' || c == '\U{205F}'
    || c == '\U{3000}' || c == '\U{FEFF}'
  }

  /** The ECMAScript line terminators: the characters `.` does not match. */
  predicate IsLineTerminator(c: char) {
    c == '\n' || c == '\r' || c == '\U{2028}' || c == '\U{2029}'
  }

  lemma LineTerminatorIsWhitespace(c: char)
    ensures IsLineTerminator(c) ==> IsWhitespace(c)
  {
  }

  /** The regular-expression class `[a-z]`. */
  predicate IsLowerAscii(c: char) {
    'a' <= c <= 'z'
  }

  /** ASCII upper-case letters become lower-case; every other character is kept. */
  function LowerChar(c: char): char {
    if 'A' <= c <= 'Z' then (c as int + 32) as char else c
  }

  function ToLower(s: String): (r: String)
    ensures |r| == |s|
    ensures forall i :: 0 <= i < |s| ==> r[i] == LowerChar(s[i])
  {
    if |s| == 0 then [] else [LowerChar(s[0])] + ToLower(s[1..])
  }

  predicate StartsWith(s: String, prefix: String) {
    |prefix| <= |s| && s[..|prefix|] == prefix
  }

  predicate EndsWith(s: String, suffix: String) {
    |suffix| <= |s| && s[|s| - |suffix|..] == suffix
  }

  /** `s` holds `w` starting at index `i`. */
  predicate OccursAt(s: String, i: nat, w: String) {
    i + |w| <= |s| && s[i..i + |w|] == w
  }

  lemma OccursAtFirst(s: String, i: nat, w: String)
    requires |w| > 0
    ensures OccursAt(s, i, w) ==> s[i] == w[0]
  {
    if OccursAt(s, i, w) {
      assert s[i] == s[i..i + |w|][0];
    }
  }

  /** Every character is white space, as when `trim()` yields the empty string. */
  predicate IsBlank(s: String) {
    forall i :: 0 <= i < |s| ==> IsWhitespace(s[i])
  }

  /** The first index at or after `j` that is not white space (or `|s|`). */
  function SkipWhitespace(s: String, j: nat): (k: nat)
    requires j <= |s|
    ensures j <= k <= |s|
    ensures forall m :: j <= m < k ==> IsWhitespace(s[m])
    ensures k == |s| || !IsWhitespace(s[k])
    decreases |s| - j
  {
    if j == |s| || !IsWhitespace(s[j]) then j else SkipWhitespace(s, j + 1)
  }

  /** The first line terminator at or after `j` (or `|s|`). */
  function NextLineTerminator(s: String, j: nat): (k: nat)
    requires j <= |s|
    ensures j <= k <= |s|
    ensures forall m :: j <= m < k ==> !IsLineTerminator(s[m])
    ensures k == |s| || IsLineTerminator(s[k])
    decreases |s| - j
  {
    if j == |s| || IsLineTerminator(s[j]) then j else NextLineTerminator(s, j + 1)
  }

  /** `Array.prototype.join`: the items separated by `sep`. */
  function Join(items: seq<String>, sep: String): String {
    if |items| == 0 then []
    else if |items| == 1 then items[0]
    else items[0] + sep + Join(items[1..], sep)
  }
}

=== FILE: template_no_call.dfy ===
/**
 * The template-no-call-expression rule: every method call in a template
 * binding expression is reported over its whole span, except the `$any`
 * type cast called on the implicit receiver. The walk visits a call
 * before its receiver and arguments, so nested calls are reported too.
 */
module TemplateNoCallExpression {
  import opened Strings

  datatype Span = Span(start: int, end: int)

  /** The binding expressions of a template. */
  datatype Expression =
    | ImplicitReceiver(span: Span)
    | PropertyRead(span: Span, receiver: Expression, name: String)
    | SafePropertyRead(span: Span, receiver: Expression, name: String)
    | PropertyWrite(span: Span, receiver: Expression, name: String, value: Expression)
    | KeyedRead(span: Span, obj: Expression, key: Expression)
    | KeyedWrite(span: Span, obj: Expression, key: Expression, value: Expression)
    | MethodCall(span: Span, receiver: Expression, name: String, args: seq<Expression>)
    | SafeMethodCall(span: Span, receiver: Expression, name: String, args: seq<Expression>)
    | FunctionCall(span: Span, target: Expression, args: seq<Expression>)
    | LiteralPrimitive(span: Span)
    | LiteralArray(span: Span, expressions: seq<Expression>)
    | LiteralMap(span: Span, values: seq<Expression>)           // the keys are plain names
    | Conditional(span: Span, condition: Expression, trueExp: Expression, falseExp: Expression)
    | Binary(span: Span, operation: String, left: Expression, right: Expression)
    | PrefixNot(span: Span, expression: Expression)
    | NonNullAssert(span: Span, expression: Expression)
    | BindingPipe(span: Span, exp: Expression, pipeName: String, args: seq<Expression>)
    | Interpolation(span: Span, expressions: seq<Expression>)
    | Chain(span: Span, expressions: seq<Expression>)

  const AnyTypeCastName: String := "$any"

  predicate IsCall(e: Expression) {
    e.MethodCall? || e.SafeMethodCall?
  }

  /** `isNgAnyTypeCastFunction`: a call named `$any` whose receiver is the implicit receiver. */
  predicate IsNgAnyTypeCast(e: Expression)
    requires IsCall(e)
  {
    e.name == AnyTypeCastName && e.receiver.ImplicitReceiver?
  }

  /** `validateMethodCall`: a call is reported unless it is the `$any` type cast. */
  predicate IsReported(e: Expression) {
    IsCall(e) && !IsNgAnyTypeCast(e)
  }

  /** The sub-expressions in the order the recursive visitor walks them. */
  function Children(e: Expression): (r: seq<Expression>)
    ensures forall i :: 0 <= i < |r| ==> r[i] < e
  {
    match e
    case ImplicitReceiver(_) => []
    case PropertyRead(_, receiver, _) => [receiver]
    case SafePropertyRead(_, receiver, _) => [receiver]
    case PropertyWrite(_, receiver, _, value) => [receiver, value]
    case KeyedRead(_, obj, key) => [obj, key]
    case KeyedWrite(_, obj, key, value) => [obj, key, value]
    case MethodCall(_, receiver, _, args) => [receiver] + args
    case SafeMethodCall(_, receiver, _, args) => [receiver] + args
    case FunctionCall(_, target, args) => [target] + args
    case LiteralPrimitive(_) => []
    case LiteralArray(_, expressions) => expressions
    case LiteralMap(_, values) => values
    case Conditional(_, condition, trueExp, falseExp) => [condition, trueExp, falseExp]
    case Binary(_, _, left, right) => [left, right]
    case PrefixNot(_, expression) => [expression]
    case NonNullAssert(_, expression) => [expression]
    case BindingPipe(_, exp, _, args) => [exp] + args
    case Interpolation(_, expressions) => expressions
    case Chain(_, expressions) => expressions
  }

  /**
   * The spans the rule reports for an expression: the expression's own span
   * when it is a reported call, then those of its sub-expressions in order.
   */
  function Failures(e: Expression): (r: seq<Span>)
    ensures IsReported(e) ==> |r| > 0 && r[0] == e.span
    ensures !IsReported(e) ==> r == FailuresAll(Children(e), e)
    decreases e, |Children(e)| + 1
  {
    (if IsReported(e) then [e.span] else []) + FailuresAll(Children(e), e)
  }

  /** The failures of the sub-expressions `es` of `parent`, in order. */
  function FailuresAll(es: seq<Expression>, ghost parent: Expression): seq<Span>
    requires forall i :: 0 <= i < |es| ==> es[i] < parent
    decreases parent, |es|
  {
    if |es| == 0 then [] else Failures(es[0]) + FailuresAll(es[1..], parent)
  }

  // ---------------------------------------------------------------------
  // An independent description: all sub-expressions, then a filter.
  // ---------------------------------------------------------------------

  /** Every sub-expression, the expression itself first (pre-order). */
  function Subterms(e: Expression): (r: seq<Expression>)
    ensures |r| > 0 && r[0] == e
    decreases e, |Children(e)| + 1
  {
    [e] + SubtermsAll(Children(e), e)
  }

  function SubtermsAll(es: seq<Expression>, ghost parent: Expression): seq<Expression>
    requires forall i :: 0 <= i < |es| ==> es[i] < parent
    decreases parent, |es|
  {
    if |es| == 0 then [] else Subterms(es[0]) + SubtermsAll(es[1..], parent)
  }

  /** The span of `e` when it is a reported call. */
  function ReportedSpan(e: Expression): (r: seq<Span>)
    ensures |r| <= 1
  {
    if IsReported(e) then [e.span] else []
  }

  /** The spans of the reported calls among `es`, in order. */
  function ReportedSpans(es: seq<Expression>): (r: seq<Span>)
    ensures |r| <= |es|
  {
    if |es| == 0 then [] else ReportedSpan(es[0]) + ReportedSpans(es[1..])
  }

  lemma {:induction false} ReportedSpansAppend(a: seq<Expression>, b: seq<Expression>)
    ensures ReportedSpans(a + b) == ReportedSpans(a) + ReportedSpans(b)
    decreases |a|
  {
    if |a| == 0 {
      assert a + b == b;
    } else {
      assert (a + b)[0] == a[0];
      assert (a + b)[1..] == a[1..] + b;
      ReportedSpansAppend(a[1..], b);
      calc {
        ReportedSpans(a + b);
        ReportedSpan(a[0]) + ReportedSpans(a[1..] + b);
        ReportedSpan(a[0]) + (ReportedSpans(a[1..]) + ReportedSpans(b));
        (ReportedSpan(a[0]) + ReportedSpans(a[1..])) + ReportedSpans(b);
      }
    }
  }

  /** The rule reports exactly the reported calls among all sub-expressions, in pre-order. */
  lemma {:induction false} FailuresAreReportedSubterms(e: Expression)
    ensures Failures(e) == ReportedSpans(Subterms(e))
    decreases e, |Children(e)| + 1
  {
    var cs := Children(e);
    FailuresAllAreReportedSubterms(cs, e);
    ReportedSpansAppend([e], SubtermsAll(cs, e));
  }

  lemma {:induction false} FailuresAllAreReportedSubterms(es: seq<Expression>, parent: Expression)
    requires forall i :: 0 <= i < |es| ==> es[i] < parent
    ensures FailuresAll(es, parent) == ReportedSpans(SubtermsAll(es, parent))
    decreases parent, |es|
  {
    if |es| > 0 {
      FailuresAreReportedSubterms(es[0]);
      FailuresAllAreReportedSubterms(es[1..], parent);
      ReportedSpansAppend(Subterms(es[0]), SubtermsAll(es[1..], parent));
    }
  }

  lemma {:induction false} ReportedSpansEmpty(es: seq<Expression>)
    ensures ReportedSpans(es) == [] <==> forall i :: 0 <= i < |es| ==> !IsReported(es[i])
    decreases |es|
  {
    if |es| > 0 {
      ReportedSpansEmpty(es[1..]);
      assert forall i :: 1 <= i < |es| ==> es[1..][i - 1] == es[i];
    }
  }

  /** An expression with no reported call anywhere in it produces no failure, and conversely. */
  lemma NoFailuresWithoutCalls(e: Expression)
    ensures Failures(e) == [] <==> forall t :: t in Subterms(e) ==> !IsReported(t)
  {
    FailuresAreReportedSubterms(e);
    ReportedSpansEmpty(Subterms(e));
  }

  /** The null-safe call is checked exactly like the plain call. */
  lemma SafeCallLikeCall(span: Span, receiver: Expression, name: String, args: seq<Expression>)
    ensures Failures(SafeMethodCall(span, receiver, name, args)) == Failures(MethodCall(span, receiver, name, args))
  {
    var safe := SafeMethodCall(span, receiver, name, args);
    var plain := MethodCall(span, receiver, name, args);
    FailuresAllSameParentFree(Children(safe), safe, plain);
  }

  /** The failures of a list of sub-expressions do not depend on which parent is named. */
  lemma {:induction false} FailuresAllSameParentFree(es: seq<Expression>, p: Expression, q: Expression)
    requires forall i :: 0 <= i < |es| ==> es[i] < p
    requires forall i :: 0 <= i < |es| ==> es[i] < q
    ensures FailuresAll(es, p) == FailuresAll(es, q)
    decreases |es|
  {
    if |es| > 0 {
      FailuresAllSameParentFree(es[1..], p, q);
    }
  }

  lemma FailuresAllOne(a: Expression, p: Expression)
    requires a < p
    ensures FailuresAll([a], p) == Failures(a)
  {
    assert [a][1..] == [];
  }

  lemma FailuresAllTwo(a: Expression, b: Expression, p: Expression)
    requires a < p && b < p
    ensures FailuresAll([a, b], p) == Failures(a) + Failures(b)
  {
    assert [a, b][1..] == [b];
    FailuresAllOne(b, p);
  }

  lemma ReceiverFree(span: Span)
    ensures Failures(ImplicitReceiver(span)) == []
  {
    assert Children(ImplicitReceiver(span)) == [];
  }

  /** A read wrapped around a call-free expression reports nothing. */
  lemma WrapperFree(e: Expression)
    requires e.PropertyRead? || e.SafePropertyRead? || e.NonNullAssert?
    requires Failures(if e.NonNullAssert? then e.expression else e.receiver) == []
    ensures Failures(e) == []
  {
    var c := if e.NonNullAssert? then e.expression else e.receiver;
    assert Children(e) == [c];
    FailuresAllOne(c, e);
  }

  /**
   * `$any(a)` on the implicit receiver is not reported itself, but the
   * walk still descends into its argument.
   */
  lemma AnyCastExempt(span: Span, receiverSpan: Span, arg: Expression)
    ensures Failures(MethodCall(span, ImplicitReceiver(receiverSpan), AnyTypeCastName, [arg])) == Failures(arg)
  {
    var e := MethodCall(span, ImplicitReceiver(receiverSpan), AnyTypeCastName, [arg]);
    assert Children(e) == [ImplicitReceiver(receiverSpan), arg];
    assert Children(e)[1] < e;
    FailuresAllTwo(ImplicitReceiver(receiverSpan), arg, e);
    ReceiverFree(receiverSpan);
  }

  /** A call named `$any` on any other receiver is reported: `obj.$any()`. */
  lemma AnyOnPropertyReported(span: Span, readSpan: Span, receiverSpan: Span)
    ensures Failures(MethodCall(span, PropertyRead(readSpan, ImplicitReceiver(receiverSpan), "obj"), AnyTypeCastName, []))
         == [span]
  {
    var read := PropertyRead(readSpan, ImplicitReceiver(receiverSpan), "obj");
    var e := MethodCall(span, read, AnyTypeCastName, []);
    ReceiverFree(receiverSpan);
    WrapperFree(read);
    assert Children(e) == [read];
    FailuresAllOne(read, e);
  }

  /** A call on the result of a call reports both, the outer one first: `a().b()`. */
  lemma NestedCallsReported(outer: Span, inner: Span, receiverSpan: Span)
    ensures Failures(MethodCall(outer, MethodCall(inner, ImplicitReceiver(receiverSpan), "a", []), "b", []))
         == [outer, inner]
  {
    var call := MethodCall(inner, ImplicitReceiver(receiverSpan), "a", []);
    var e := MethodCall(outer, call, "b", []);
    ReceiverFree(receiverSpan);
    assert Children(call) == [ImplicitReceiver(receiverSpan)];
    FailuresAllOne(ImplicitReceiver(receiverSpan), call);
    assert Failures(call) == [inner];
    assert Children(e) == [call];
    FailuresAllOne(call, e);
  }

  /**
   * `obj!.x?.y!.z?.$any()`: the cast is called on a property chain, not on
   * the implicit receiver, so it is reported once, over the whole call.
   */
  lemma SafeChainAnyReported(s0: Span, s1: Span, s2: Span, s3: Span, s4: Span, s5: Span, s6: Span, s7: Span)
    ensures Failures(SafeMethodCall(s0, PropertyRead(s1, NonNullAssert(s2, SafePropertyRead(s3,
              PropertyRead(s4, NonNullAssert(s5, PropertyRead(s6, ImplicitReceiver(s7), "obj")), "x"), "y")), "z"),
              AnyTypeCastName, []))
         == [s0]
  {
    ReceiverFree(s7);
    var obj := PropertyRead(s6, ImplicitReceiver(s7), "obj");
    WrapperFree(obj);
    var n := NonNullAssert(s5, obj);
    WrapperFree(n);
    var x := PropertyRead(s4, n, "x");
    WrapperFree(x);
    var y := SafePropertyRead(s3, x, "y");
    WrapperFree(y);
    var n2 := NonNullAssert(s2, y);
    WrapperFree(n2);
    var z := PropertyRead(s1, n2, "z");
    WrapperFree(z);
    var e := SafeMethodCall(s0, z, AnyTypeCastName, []);
    assert Children(e) == [z];
    FailuresAllOne(z, e);
  }

  /** A call inside an object literal is reported: `{active: isActive()}`. */
  lemma CallInMapReported(mapSpan: Span, callSpan: Span, receiverSpan: Span)
    ensures Failures(LiteralMap(mapSpan, [MethodCall(callSpan, ImplicitReceiver(receiverSpan), "isActive", [])]))
         == [callSpan]
  {
    var call := MethodCall(callSpan, ImplicitReceiver(receiverSpan), "isActive", []);
    var e := LiteralMap(mapSpan, [call]);
    ReceiverFree(receiverSpan);
    assert Children(call) == [ImplicitReceiver(receiverSpan)];
    FailuresAllOne(ImplicitReceiver(receiverSpan), call);
    assert Children(e) == [call];
    assert Children(e)[0] < e;
    FailuresAllOne(call, e);
  }

  /** All three parts of a keyed write are checked: `a[k()] = v()` reports both calls. */
  lemma KeyedWriteReported(span: Span, objSpan: Span, keySpan: Span, valueSpan: Span, r1: Span, r2: Span)
    ensures Failures(KeyedWrite(span, ImplicitReceiver(objSpan), MethodCall(keySpan, ImplicitReceiver(r1), "k", []),
              MethodCall(valueSpan, ImplicitReceiver(r2), "v", [])))
         == [keySpan, valueSpan]
  {
    var key := MethodCall(keySpan, ImplicitReceiver(r1), "k", []);
    var value := MethodCall(valueSpan, ImplicitReceiver(r2), "v", []);
    var e := KeyedWrite(span, ImplicitReceiver(objSpan), key, value);
    ReceiverFree(objSpan);
    ReceiverFree(r1);
    ReceiverFree(r2);
    assert Children(key) == [ImplicitReceiver(r1)];
    FailuresAllOne(ImplicitReceiver(r1), key);
    assert Children(value) == [ImplicitReceiver(r2)];
    FailuresAllOne(ImplicitReceiver(r2), value);
    assert Children(e) == [ImplicitReceiver(objSpan), key, value];
    assert [ImplicitReceiver(objSpan), key, value][1..] == [key, value];
    FailuresAllTwo(key, value, e);
  }
}

=== FILE: template_no_this.dfy ===
/**
 * The template-no-this rule: every `this.` (also `this?.`, `this!.` and
 * `this  .`) in a template's bound text, property, event or text node is
 * reported, with a fix that deletes exactly the matched text. A `this`
 * that itself follows a `.` is a property named `this` and is not reported.
 */
module TemplateNoThis {
  import opened Strings
  import opened GlobalScan

  // ---------------------------------------------------------------------
  // The pattern `(?<!\.\s*)(this\s*[\?\!]?\.)`, written out by hand.
  // ---------------------------------------------------------------------

  /** The look-behind `(?<!\.\s*)` fails: a `.` and then only white space lead up to `i`. */
  ghost predicate PrecededByDot(s: String, i: nat)
    requires i <= |s|
  {
    exists k :: 0 <= k < i && s[k] == '.' && forall m :: k < m < i ==> IsWhitespace(s[m])
  }

  /** The last index before `i` holding a non-white-space character, or -1. */
  function LastNonWhitespace(s: String, i: nat): (k: int)
    requires i <= |s|
    ensures -1 <= k < i
    ensures forall m :: k < m < i ==> IsWhitespace(s[m])
    ensures k >= 0 ==> !IsWhitespace(s[k])
    decreases i
  {
    if i == 0 then -1
    else if !IsWhitespace(s[i - 1]) then i - 1
    else LastNonWhitespace(s, i - 1)
  }

  /** The executable look-behind: the nearest non-blank character before `i` is a `.`. */
  predicate DotBefore(s: String, i: nat)
    requires i <= |s|
  {
    var k := LastNonWhitespace(s, i);
    k >= 0 && s[k] == '.'
  }

  lemma DotBeforeIsLookBehind(s: String, i: nat)
    requires i <= |s|
    ensures DotBefore(s, i) <==> PrecededByDot(s, i)
  {
    var k := LastNonWhitespace(s, i);
    if PrecededByDot(s, i) {
      var d :| 0 <= d < i && s[d] == '.' && forall m :: d < m < i ==> IsWhitespace(s[m]);
      assert !IsWhitespace(s[d]);
      assert d == k;
    }
  }

  /**
   * The regular expression matches at `i` with length `n`: `this`, a run of
   * white space ending at `j`, then `.` or one of `?`/`!` followed by `.`,
   * and the look-behind holds.
   */
  ghost predicate IsMatch(s: String, i: nat, n: nat)
    requires i <= |s|
  {
    && i + n <= |s|
    && OccursAt(s, i, "this")
    && !PrecededByDot(s, i)
    && (exists j :: i + 4 <= j < i + n && (forall m :: i + 4 <= m < j ==> IsWhitespace(s[m]))
          && ((n == j + 1 - i && s[j] == '.')
              || (n == j + 2 - i && (s[j] == '?' || s[j] == '!') && s[j + 1] == '.')))
  }

  /** The keyword `this` at `i`, character by character. */
  predicate ThisAt(s: String, i: nat) {
    i + 4 <= |s| && s[i] == 't' && s[i + 1] == 'h' && s[i + 2] == 'i' && s[i + 3] == 's'
  }

  lemma ThisAtOccurs(s: String, i: nat)
    ensures ThisAt(s, i) <==> OccursAt(s, i, "this")
  {
    if ThisAt(s, i) {
      assert s[i..i + 4] == "this";
    }
    if OccursAt(s, i, "this") {
      assert s[i..i + 4][0] == 't' && s[i..i + 4][1] == 'h' && s[i..i + 4][2] == 'i' && s[i..i + 4][3] == 's';
    }
  }

  /** The length of the match at `i`, or 0 when the pattern does not match there. */
  function MatchLength(s: String, i: nat): (n: nat)
    requires i <= |s|
    ensures n == 0 || n >= 5
    ensures i + n <= |s|
  {
    if !ThisAt(s, i) || DotBefore(s, i) then 0
    else
      var j := SkipWhitespace(s, i + 4);
      if j < |s| && s[j] == '.' then j + 1 - i
      else if j + 1 < |s| && (s[j] == '?' || s[j] == '!') && s[j + 1] == '.' then j + 2 - i
      else 0
  }

  /** `MatchLength` finds exactly the match the regular expression has at `i`. */
  lemma MatchLengthIsMatch(s: String, i: nat, n: nat)
    requires i <= |s|
    ensures IsMatch(s, i, n) <==> n > 0 && MatchLength(s, i) == n
  {
    DotBeforeIsLookBehind(s, i);
    ThisAtOccurs(s, i);
    if IsMatch(s, i, n) {
      var j :| i + 4 <= j < i + n && (forall m :: i + 4 <= m < j ==> IsWhitespace(s[m]))
         && ((n == j + 1 - i && s[j] == '.')
             || (n == j + 2 - i && (s[j] == '?' || s[j] == '!') && s[j + 1] == '.'));
      var k := SkipWhitespace(s, i + 4);
      assert !IsWhitespace(s[j]);
      assert j == k;
    }
    if n > 0 && MatchLength(s, i) == n {
      var j := SkipWhitespace(s, i + 4);
      assert i + 4 <= j < i + n;
    }
  }

  /** Every character of a match other than its first `t` differs from `t`. */
  lemma NoMatchInsideMatch(s: String, a: nat, p: nat)
    requires a < p <= |s|
    requires p < a + MatchLength(s, a)
    ensures MatchLength(s, p) == 0
  {
    if a + 4 <= p {
      var j := SkipWhitespace(s, a + 4);
      assert s[p] != 't' by {
        if p < j {
          assert IsWhitespace(s[p]);
        }
      }
    }
  }

  // ---------------------------------------------------------------------
  // The global scan: `exec` is repeated, each search starting where the
  // previous match ended.
  // ---------------------------------------------------------------------

  /** The match length at every position of `s`. */
  function MatchLengths(s: String): (ls: seq<nat>)
    ensures |ls| == |s|
    ensures forall i :: 0 <= i < |s| ==> ls[i] == MatchLength(s, i)
  {
    seq(|s|, i requires 0 <= i < |s| => MatchLength(s, i))
  }

  lemma MatchLengthsShape(s: String)
    ensures Fits(MatchLengths(s)) && NoNesting(MatchLengths(s))
  {
    var ls := MatchLengths(s);
    forall a, p | 0 <= a < p < |ls| && p < a + ls[a]
      ensures ls[p] == 0
    {
      NoMatchInsideMatch(s, a, p);
    }
  }

  /** All matches of the pattern in `s`, left to right. */
  function Matches(s: String): seq<Match> {
    MatchLengthsShape(s);
    ScanLengths(MatchLengths(s), 0)
  }

  /** The rule's matches: each is a match of the pattern, and every match of the pattern not inside another is one. */
  lemma MatchesSoundAndComplete(s: String, p: nat)
    ensures forall k :: 0 <= k < |Matches(s)| ==>
              Matches(s)[k].index < |s| && Matches(s)[k].length > 0
              && MatchLength(s, Matches(s)[k].index) == Matches(s)[k].length
    ensures StartsAt(Matches(s), p) <==> p < |s| && MatchLength(s, p) > 0
  {
    MatchLengthsShape(s);
    ScanSound(MatchLengths(s), 0);
    ScanComplete(MatchLengths(s), 0, p);
  }

  /** The matches of the pattern in a node's text, as the rule's loop finds them. */
  method FindMatches(s: String) returns (r: seq<Match>)
    ensures r == Matches(s)
  {
    var ls := MatchLengths(s);
    MatchLengthsShape(s);
    r := Search(ls);
  }

  // ---------------------------------------------------------------------
  // Failures, fixes and the already-linted spans.
  // ---------------------------------------------------------------------

  datatype Location = Location(offset: int, line: int, col: int)
  datatype SourceSpan = SourceSpan(start: Location, end: Location)

  /** A template node the rule validates: its span, its source text and the absolute offset of its start. */
  datatype Node = Node(span: SourceSpan, text: String, absoluteStart: int)

  /** A tslint replacement: `length` characters at `start` become `text`. */
  datatype Replacement = Replacement(start: int, length: int, text: String)

  datatype Failure = Failure(start: int, length: int, fix: Replacement)

  /** `isSameParseLocation`: column, line and offset agree. */
  predicate SameLocation(a: Location, b: Location) {
    a.col == b.col && a.line == b.line && a.offset == b.offset
  }

  predicate WasLinted(linted: seq<SourceSpan>, span: SourceSpan) {
    exists k :: 0 <= k < |linted| && SameLocation(linted[k].end, span.end) && SameLocation(linted[k].start, span.start)
  }

  /** The failures of one node: one per match, each carrying a deletion of the matched text. */
  function NodeFailures(node: Node): (r: seq<Failure>)
    ensures |r| == |Matches(node.text)|
    ensures forall k :: 0 <= k < |r| ==>
              var m := Matches(node.text)[k];
              && r[k].start == node.span.start.offset + m.index
              && r[k].length == m.length
              && r[k].fix == Replacement(node.absoluteStart + m.index, m.length, "")
  {
    FailuresOf(node, Matches(node.text))
  }

  function FailuresOf(node: Node, ms: seq<Match>): (r: seq<Failure>)
    ensures |r| == |ms|
    ensures forall k :: 0 <= k < |r| ==>
              && r[k].start == node.span.start.offset + ms[k].index
              && r[k].length == ms[k].length
              && r[k].fix == Replacement(node.absoluteStart + ms[k].index, ms[k].length, "")
  {
    if |ms| == 0 then []
    else
      [Failure(node.span.start.offset + ms[0].index, ms[0].length,
               Replacement(node.absoluteStart + ms[0].index, ms[0].length, ""))]
      + FailuresOf(node, ms[1..])
  }

  datatype LintState = LintState(failures: seq<Failure>, linted: seq<SourceSpan>)

  /** `validate`: a node whose span was linted before adds nothing; otherwise its span is recorded and its failures added. */
  function Validate(state: LintState, node: Node): (r: LintState)
    ensures WasLinted(state.linted, node.span) ==> r == state
    ensures !WasLinted(state.linted, node.span) ==>
              r.failures == state.failures + NodeFailures(node) && r.linted == state.linted + [node.span]
  {
    if WasLinted(state.linted, node.span) then state
    else LintState(state.failures + NodeFailures(node), state.linted + [node.span])
  }

  /** The nodes validated in visiting order. */
  function ValidateAll(state: LintState, nodes: seq<Node>): LintState
    decreases |nodes|
  {
    if |nodes| == 0 then state else ValidateAll(Validate(state, nodes[0]), nodes[1..])
  }

  /** Validating only ever extends the failures and the linted spans. */
  lemma {:induction false} ValidateAllExtends(state: LintState, nodes: seq<Node>)
    ensures var r := ValidateAll(state, nodes);
            && state.failures <= r.failures
            && state.linted <= r.linted
            && forall k :: 0 <= k < |nodes| ==> WasLinted(r.linted, nodes[k].span)
    decreases |nodes|
  {
    if |nodes| > 0 {
      var next := Validate(state, nodes[0]);
      ValidateAllExtends(next, nodes[1..]);
      var r := ValidateAll(next, nodes[1..]);
      assert WasLinted(next.linted, nodes[0].span) by {
        if !WasLinted(state.linted, nodes[0].span) {
          assert next.linted[|state.linted|] == nodes[0].span;
        }
      }
      var k0 :| 0 <= k0 < |next.linted| && SameLocation(next.linted[k0].end, nodes[0].span.end)
                && SameLocation(next.linted[k0].start, nodes[0].span.start);
      assert r.linted[k0] == next.linted[k0];
      forall k | 0 <= k < |nodes|
        ensures WasLinted(r.linted, nodes[k].span)
      {
        if k > 0 {
          assert nodes[1..][k - 1] == nodes[k];
        }
      }
    }
  }

  /** Nodes whose spans were all linted before change nothing. */
  lemma {:induction false} RelintChangesNothing(state: LintState, nodes: seq<Node>)
    requires forall k :: 0 <= k < |nodes| ==> WasLinted(state.linted, nodes[k].span)
    ensures ValidateAll(state, nodes) == state
    decreases |nodes|
  {
    if |nodes| > 0 {
      assert Validate(state, nodes[0]) == state;
      assert forall k :: 0 <= k < |nodes[1..]| ==> nodes[1..][k] == nodes[k + 1];
      RelintChangesNothing(state, nodes[1..]);
    }
  }

  lemma {:induction false} ValidateAllAppend(state: LintState, a: seq<Node>, b: seq<Node>)
    ensures ValidateAll(state, a + b) == ValidateAll(ValidateAll(state, a), b)
    decreases |a|
  {
    if |a| > 0 {
      assert (a + b)[0] == a[0];
      assert (a + b)[1..] == a[1..] + b;
      ValidateAllAppend(Validate(state, a[0]), a[1..], b);
    } else {
      assert a + b == b;
    }
  }

  /** Visiting the same nodes a second time reports nothing new. */
  lemma RevisitReportsNothing(nodes: seq<Node>)
    ensures ValidateAll(LintState([], []), nodes + nodes) == ValidateAll(LintState([], []), nodes)
  {
    var start := LintState([], []);
    ValidateAllAppend(start, nodes, nodes);
    ValidateAllExtends(start, nodes);
    RelintChangesNothing(ValidateAll(start, nodes), nodes);
  }

  // ---------------------------------------------------------------------
  // Applying the deletions.
  // ---------------------------------------------------------------------

  /** `String.prototype.slice` index clamping: negative counts from the end. */
  function ClampIndex(i: int, len: nat): (r: nat)
    ensures r <= len
    ensures 0 <= i <= len ==> r == i
  {
    if i < 0 then (if len + i < 0 then 0 else len + i) else if i > len then len else i
  }

  /** `replaceBetween`: the text before `start`, the replacement, and the text from `end` on. */
  function ReplaceBetween(value: String, start: int, end: int, replaceValue: String): (r: String)
    ensures 0 <= start <= |value| && 0 <= end <= |value| ==>
              r == value[..start] + replaceValue + value[end..]
    ensures |r| == ClampIndex(start, |value|) + |replaceValue| + (|value| - ClampIndex(end, |value|))
  {
    value[..ClampIndex(start, |value|)] + replaceValue + value[ClampIndex(end, |value|)..]
  }

  /** The deletions applied from the rightmost one leftwards, as tslint applies fixes. */
  function ApplyDeletions(s: String, ms: seq<Match>): String
    decreases |ms|
  {
    if |ms| == 0 then s
    else
      var last := ms[|ms| - 1];
      ApplyDeletions(ReplaceBetween(s, last.index, last.index + last.length, ""), ms[..|ms| - 1])
  }

  /** The text between the matches, read left to right from `from`. */
  function Kept(s: String, ms: seq<Match>, from: nat): String
    requires WellPlaced(ms, from, |s|)
    decreases |ms|
  {
    WellPlacedBounds(ms, from, |s|);
    if |ms| == 0 then s[from..]
    else
      WellPlacedBounds(ms[1..], ms[0].index + ms[0].length, |s|);
      s[from..ms[0].index] + Kept(s, ms[1..], ms[0].index + ms[0].length)
  }

  /** Deleting the rightmost match leaves the kept text of the others unchanged. */
  lemma {:induction false} KeptDropLast(s: String, ms: seq<Match>, from: nat)
    requires |ms| > 0 && WellPlaced(ms, from, |s|)
    ensures var last := ms[|ms| - 1];
            last.index + last.length <= |s|
            && var t := s[..last.index] + s[last.index + last.length..];
            WellPlaced(ms[..|ms| - 1], from, |t|)
            && Kept(s, ms, from) == Kept(t, ms[..|ms| - 1], from)
    decreases |ms|
  {
    WellPlacedBounds(ms, from, |s|);
    var last := ms[|ms| - 1];
    var a := last.index;
    var b := last.index + last.length;
    var t := s[..a] + s[b..];
    var init := ms[..|ms| - 1];
    var first := ms[0];
    var next := first.index + first.length;
    if |ms| == 1 {
      assert Kept(s, ms, from) == s[from..a] + Kept(s, ms[1..], b);
      assert t[from..] == s[from..a] + s[b..];
    } else {
      var tail := ms[1..];
      KeptDropLast(s, tail, next);
      assert tail[|tail| - 1] == last;
      assert tail[..|tail| - 1] == init[1..];
      WellPlacedBounds(tail, next, |s|);
      WellPlacedBounds(tail[..|tail| - 1], next, |t|);
      assert init == [first] + init[1..];
      assert init[0] == first;
      NextWithin(tail, next, |s|);
      assert t[from..first.index] == s[from..first.index];
      assert Kept(t, init, from) == t[from..first.index] + Kept(t, init[1..], next);
    }
  }

  /** The end of the first match lies at or before the start of the last one. */
  lemma NextWithin(ms: seq<Match>, from: nat, len: nat)
    requires |ms| > 0 && WellPlaced(ms, from, len)
    ensures from <= ms[|ms| - 1].index
  {
    WellPlacedBounds(ms, from, len);
  }

  /** Applying the deletions right to left leaves exactly the text between the matches. */
  lemma {:induction false} ApplyDeletionsKeepsGaps(s: String, ms: seq<Match>)
    requires WellPlaced(ms, 0, |s|)
    ensures ApplyDeletions(s, ms) == Kept(s, ms, 0)
    decreases |ms|
  {
    if |ms| == 0 {
      assert s[0..] == s;
    } else {
      var last := ms[|ms| - 1];
      KeptDropLast(s, ms, 0);
      var t := ReplaceBetween(s, last.index, last.index + last.length, "");
      assert t == s[..last.index] + s[last.index + last.length..];
      ApplyDeletionsKeepsGaps(t, ms[..|ms| - 1]);
    }
  }

  /** Sum of the match lengths. */
  function TotalLength(ms: seq<Match>): nat {
    if |ms| == 0 then 0 else ms[0].length + TotalLength(ms[1..])
  }

  /** The kept text is the original shortened by exactly the matched characters. */
  lemma {:induction false} KeptLength(s: String, ms: seq<Match>, from: nat)
    requires WellPlaced(ms, from, |s|)
    ensures from + TotalLength(ms) <= |s|
    ensures |Kept(s, ms, from)| == |s| - from - TotalLength(ms)
    decreases |ms|
  {
    WellPlacedBounds(ms, from, |s|);
    if |ms| > 0 {
      KeptLength(s, ms[1..], ms[0].index + ms[0].length);
    }
  }

  /** A single deletion removes exactly its characters. */
  lemma DeleteOne(s: String, i: nat, n: nat)
    requires i + n <= |s|
    ensures ApplyDeletions(s, [Match(i, n)]) == s[..i] + s[i + n..]
  {
    assert [Match(i, n)][..0] == [];
  }

  /** The rule's matches are well placed, so fixing a node removes exactly the reported text. */
  lemma FixRemovesMatches(s: String)
    ensures WellPlaced(Matches(s), 0, |s|)
    ensures ApplyDeletions(s, Matches(s)) == Kept(s, Matches(s), 0)
    ensures |ApplyDeletions(s, Matches(s))| == |s| - TotalLength(Matches(s))
  {
    MatchLengthsShape(s);
    ScanWellPlaced(MatchLengths(s), 0);
    ApplyDeletionsKeepsGaps(s, Matches(s));
    KeptLength(s, Matches(s), 0);
  }

  // ---------------------------------------------------------------------
  // The cases the rule's tests pin down.
  // ---------------------------------------------------------------------

  /** `this?.` and `this!.` are matched with their operator: six characters. */
  lemma SafeAndNonNullLength(s: String, i: nat)
    requires i + 6 <= |s| && s[i..i + 6] in ["this?.", "this!."]
    requires !PrecededByDot(s, i)
    ensures MatchLength(s, i) == 6
  {
    DotBeforeIsLookBehind(s, i);
    assert s[i..i + 4] == s[i..i + 6][..4];
    assert s[i + 4] == s[i..i + 6][4] && s[i + 5] == s[i..i + 6][5];
    assert SkipWhitespace(s, i + 4) == i + 4;
  }

  /** A property named `this`, reached through `.` and white space, is not a match. */
  lemma PropertyNamedThis(s: String, i: nat, k: nat)
    requires k < i <= |s| && s[k] == '.'
    requires forall m :: k < m < i ==> IsWhitespace(s[m])
    ensures MatchLength(s, i) == 0
  {
    DotBeforeIsLookBehind(s, i);
  }

  /** Indexed access `this[...]` is never a match: a `[` follows the keyword. */
  lemma IndexedAccessNotMatched(s: String, i: nat)
    requires i + 5 <= |s| && s[i..i + 5] == "this["
    ensures MatchLength(s, i) == 0
  {
    assert s[i..i + 4] == s[i..i + 5][..4];
    assert s[i + 4] == s[i..i + 5][4];
    assert SkipWhitespace(s, i + 4) == i + 4;
  }

  /** A match starts with `t`: where there is none, nothing matches. */
  lemma MissWithoutT(s: String, p: nat)
    requires p < |s| && s[p] != 't'
    ensures MatchLength(s, p) == 0
  {
  }

  /** `this.` directly, with no dot before it: a five-character match. */
  lemma PlainMatch(s: String, i: nat)
    requires ThisAt(s, i) && i + 4 < |s| && s[i + 4] == '.'
    requires !DotBefore(s, i)
    ensures MatchLength(s, i) == 5
  {
    assert SkipWhitespace(s, i + 4) == i + 4;
  }

  /**
   * A text whose only match is at `i`: every other position either holds no
   * `t` or is the position `j`, where the pattern is known not to match.
   */
  lemma SingleMatch(s: String, i: nat, j: nat)
    requires i < |s| && MatchLength(s, i) > 0
    requires j < |s| && (j == i || MatchLength(s, j) == 0)
    requires forall p :: 0 <= p < |s| && p != i && p != j ==> s[p] != 't'
    ensures Matches(s) == [Match(i, MatchLength(s, i))]
  {
    var ls := MatchLengths(s);
    MatchLengthsShape(s);
    forall p | 0 <= p < |s| && p != i
      ensures ls[p] == 0
    {
      if p != j {
        MissWithoutT(s, p);
      }
    }
    var n := MatchLength(s, i);
    ScanSkipsMisses(ls, i + n, |s|);
    ScanSkipsMisses(ls, 0, i);
  }

  /** A text opening with `{{ this.`: the keyword at position 3 is a five-character match. */
  lemma LeadingThis(s: String)
    requires 8 <= |s| && s[..8] == "{{ this."
    ensures MatchLength(s, 3) == 5
  {
    assert s[1] == s[..8][1] && s[2] == s[..8][2];
    assert s[3..7] == s[..8][3..7] && s[7] == s[..8][7];
    assert LastNonWhitespace(s, 3) == 1;
    PlainMatch(s, 3);
  }

  /** A text whose only `t` is at `i`, where the pattern matches: that is the only match. */
  lemma OnlyMatch(s: String, i: nat)
    requires i < |s| && MatchLength(s, i) > 0
    requires forall p :: 0 <= p < |s| && p != i ==> s[p] != 't'
    ensures Matches(s) == [Match(i, MatchLength(s, i))]
  {
    SingleMatch(s, i, i);
  }

  /** `{{ this.foo }}`: one five-character match; the fix leaves `{{ foo }}`. */
  lemma ExampleInterpolation()
    ensures Matches("{{ this.foo }}") == [Match(3, 5)]
    ensures ApplyDeletions("{{ this.foo }}", Matches("{{ this.foo }}")) == "{{ foo }}"
  {
    var s := "{{ this.foo }}";
    assert s[..8] == "{{ this.";
    LeadingThis(s);
    assert forall p :: 0 <= p < |s| && p != 3 ==> s[p] != 't';
    OnlyMatch(s, 3);
    ExampleInterpolationFix();
  }

  /** `{{ this.foo. this.    baz }}`: the second `this` follows a `.` and is kept. */
  lemma ExamplePropertyChain()
    ensures Matches("{{ this.foo. this.    baz }}") == [Match(3, 5)]
    ensures ApplyDeletions("{{ this.foo. this.    baz }}", Matches("{{ this.foo. this.    baz }}")) == "{{ foo. this.    baz }}"
  {
    var s := "{{ this.foo. this.    baz }}";
    assert s[..8] == "{{ this.";
    LeadingThis(s);
    ExamplePropertyChainSecond();
    assert forall p :: 0 <= p < |s| && p != 3 && p != 13 ==> s[p] != 't';
    SingleMatch(s, 3, 13);
    ExamplePropertyChainFix();
  }

  /** `{{ this.  foo$ | async }}`: only `this.` is deleted; the blanks after it stay. */
  lemma ExampleKeepsWhitespace()
    ensures Matches("{{ this.  foo$ | async }}") == [Match(3, 5)]
    ensures ApplyDeletions("{{ this.  foo$ | async }}", Matches("{{ this.  foo$ | async }}")) == "{{   foo$ | async }}"
  {
    var s := "{{ this.  foo$ | async }}";
    assert s[..8] == "{{ this.";
    LeadingThis(s);
    assert forall p :: 0 <= p < |s| && p != 3 ==> s[p] != 't';
    OnlyMatch(s, 3);
    ExampleKeepsWhitespaceFix();
  }

  lemma ExampleInterpolationFix()
    ensures ApplyDeletions("{{ this.foo }}", [Match(3, 5)]) == "{{ foo }}"
  {
    var s := "{{ this.foo }}";
    DeleteOne(s, 3, 5);
    assert s[..3] + s[8..] == "{{ foo }}";
  }

  lemma ExamplePropertyChainFix()
    ensures ApplyDeletions("{{ this.foo. this.    baz }}", [Match(3, 5)]) == "{{ foo. this.    baz }}"
  {
    var s := "{{ this.foo. this.    baz }}";
    DeleteOne(s, 3, 5);
    assert s[..3] + s[8..] == "{{ foo. this.    baz }}";
  }

  lemma ExampleKeepsWhitespaceFix()
    ensures ApplyDeletions("{{ this.  foo$ | async }}", [Match(3, 5)]) == "{{   foo$ | async }}"
  {
    var s := "{{ this.  foo$ | async }}";
    DeleteOne(s, 3, 5);
    assert s[..3] + s[8..] == "{{   foo$ | async }}";
  }

  lemma ExamplePropertyChainSecond()
    ensures MatchLength("{{ this.foo. this.    baz }}", 13) == 0
  {
    var s := "{{ this.foo. this.    baz }}";
    assert s[11] == '.' && s[12] == ' ';
    assert LastNonWhitespace(s, 12) == 11;
    assert LastNonWhitespace(s, 13) == 11;
  }

  /** `{{ this['foo'] }}` has no match at all. */
  lemma ExampleIndexedAccess()
    ensures Matches("{{ this['foo'] }}") == []
  {
    var s := "{{ this['foo'] }}";
    var ls := MatchLengths(s);
    MatchLengthsShape(s);
    assert SkipWhitespace(s, 7) == 7;
    assert MatchLength(s, 3) == 0;
    assert forall p :: 0 <= p < |s| && p != 3 ==> s[p] != 't';
    forall p | 0 <= p < |s| && p != 3
      ensures ls[p] == 0
    {
      MissWithoutT(s, p);
    }
    ScanSkipsMisses(ls, 0, |s|);
  }
}

=== FILE: unused_css.dfy ===
/**
 * The no-unused-css rule: each selector of a component's style rules is
 * normalised part by part, tokenized, and looked for in the template; a rule
 * none of whose selectors is used is reported with a fix deleting it, unless
 * the component turns view encapsulation off.
 */
module UnusedCss {
  import opened Strings
  import opened CssMatch
  import Regex

  // ---------------------------------------------------------------------
  // Normalising the parts of a selector.
  // ---------------------------------------------------------------------

  /** A pseudo-element marker `::` starts at `j`. */
  predicate PseudoAt(p: String, j: nat) {
    j + 1 < |p| && p[j] == ':' && p[j + 1] == ':'
  }

  /** The first `::` at or after `j`, or `|p|`. */
  function FirstPseudo(p: String, j: nat): (k: nat)
    requires j <= |p|
    ensures j <= k <= |p|
    ensures forall m :: j <= m < k ==> !PseudoAt(p, m)
    ensures k < |p| ==> PseudoAt(p, k)
    decreases |p| - j
  {
    if j == |p| then j else if PseudoAt(p, j) then j else FirstPseudo(p, j + 1)
  }

  /** The part before its first `::` (the first piece of `split(/::/g)`). */
  function CutPseudo(p: String): (r: String)
    ensures |r| <= |p| && r == p[..|r|]
    ensures forall m :: 0 <= m < |r| ==> !PseudoAt(p, m)
    ensures |r| < |p| ==> PseudoAt(p, |r|)
  {
    p[..FirstPseudo(p, 0)]
  }

  /** Cutting twice cuts nothing more. */
  lemma CutPseudoIdempotent(p: String)
    ensures CutPseudo(CutPseudo(p)) == CutPseudo(p)
  {
    var r := CutPseudo(p);
    var rr := CutPseudo(r);
    if |rr| < |r| {
      assert PseudoAt(r, |rr|);
      assert r[|rr|] == p[|rr|];
      assert |rr| + 1 < |r| && r[|rr| + 1] == p[|rr| + 1];
      assert PseudoAt(p, |rr|);
    }
  }

  /** A part ending in `/` or `>`: `/deep/` or `>>>`. */
  predicate IsDeep(v: String) {
    |v| > 0 && (v[|v| - 1] == '/' || v[|v| - 1] == '>')
  }

  /** A part starting with `:`: `:host`, `:host-context(…)`. */
  predicate IsHost(v: String) {
    |v| > 0 && v[0] == ':'
  }

  /** `PSEUDO_ELEMENT_PATTERN`, `/::/g`. */
  const PseudoPattern: Regex.Re := Regex.Literal("::")

  /**
   * `DEEP_SELECTOR_PATTERN`, `/(.*)[\/>]$/`, without its leading `(.*)`: the
   * test is not anchored at the start, so that group may match nothing and
   * a match exists exactly when one exists without it.
   */
  const DeepPattern: Regex.Re := Regex.Cat(Regex.Alt(Regex.Char('/'), Regex.Char('>')), Regex.End)

  /** `HOST_SELECTOR_PATTERN`, `/^:/`. */
  const HostPattern: Regex.Re := Regex.Cat(Regex.Start, Regex.Literal(":"))

  /** A match of `::` is two characters long and is a pseudo-element marker. */
  lemma PseudoPatternMatches(p: String, i: nat, j: nat)
    requires i <= j <= |p|
    ensures Regex.Matches(PseudoPattern, p, i, j) <==> j == i + 2 && PseudoAt(p, i)
  {
    Regex.LiteralMatches("::", p, i, j);
    if j == i + 2 {
      assert OccursAt(p, i, "::") <==> p[i..i + 2] == "::";
      assert p[i..i + 2] == [p[i], p[i + 1]];
    }
  }

  /**
   * `split(/::/g)[0]`: the cut ends where the first match of `::` begins, or
   * at the end of the part when there is none, and no match begins earlier.
   */
  lemma CutPseudoIsSplit(p: String)
    ensures |CutPseudo(p)| == |p| || Regex.Matches(PseudoPattern, p, |CutPseudo(p)|, |CutPseudo(p)| + 2)
    ensures forall m, n :: 0 <= m < |CutPseudo(p)| && m <= n <= |p| ==> !Regex.Matches(PseudoPattern, p, m, n)
  {
    var r := CutPseudo(p);
    if |r| < |p| {
      PseudoPatternMatches(p, |r|, |r| + 2);
    }
    forall m, n | 0 <= m < |r| && m <= n <= |p|
      ensures !Regex.Matches(PseudoPattern, p, m, n)
    {
      PseudoPatternMatches(p, m, n);
    }
  }

  /** The hand-written test agrees with `DEEP_SELECTOR_PATTERN.test(v)`. */
  lemma DeepIsRegex(v: String)
    ensures IsDeep(v) <==> Regex.Test(DeepPattern, v)
  {
    var slashOrGt := Regex.Alt(Regex.Char('/'), Regex.Char('>'));
    if IsDeep(v) {
      var n := |v|;
      Regex.AltIntro(Regex.Char('/'), Regex.Char('>'), v, n - 1, n);
      Regex.CatJoin(slashOrGt, Regex.End, v, n - 1, n, n);
      Regex.TestIntro(DeepPattern, v, n - 1, n);
    }
    if Regex.Test(DeepPattern, v) {
      var i, j := Regex.TestWitness(DeepPattern, v);
      var k := Regex.CatSplit(slashOrGt, Regex.End, v, i, j);
      Regex.AltElim(Regex.Char('/'), Regex.Char('>'), v, i, k);
    }
  }

  /** The hand-written test agrees with `HOST_SELECTOR_PATTERN.test(v)`. */
  lemma HostIsRegex(v: String)
    ensures IsHost(v) <==> Regex.Test(HostPattern, v)
  {
    Regex.TestAnchoredLiteral(":", v);
    if |v| > 0 {
      assert v[..1] == [v[0]];
    }
  }

  /**
   * The text handed to the tokenizer: each part cut at `::` and followed by a
   * space; parts starting with `:` are dropped, and a part ending in `/` or
   * `>` is kept and ends the scan.
   */
  function Normalize(parts: seq<String>): String {
    if |parts| == 0 then ""
    else
      var v := CutPseudo(parts[0]);
      if IsDeep(v) then v + " "
      else if IsHost(v) then Normalize(parts[1..])
      else v + " " + Normalize(parts[1..])
  }

  /** A part that adds nothing: after the cut it starts with `:` and does not end the scan. */
  predicate Dropped(p: String) {
    IsHost(CutPseudo(p)) && !IsDeep(CutPseudo(p))
  }

  /** Nothing is left to match exactly when every part is dropped. */
  lemma {:induction false} NormalizeEmptyIff(parts: seq<String>)
    ensures Normalize(parts) == "" <==> forall i :: 0 <= i < |parts| ==> Dropped(parts[i])
  {
    if |parts| > 0 {
      NormalizeEmptyIff(parts[1..]);
      assert forall i :: 1 <= i < |parts| ==> parts[1..][i - 1] == parts[i];
    }
  }

  /** Parts after a `/deep/` or `>>>` part do not change the text. */
  lemma {:induction false} NormalizeStopsAtDeep(parts: seq<String>, i: nat)
    requires i < |parts| && IsDeep(CutPseudo(parts[i]))
    ensures Normalize(parts) == Normalize(parts[..i + 1])
  {
    if i > 0 && !IsDeep(CutPseudo(parts[0])) {
      NormalizeStopsAtDeep(parts[1..], i - 1);
      assert parts[..i + 1][1..] == parts[1..][..i];
    }
  }

  /** Pseudo-elements are ignored: cutting every part first changes nothing. */
  lemma {:induction false} NormalizeIgnoresPseudo(parts: seq<String>)
    ensures Normalize(parts) == Normalize(seq(|parts|, i requires 0 <= i < |parts| => CutPseudo(parts[i])))
  {
    var cut := seq(|parts|, i requires 0 <= i < |parts| => CutPseudo(parts[i]));
    if |parts| > 0 {
      CutPseudoIdempotent(parts[0]);
      NormalizeIgnoresPseudo(parts[1..]);
      assert cut[1..] == seq(|parts[1..]|, i requires 0 <= i < |parts[1..]| => CutPseudo(parts[1..][i]));
    }
  }

  // ---------------------------------------------------------------------
  // The verdict for one selector.
  // ---------------------------------------------------------------------

  /** The synthetic root `*` wrapping the parsed template. */
  function Root(template: seq<Node>): (n: Node)
    ensures n.Element? && n.children == template && n.inputs == []
  {
    Element("*", [], [], template)
  }

  /**
   * Whether a selector counts as used: with no template, with nothing left
   * after normalisation, or when an element binds dynamically one of the
   * selector's kinds, it does; otherwise it is used when some element matches.
   */
  function SelectorUsed(template: Option<seq<Node>>, parts: seq<String>, tokenize: String -> Selector): bool {
    if template.None? then true
    else
      var text := Normalize(parts);
      if |text| == 0 then true
      else
        var sel := tokenize(text);
        var root := Root(template.value);
        !ShouldVisit(root, SelectorKinds(sel)) || Used(sel, root, [])
  }

  /** The verdict in terms of the template's elements and their ancestors. */
  lemma SelectorUsedIff(template: seq<Node>, parts: seq<String>, tokenize: String -> Selector)
    ensures SelectorUsed(Some(template), parts, tokenize) <==>
              (forall i :: 0 <= i < |parts| ==> Dropped(parts[i]))
              || (var sel := tokenize(Normalize(parts));
                  var vs := Visits(Root(template), []);
                  (exists k :: 0 <= k < |vs| && Dynamic(vs[k].node, SelectorKinds(sel)))
                  || (exists k :: 0 <= k < |vs| && MatchesAt(sel, vs[k].node, vs[k].path)))
  {
    NormalizeEmptyIff(parts);
    var sel := tokenize(Normalize(parts));
    ShouldVisitIffNoneDynamic(Root(template), SelectorKinds(sel), []);
    UsedIffSomeVisitMatches(sel, Root(template), []);
  }

  // ---------------------------------------------------------------------
  // Rules, failures and the encapsulation gate.
  // ---------------------------------------------------------------------

  /** A style rule: its offsets in the style text and its selectors, each a list of parts. */
  datatype CssRule = CssRule(start: int, end: int, selectors: seq<seq<String>>)

  /** A fix deleting `length` characters from `start`. */
  datatype Deletion = Deletion(start: int, length: int)

  datatype Failure = Failure(start: int, length: int, fix: Deletion)

  /**
   * An unused rule is reported over its whole text, and its fix deletes it
   * together with the character just before it.
   */
  function RuleFailure(rule: CssRule, template: Option<seq<Node>>, tokenize: String -> Selector): (r: Option<Failure>)
    ensures r.None? <==> exists i :: 0 <= i < |rule.selectors| && SelectorUsed(template, rule.selectors[i], tokenize)
    ensures r.Some? ==> r.value.start == rule.start && r.value.length == rule.end - rule.start + 1
    ensures r.Some? ==> r.value.fix.start == r.value.start - 1 && r.value.fix.length == r.value.length + 1
  {
    if exists i :: 0 <= i < |rule.selectors| && SelectorUsed(template, rule.selectors[i], tokenize) then None
    else
      var length := rule.end - rule.start + 1;
      Some(Failure(rule.start, length, Deletion(rule.start - 1, length + 1)))
  }

  /** The failures of a style's rules, in order. */
  function RuleFailures(rules: seq<CssRule>, template: Option<seq<Node>>, tokenize: String -> Selector): (r: seq<Failure>)
    ensures |r| <= |rules|
    ensures |r| == 0 <==> forall i :: 0 <= i < |rules| ==> RuleFailure(rules[i], template, tokenize).None?
    ensures forall f :: f in r ==> exists i :: 0 <= i < |rules| && RuleFailure(rules[i], template, tokenize) == Some(f)
    ensures forall i :: 0 <= i < |rules| && RuleFailure(rules[i], template, tokenize).Some? ==>
              RuleFailure(rules[i], template, tokenize).value in r
  {
    if |rules| == 0 then []
    else
      var rest := RuleFailures(rules[1..], template, tokenize);
      assert forall i :: 1 <= i < |rules| ==> rules[1..][i - 1] == rules[i];
      match RuleFailure(rules[0], template, tokenize)
      case Some(f) => [f] + rest
      case None => rest
  }

  /** A single rule gives its own failure, if any. */
  lemma RuleFailuresOne(rule: CssRule, template: Option<seq<Node>>, tokenize: String -> Selector)
    ensures RuleFailures([rule], template, tokenize)
         == if RuleFailure(rule, template, tokenize).Some? then [RuleFailure(rule, template, tokenize).value] else []
  {
  }

  /**
   * The failures of two runs of rules are those of the first run, then those
   * of the second: with `RuleFailuresOne`, one failure per unused rule, in
   * the order of the style.
   */
  lemma {:induction false} RuleFailuresAppend(a: seq<CssRule>, b: seq<CssRule>, template: Option<seq<Node>>,
                                              tokenize: String -> Selector)
    ensures RuleFailures(a + b, template, tokenize) == RuleFailures(a, template, tokenize) + RuleFailures(b, template, tokenize)
    decreases |a|
  {
    if |a| == 0 {
      assert a + b == b;
    } else {
      assert (a + b)[0] == a[0] && (a + b)[1..] == a[1..] + b;
      RuleFailuresAppend(a[1..], b, template, tokenize);
    }
  }

  /** The component's `encapsulation` value, as far as the gate looks at it. */
  datatype Encapsulation =
    | Absent
    | PropertyAccess(name: String)
    | OtherExpression

  /** Failures are kept unless encapsulation is `….None` or not a property access. */
  predicate EncapsulationEnabled(e: Encapsulation) {
    e.Absent? || (e.PropertyAccess? && e.name != "None")
  }

  /** The failures reported for one style of a component. */
  function StyleFailures(rules: seq<CssRule>, template: Option<seq<Node>>, tokenize: String -> Selector,
                         encapsulation: Encapsulation): (r: seq<Failure>)
    ensures !EncapsulationEnabled(encapsulation) ==> r == []
    ensures EncapsulationEnabled(encapsulation) ==> r == RuleFailures(rules, template, tokenize)
  {
    if EncapsulationEnabled(encapsulation) then RuleFailures(rules, template, tokenize) else []
  }

  /** The three shapes of the gate seen in the rule's tests. */
  lemma EncapsulationExamples()
    ensures EncapsulationEnabled(Absent)
    ensures EncapsulationEnabled(PropertyAccess("Emulated")) && EncapsulationEnabled(PropertyAccess("Native"))
    ensures !EncapsulationEnabled(PropertyAccess("None"))
    ensures !EncapsulationEnabled(OtherExpression)
  {
  }

  /** Without a template nothing is reported. */
  lemma NoTemplateNoFailures(rules: seq<CssRule>, tokenize: String -> Selector, encapsulation: Encapsulation)
    requires forall i :: 0 <= i < |rules| ==> |rules[i].selectors| > 0
    ensures StyleFailures(rules, None, tokenize, encapsulation) == []
  {
    if EncapsulationEnabled(encapsulation) {
      forall i | 0 <= i < |rules|
        ensures RuleFailure(rules[i], None, tokenize).None?
      {
        assert SelectorUsed(None, rules[i].selectors[0], tokenize);
      }
    }
  }

  // ---------------------------------------------------------------------
  // Examples from the rule's tests.
  // ---------------------------------------------------------------------

  /** A part with no `:` after its first character has no `::` to cut at. */
  lemma CutWithoutColon(p: String)
    requires forall j :: 0 < j < |p| ==> p[j] != ':'
    ensures CutPseudo(p) == p
  {
    var r := CutPseudo(p);
    assert !PseudoAt(p, |r|);
  }

  /** `div section::after` is looked for as `div section`. */
  lemma PseudoElementExample(div: String, section: String, after: String)
    requires div == "div" && section == "section" && after == "section::after"
    ensures Normalize([div, after]) == Normalize([div, section]) == div + " " + section + " "
  {
    CutWithoutColon(div);
    CutWithoutColon(section);
    var r := CutPseudo(after);
    assert PseudoAt(after, 7);
    assert forall m :: 0 <= m < 7 ==> after[m] != ':';
    assert |r| == 7;
    assert r == section;
    assert [div, after][1..] == [after] && [after][1..] == [];
    assert [div, section][1..] == [section] && [section][1..] == [];
    assert !IsDeep(div) && !IsHost(div) && !IsDeep(section) && !IsHost(section);
    assert Normalize([section]) == section + " ";
    assert Normalize([after]) == section + " ";
    assert div + " " + (section + " ") == div + " " + section + " ";
  }

  /** `:host` and `:host-context(h1)` alone leave nothing; `:host h1` leaves `h1`. */
  lemma HostExamples(host: String, context: String, h1: String)
    requires host == ":host" && context == ":host-context(h1)" && h1 == "h1"
    ensures Normalize([host]) == "" && Normalize([context]) == ""
    ensures Normalize([host, h1]) == h1 + " "
  {
    CutWithoutColon(host);
    CutWithoutColon(context);
    CutWithoutColon(h1);
    assert [host][1..] == [] && [context][1..] == [];
    assert [host, h1][1..] == [h1] && [h1][1..] == [];
  }

  /** `div >>> h1` and `div /deep/ h1` are looked for up to the piercing combinator. */
  lemma DeepExamples()
    ensures Normalize(["div", ">>>", "h1"]) == "div >>> "
    ensures Normalize(["div", "/deep/", "h1"]) == "div /deep/ "
  {
  }

  /** `[class.bar]` gives the class `bar`; `[class.head]` does not give `header`. */
  lemma ClassBindingExamples(bar: Node, head: Node)
    requires bar == Element("div", [], [Input(ClassBinding, "bar")], [])
    requires head == Element("h1", [], [Input(ClassBinding, "head")], [])
    ensures SimpleMatches(ClassSelector("bar"), bar)
    ensures !SimpleMatches(ClassSelector("header"), head)
  {
    assert ClassList(head) == ["head"];
  }

  /** An `[attr.id]` binding skips id and attribute selectors, but not class selectors. */
  lemma DynamicKindExamples(h1: Node)
    requires h1 == Element("h1", [], [Input(AttributeBinding, "id")], [])
    ensures !Dynamic(h1, Kinds(false, true, false))
    ensures Dynamic(h1, Kinds(false, false, true)) && Dynamic(h1, Kinds(true, false, false))
  {
    assert h1.inputs[0].name == "id";
  }

  /**
   * In `<div><section><span><h1>` the selector `div h1` finds the `h1`
   * through two elements in between.
   */
  lemma DescendantExample(root: Node, div: Node, section: Node, span: Node, h1: Node, sel: Selector)
    requires h1 == Element("h1", [], [], [Text])
    requires span == Element("span", [], [], [h1])
    requires section == Element("section", [], [], [span])
    requires div == Element("div", [], [], [section])
    requires root == Root([div])
    requires sel == [Step(Descendant, [TypeSelector("div")]), Step(Descendant, [TypeSelector("h1")])]
    ensures Used(sel, root, [])
  {
    var path := [root, div, section, span];
    assert MatchesAt(sel[..1], path[1], path[..1]);
    AncestorMatchesSome(sel[..1], path);
    assert MatchesAt(sel, h1, path);
    assert path[..3] + [span] == path && path[..2] + [section] == path[..3];
    assert path[..1] + [div] == path[..2] && [] + [root] == path[..1];
    assert UsedAll(sel, span.children, path, span);
    assert UsedAll(sel, section.children, path[..3], section);
    assert UsedAll(sel, div.children, path[..2], div);
    assert UsedAll(sel, root.children, path[..1], root);
  }

  /** An element whose tag the selector's last type selector rejects is used only if its one child is. */
  lemma {:induction false} OnlyChildMiss(sel: Selector, tag: String, n: Node, child: Node, path: seq<Node>)
    requires |sel| > 0 && sel[|sel| - 1].compound == [TypeSelector(tag)]
    requires n.Element? && n.children == [child] && Tag(n) != tag
    requires !Used(sel, child, path + [n])
    ensures !Used(sel, n, path)
  {
    assert !SimpleMatches(sel[|sel| - 1].compound[0], n);
    assert !CompoundMatches(sel[|sel| - 1].compound, n);
    assert [child][1..] == [];
    assert !UsedAll(sel, n.children, path + [n], n);
  }

  /** For the same tree `div h2` finds nothing: no element is an `h2`. */
  lemma DescendantMissExample(root: Node, div: Node, section: Node, span: Node, h1: Node, sel: Selector)
    requires h1 == Element("h1", [], [], [Text])
    requires span == Element("span", [], [], [h1])
    requires section == Element("section", [], [], [span])
    requires div == Element("div", [], [], [section])
    requires root == Root([div])
    requires sel == [Step(Descendant, [TypeSelector("div")]), Step(Descendant, [TypeSelector("h2")])]
    ensures !Used(sel, root, [])
  {
    var path := [root, div, section, span];
    assert path[..3] + [span] == path && path[..2] + [section] == path[..3];
    assert path[..1] + [div] == path[..2] && [] + [root] == path[..1];
    OnlyChildMiss(sel, "h2", h1, Text, path);
    OnlyChildMiss(sel, "h2", span, h1, path[..3]);
    OnlyChildMiss(sel, "h2", section, span, path[..2]);
    OnlyChildMiss(sel, "h2", div, section, path[..1]);
    OnlyChildMiss(sel, "h2", root, div, []);
  }
}
